=== FILE: README.md ===
# Axlas Recipes — a verified model of its core

Axlas Recipes is a recipe web site built on Next.js with a Sanity content
studio. This project models in Dafny the parts of it that hold real logic:

- the **TikTok videos endpoint** (`app/api/tiktok-videos/route.ts`). It finds
  the three most recent valid videos of the @axlas.cooks account, trying three
  strategies in turn: the structured API, profile-page scraping with six id
  rules, and a validated fallback list. It keeps the result in a five-minute,
  single-slot cache, enriches each URL through oEmbed, and answers GET and the
  POST `refresh` / `test` actions;
- the **seeding script** (`scripts/seed-recipes.ts`). It has its own slug
  function, builds one recipe document per seed record, and creates only the
  documents whose slug is not taken yet;
- the **studio schemas** (`sanity/schemas/recipe.ts`, `season.ts`,
  `ingredient.ts`): their field rules, the slug they generate from a title,
  and the ingredient preview;
- the **recipes grid** (`app/components/RecipesGridClient.tsx`): the season
  filter, "Show More" pagination and the card meta line;
- the **home page's** featured section (`app/page.tsx`);
- the **navigation bar's** active link and menu/scroll state
  (`app/components/Navbar.tsx`);
- the **image proxy** (`app/api/image-proxy/route.ts`) with its host allow-list;
- the **contact endpoint** (`app/api/contact/route.ts`).

Pure logic is modelled as datatypes, functions and lemmas. Loops that the
source writes as loops are `method`s with invariants, each proved equal to a
specification function. Component state and the process-wide cache are
classes whose methods change their fields. Three classes do this:
`TikTokCache.VideoCache`, `RecipesGrid.RecipesGrid` and `Navbar.Navbar`.

Everything outside the program is a parameter:

- every network request (the oEmbed validator and enrichment, the structured
  API, the profile page per user agent, the image upstream, the mail
  transport, the CMS lookups and upload);
- the clock;
- URL parsing;
- the scroll position.

A regular expression is modelled as an explicit matcher at a position. A
global `exec` loop becomes a scan that continues at the end of each match.

Files:

| file | module |
|---|---|
| `wrappers.dfy` | `Wrappers` (Option) |
| `js_text.dfy` | `JsText`: truthiness, `\s`, `toLowerCase`, `filter(Boolean)`, `String(n)` |
| `video_ids.dfy` | `VideoIds`: id rules, `extractVideoIdsFromHtml`, `extractTikTokVideoId`, embed URL |
| `discovery.dfy` | `Discovery`: validation loops, the three strategies, the cascade |
| `tiktok_cache.dfy` | `TikTokCache`: the cache slot and class `VideoCache` |
| `tiktok_route.dfy` | `TikTokRoute`: oEmbed enrichment, GET, POST |
| `slug_steps.dfy` | `SlugSteps`: filter, run hyphenation, trim, slice |
| `studio_slug.dfy` | `StudioSlug`: the studio's slugify |
| `seed_recipes.dfy` | `SeedRecipes`: the seed script's slugify, document, run loop |
| `recipe_schema.dfy`, `season_schema.dfy`, `ingredient_schema.dfy` | the schemas |
| `card_meta.dfy`, `recipes_grid.dfy`, `home_page.dfy`, `navbar.dfy` | the pages and components |
| `image_proxy.dfy`, `contact.dfy` | the two small endpoints |

## Behaviour worth noting

- Scraping stops at the first user agent whose page yields at least one id,
  even when none of those ids validates. A page that loads but yields no id
  moves on to the next agent.
- A contact request whose body is not JSON, or is JSON `null`, fails inside
  the `try` (parsing, or destructuring `null`), so it is answered 500 "Failed
  to send", not 400. A JSON number, string or array has no fields and gets
  400 "Missing fields".
- The embed URL is derived from the watch URL through `extractTikTokVideoId`,
  not from the stored id. For every URL discovery produces, the two agree
  (`TikTokRoute.RecordOfProfileUrl`).
- A POST body that is JSON but not an object (a number, a string, an array)
  has no `action`, so it is answered 400 "Invalid action"; only a body that
  is not JSON, or is JSON `null`, is answered 400 "Invalid request".

## Model

| member | source | states |
|---|---|---|
| `JsText.OrElse` | app/api/tiktok-videos/route.ts:51-56 | `s \|\| fallback` yields `s` exactly when it is present and non-empty, the fallback otherwise |
| `JsText.NonEmpty` | app/api/tiktok-videos/route.ts:53-55 | `s \|\| null` is present exactly when `s` is truthy, and then equals it |
| `JsText.LowerChar` | scripts/seed-recipes.ts:232 | lower-casing maps A-Z to a-z and leaves case-stable characters alone; it never turns whitespace into non-whitespace or back |
| `JsText.LowerKeeps` | sanity/schemas/recipe.ts:22 | lower-casing leaves slug characters and whitespace unchanged |
| `JsText.LowerIdempotent` | sanity/schemas/recipe.ts:22 | lower-casing twice is lower-casing once |
| `JsText.LowerCapitalised` | app/components/RecipesGridClient.tsx:133-144 | a capitalised word changes only in its first letter |
| `JsText.Lower` | sanity/schemas/recipe.ts:22 | `toLowerCase`; `LowerKeeps`, `LowerIdempotent` and `LowerCapitalised` state its properties |
| `JsText.FilterTruthy` | scripts/seed-recipes.ts:308-313 | `filter(Boolean)` keeps no empty string and never grows the list |
| `JsText.FilterTruthyMembers` | scripts/seed-recipes.ts:308-313 | a value survives `filter(Boolean)` exactly when it was present and non-empty |
| `JsText.FilterTruthyKeepsAll` | scripts/seed-recipes.ts:308-313 | when every lookup succeeded, all values survive, in order |
| `JsText.DecimalString` | app/page.tsx:123 | `String(idx)` is a non-empty digit string, one digit exactly below 10 |
| `JsText.DecimalRoundTrip` | app/page.tsx:123 | reading `String(n)` back gives `n`, so different positions give different keys |
| `VideoIds.DigitRunEnd` | app/api/tiktok-videos/route.ts:199-212 | the greedy `\d{10,}` capture ends at the end of the maximal digit run |
| `VideoIds.NextQuote` | app/api/tiktok-videos/route.ts:207 | `[^"]*` stops at the first quote: no quote before the returned index, a quote at it |
| `VideoIds.MatchAt` | app/api/tiktok-videos/route.ts:199-212 | a match of any of the six id rules captures only digits, at least ten, and ends after it starts |
| `VideoIds.Scan` | app/api/tiktok-videos/route.ts:214-223 | every capture of the repeated `exec` is a digit string of at least ten characters |
| `VideoIds.FirstIndex` | app/api/tiktok-videos/route.ts:216-220 | the position of the first occurrence of an id among the captures |
| `VideoIds.ExtractVideoIdsFromHtml` | app/api/tiktok-videos/route.ts:195-226 | the nested pattern/`exec` loops compute exactly the specification `ExtractVideoIds` |
| `VideoIds.ExtractVideoIds` | app/api/tiktok-videos/route.ts:195-226 | the ids of a page as a value; `ExtractVideoIdsFromHtml` is proved to compute it and `ExtractedIdsDistinctAndOrdered` states what it holds |
| `VideoIds.AddMatches` | app/api/tiktok-videos/route.ts:215-222 | the `exec` loop of one pattern adds its captures to the set in text order, as the specification does |
| `VideoIds.CollectAppend` | app/api/tiktok-videos/route.ts:214-223 | adding two batches to the id set one after the other is adding their concatenation |
| `VideoIds.CollectExtends` | app/api/tiktok-videos/route.ts:219-220 | `Set.add` under the length filter never moves or removes an id. It adds only plausible new ids, misses none of them, and keeps the set free of duplicates |
| `VideoIds.CollectKeepsFirstSeenOrder` | app/api/tiktok-videos/route.ts:219-225 | ids leave the set in the order of their first capture |
| `VideoIds.ExtractedIdsWellFormed` | app/api/tiktok-videos/route.ts:219 | every extracted id is all digits, 10 to 25 characters long |
| `VideoIds.CapturesAreDigits` | app/api/tiktok-videos/route.ts:199-212 | every capture of every rule is all digits |
| `VideoIds.ExtractedIdsDistinctAndOrdered` | app/api/tiktok-videos/route.ts:195-226 | the result has no duplicates, holds exactly the plausible captures, and is ordered by first capture |
| `VideoIds.ScanReaches` | app/api/tiktok-videos/route.ts:214-223 | the `exec` loop reaches every match that no earlier match overlaps, and captures it |
| `VideoIds.VideoMatchesDoNotOverlap` | app/api/tiktok-videos/route.ts:201 | two matches of the "/video/" rule never overlap |
| `VideoIds.VideoPathIdFound` | app/api/tiktok-videos/route.ts:199-223 | completeness: every "/video/" followed by a maximal run of 10 to 25 digits yields that run as an id |
| `VideoIds.LongVideoRunCapturedWhole` | app/api/tiktok-videos/route.ts:201-219 | a run of more than 25 digits is captured whole and then dropped, never truncated to a shorter id |
| `VideoIds.FirstVideoIdAt` | app/api/tiktok-videos/route.ts:82-85 | the regex search finds the leftmost "/video/" followed by a digit, or reports that there is none |
| `VideoIds.ExtractVideoId` | app/api/tiktok-videos/route.ts:82-85 | `extractTikTokVideoId` returns a non-empty digit string, and returns nothing exactly when no "/video/" is followed by a digit |
| `VideoIds.EmbedUrl` | app/api/tiktok-videos/route.ts:88-93 | the embed URL is the embed prefix plus the extracted id, or the URL itself when there is none |
| `VideoIds.NoVideoIdInProfilePrefix` | app/api/tiktok-videos/route.ts:151-154 | the profile watch-URL prefix contains no "/video/" followed by a digit before its own |
| `VideoIds.ProfileVideoUrlRoundTrip` | app/api/tiktok-videos/route.ts:82-93 | round trip: the id extracted from a watch URL built from an id is that id, and its embed URL is the prefix plus the id |
| `VideoIds.DigitRunCoversDigits` | app/api/tiktok-videos/route.ts:83 | `\d+` at the end of a watch URL captures every trailing digit |
| `Discovery.Accepted` | app/api/tiktok-videos/route.ts:161-171 | the accepted URLs are validator-approved URLs of the candidate list, never more than it has |
| `Discovery.AcceptedAppend` | app/api/tiktok-videos/route.ts:161-171 | validating two lists one after the other accepts the concatenation of their accepted URLs |
| `Discovery.AcceptedExactly` | app/api/tiktok-videos/route.ts:343-359 | a URL is accepted exactly when it is a candidate and the validator approves it |
| `Discovery.ValidateUntilEnough` | app/api/tiktok-videos/route.ts:161-171 | the validation loop calls the validator on a prefix of the candidates only. It stops right after the third acceptance and returns the first three accepted URLs in order |
| `Discovery.ValidateFallback` | app/api/tiktok-videos/route.ts:343-359 | every fallback URL is validated, with no cut-off, and the accepted ones are kept in order |
| `Discovery.Candidates` | app/api/tiktok-videos/route.ts:150-154 | at most ten candidates, the i-th the watch URL of the i-th id |
| `Discovery.TryPublicApi` | app/api/tiktok-videos/route.ts:229-296 | validation runs only on a positive video count and a present item list, and yields the first three accepted candidates |
| `Discovery.FirstProductivePage` | app/api/tiktok-videos/route.ts:133-185 | the ids of the first user agent's page that yields any are never empty |
| `Discovery.TryProfileScraping` | app/api/tiktok-videos/route.ts:122-192 | the user-agent loop returns the validated candidates of the first page that yields an id, or nothing |
| `Discovery.GetRecentVideosFromProfile` | app/api/tiktok-videos/route.ts:96-119 | the three strategies in turn; the first non-empty result is the answer |
| `Discovery.FirstAcceptedBounded` | app/api/tiktok-videos/route.ts:161-171 | a strategy yields at most three URLs, each one validated and among the candidates |
| `Discovery.CascadeBoundedAndValidated` | app/api/tiktok-videos/route.ts:96-119 | discovery returns at most three URLs. Each is validated and comes from the fallback list, the API's ids or the first productive page |
| `Discovery.Cascade` | app/api/tiktok-videos/route.ts:96-119 | the strategies in turn, the first non-empty result winning; bounded and validated by `CascadeBoundedAndValidated` |
| `Discovery.PublicApiResult` | app/api/tiktok-videos/route.ts:229-296 | the public API strategy as a value; `TryPublicApi` is proved to compute it |
| `Discovery.ScrapingResult` | app/api/tiktok-videos/route.ts:122-192 | the scraping strategy as a value; `TryProfileScraping` is proved to compute it |
| `Discovery.FirstAccepted` | app/api/tiktok-videos/route.ts:161-171 | the first three accepted candidates; `ValidateUntilEnough` is proved to compute it |
| `Discovery.ScrapingStopsAtFirstProductivePage` | app/api/tiktok-videos/route.ts:133-185 | for the first user agent, whichever it is, whose page yields an id, the result is the validated candidates of those ids; later pages make no difference, even when none of the ids validates |
| `Discovery.FirstProductivePageIsAt` | app/api/tiktok-videos/route.ts:133-185 | the user agents are tried in order: when the agents before `a` yield no id and `a` does, the ids are those of agent `a` |
| `Discovery.ScrapedUrlsRoundTrip` | app/api/tiktok-videos/route.ts:151-177 | scraped URLs are distinct, and each gives back the id it was built from |
| `Discovery.ValidatedCandidatesRoundTrip` | app/api/tiktok-videos/route.ts:150-171 | validated candidates of distinct digit ids are distinct watch URLs that give back their ids |
| `Discovery.ProfileVideoUrlInjective` | app/api/tiktok-videos/route.ts:154 | different ids give different watch URLs |
| `Discovery.CandidatesDistinct` | app/api/tiktok-videos/route.ts:150-154 | distinct ids give distinct candidates |
| `Discovery.CandidatesRoundTrip` | app/api/tiktok-videos/route.ts:150-154 | every candidate's extracted id is the id it was built from |
| `Discovery.AcceptedKeepsDistinct` | app/api/tiktok-videos/route.ts:161-171 | validation of distinct candidates accepts distinct URLs |
| `TikTokCache.ReadThrough` | app/api/tiktok-videos/route.ts:315-329 | a fresh slot answers without discovery. Otherwise discovery runs once and its result, even an empty one, is stored with the store time |
| `TikTokCache.SecondReadWithinTtlHits` | app/api/tiktok-videos/route.ts:307-329 | a second read within five minutes of a non-empty stored list runs no discovery and returns the same list |
| `TikTokCache.EmptyResultIsRediscovered` | app/api/tiktok-videos/route.ts:307-312 | an empty result is stored but never served as a hit; the next read rediscovers |
| `TikTokCache.StoredListServedUntilExpiry` | app/api/tiktok-videos/route.ts:307-312 | a stored non-empty list is served exactly while it is younger than the TTL |
| `TikTokCache.Fresh` | app/api/tiktok-videos/route.ts:307-312 | a slot is fresh while it holds a non-empty list stored less than five minutes ago; `IsCacheValid` is proved to decide it |
| `TikTokCache.VideoCache.constructor` | app/api/tiktok-videos/route.ts:300-304 | the cache starts with no data and timestamp 0 |
| `TikTokCache.VideoCache.IsCacheValid` | app/api/tiktok-videos/route.ts:307-312 | `isCacheValid` holds exactly when the slot is fresh: non-empty and younger than five minutes |
| `TikTokCache.VideoCache.GetCachedOrFetchVideos` | app/api/tiktok-videos/route.ts:315-329 | the method returns and stores exactly what `ReadThrough` describes, keeping at most three URLs in the slot |
| `TikTokCache.VideoCache.Clear` | app/api/tiktok-videos/route.ts:441-446 | the refresh action resets both fields |
| `TikTokRoute.EnrichmentNeverFabricates` | app/api/tiktok-videos/route.ts:27-79 | enrichment never yields an empty title or author and never invents a thumbnail. A failed request gives the fallback data |
| `TikTokRoute.RecordOfProfileUrl` | app/api/tiktok-videos/route.ts:384-399 | for a discovered URL, the record's id, URL and embed URL all agree with the video id |
| `TikTokRoute.AssembleVideos` | app/api/tiktok-videos/route.ts:384-399 | the enrichment loop builds one record per URL, in order, each from that URL's oEmbed answer |
| `TikTokRoute.RespondShape` | app/api/tiktok-videos/route.ts:370-414 | GET succeeds exactly when there is a URL, with `count` equal to the number of records. Otherwise it answers "No recent videos found" with no videos |
| `TikTokRoute.GetServesAtMostThree` | app/api/tiktok-videos/route.ts:361-430 | GET serves at most three videos, each for a URL of the cached list or of a fresh discovery |
| `TikTokRoute.TestSucceedsIffUrlsFound` | app/api/tiktok-videos/route.ts:456-474 | the test action reports "Success" exactly when discovery found a URL, even when its oEmbed request fails |
| `TikTokRoute.RespondWithRecords` | app/api/tiktok-videos/route.ts:403-414 | records built one URL at a time are the ones the success response carries |
| `TikTokRoute.Get` | app/api/tiktok-videos/route.ts:361-430 | GET reads through the cache, updating the slot as `ReadThrough` says, and answers `Respond` of the URLs read |
| `TikTokRoute.Post` | app/api/tiktok-videos/route.ts:433-486 | `refresh` always rediscovers and stores the result; `test` leaves the cache alone. Any other action, also the missing action of a JSON number, string or array, is 400 "Invalid action"; a body that is not JSON, or is JSON null, is 400 "Invalid request" |
| `TikTokRoute.VideoDataFor` | app/api/tiktok-videos/route.ts:27-79 | the oEmbed enrichment of one URL, with its fallbacks; `EnrichmentNeverFabricates` states what it yields |
| `TikTokRoute.RecordFor` | app/api/tiktok-videos/route.ts:384-399 | the record served for one URL; `RecordOfProfileUrl` states its id and URLs |
| `TikTokRoute.Respond` | app/api/tiktok-videos/route.ts:370-414 | the GET answer for a URL list; `RespondShape` states its shape |
| `TikTokRoute.TestReport` | app/api/tiktok-videos/route.ts:456-474 | the `test` action's report; `TestSucceedsIffUrlsFound` states when it succeeds |
| `SlugSteps.Filter` | sanity/schemas/recipe.ts:23 | `replace(/[^…]/g, "")` keeps only accepted characters, never growing the string |
| `SlugSteps.FilterAppend` | scripts/seed-recipes.ts:234 | the filter works piece by piece over a concatenation |
| `SlugSteps.FilterKeepsAll` | sanity/schemas/recipe.ts:23 | a string of accepted characters passes the filter unchanged |
| `SlugSteps.FilterDropsOne` | sanity/schemas/recipe.ts:23 | a rejected character between accepted ones is dropped and nothing else changes |
| `SlugSteps.HyphenateRuns` | sanity/schemas/recipe.ts:22 | replacing runs never lengthens the string |
| `SlugSteps.HyphenateRunsInto` | scripts/seed-recipes.ts:236 | after the runs are replaced, every character is '-' or an input character outside the class |
| `SlugSteps.HyphenateRunsKeeps` | sanity/schemas/recipe.ts:22 | a string whose class characters are isolated hyphens is left unchanged |
| `SlugSteps.CollapseKeepsSingleHyphens` | scripts/seed-recipes.ts:237 | collapsing hyphen runs leaves a string without doubled hyphens unchanged |
| `SlugSteps.HyphenateRunsCollapses` | scripts/seed-recipes.ts:237 | `replace(/-+/g, "-")` leaves no two adjacent hyphens |
| `SlugSteps.HyphenateRunsAppend` | scripts/seed-recipes.ts:236 | runs of a concatenation are replaced piece by piece, carrying the scan state across |
| `SlugSteps.HyphenateRunsOfRun` | scripts/seed-recipes.ts:236 | a whole run becomes one '-' |
| `SlugSteps.HyphenateRunsBetween` | sanity/schemas/recipe.ts:22 | a whitespace run between two words becomes exactly one '-' |
| `SlugSteps.HyphenateRunsAround` | scripts/seed-recipes.ts:236 | the two runs around a middle word each become one '-' |
| `SlugSteps.HyphenateRunsEdges` | sanity/schemas/recipe.ts:22 | runs at both edges become one '-' each |
| `SlugSteps.TrimStart` | scripts/seed-recipes.ts:235 | drops exactly the leading whitespace: what remains is a suffix not starting with whitespace |
| `SlugSteps.TrimEnd` | scripts/seed-recipes.ts:235 | drops exactly the trailing whitespace: what remains is a prefix not ending with whitespace |
| `SlugSteps.TrimIgnoresPadding` | scripts/seed-recipes.ts:235 | whitespace around a string makes no difference to `trim()` |
| `SlugSteps.TrimKeeps` | scripts/seed-recipes.ts:235 | a string without whitespace at either end is its own `trim()` |
| `SlugSteps.Truncate` | scripts/seed-recipes.ts:238 | `slice(0, n)` is the prefix of length `min(n, \|s\|)` |
| `StudioSlug.Slugify` | sanity/schemas/recipe.ts:20-25 | the studio's slugify always yields a slug of at most 96 characters |
| `StudioSlug.SlugifyFixesSlugs` | sanity/schemas/recipe.ts:20-25 | a slug of at most 96 characters, even one with doubled hyphens, is its own slug |
| `StudioSlug.SlugifyIdempotent` | sanity/schemas/recipe.ts:20-25 | slugifying twice is slugifying once |
| `StudioSlug.SlugifyJoinsWords` | sanity/schemas/recipe.ts:22 | any whitespace run between two words becomes exactly one '-' |
| `StudioSlug.SlugifyHyphenatesEdges` | sanity/schemas/recipe.ts:20-25 | unlike the seed script, leading and trailing whitespace become '-' |
| `StudioSlug.SlugifyDropsAmpersand` | sanity/schemas/recipe.ts:20-25 | "a & b" becomes "a--b": the '&' is dropped and each surrounding space becomes a hyphen |
| `StudioSlug.SlugifyThymeAndRosemary` | sanity/schemas/recipe.ts:20-25 | "thyme & rosemary" gives "thyme--rosemary" in the studio |
| `SeedRecipes.SlugifyWellFormed` | scripts/seed-recipes.ts:230-239 | the seed slug is a slug of at most 96 characters with no doubled hyphen |
| `SeedRecipes.TrimmedKeepsChars` | scripts/seed-recipes.ts:235 | `trim()` keeps only characters of its input |
| `SeedRecipes.BeforeTrimKeeps` | scripts/seed-recipes.ts:232-234 | slug characters and whitespace pass lower-casing, the '&' rewrite and the filter unchanged |
| `SeedRecipes.SlugifyFixesSlugs` | scripts/seed-recipes.ts:230-239 | a slug of at most 96 characters without doubled hyphens is its own seed slug |
| `SeedRecipes.SlugifyIdempotent` | scripts/seed-recipes.ts:230-239 | slugifying twice is slugifying once |
| `SeedRecipes.SlugifyIgnoresSurroundingSpace` | scripts/seed-recipes.ts:235 | whitespace around a title does not change its seed slug |
| `SeedRecipes.SlugifySpellsAmpersand` | scripts/seed-recipes.ts:233 | '&' between two words becomes the word "and" |
| `SeedRecipes.SlugifyThymeAndRosemary` | scripts/seed-recipes.ts:230-239 | "thyme & rosemary" gives "thyme-and-rosemary" in the seed script |
| `SeedRecipes.DocumentFields` | scripts/seed-recipes.ts:315-339 | the document carries the slug in its id and slug field and copies the seed's text. Absent fields get their defaults: 0 minutes, empty yield, "Easy", not featured |
| `SeedRecipes.DocumentListsPreserved` | scripts/seed-recipes.ts:308-331 | ingredients and steps map one to one, in order, each step to one block with one span. Season references are exactly the successful lookups |
| `SeedRecipes.BuiltDocumentIsValid` | scripts/seed-recipes.ts:315-339 | a document built with a non-empty slug from a seed with a non-empty title and alt text, at least one ingredient, each with a non-empty item, at least one step, and minutes that, when given, are whole and not negative passes every rule of the recipe schema |
| `SeedRecipes.BadSeedTimeIsFlagged` | scripts/seed-recipes.ts:315-339 | a negative or fractional prep or cook time in a seed is copied into the document, and the schema then flags that field |
| `SeedRecipes.SeedSlugs` | scripts/seed-recipes.ts:296 | one slug per seed, each the slug of its title |
| `SeedRecipes.RunWith` | scripts/seed-recipes.ts:288-346 | the run computes exactly `RunAll`: a rejected opening check ends it at once; the loop skips taken slugs, creates the rest in order, and stops at the first rejected query, failed upload, rejected season lookup or rejected creation |
| `SeedRecipes.Run` | scripts/seed-recipes.ts:288-346 | `run` with the script's own slugify computes exactly `RunAll` |
| `SeedRecipes.SlugsOfCons` | scripts/seed-recipes.ts:341 | the slugs of a document list are its first document's slug plus the others' |
| `SeedRecipes.RunCreatesOnlyNewSlugs` | scripts/seed-recipes.ts:295-343 | a run creates documents only for slugs not taken before, never two with the same slug, each with id "recipe." + slug. Afterwards exactly the old and the created slugs are taken |
| `SeedRecipes.RunSlugsComeFromSeeds` | scripts/seed-recipes.ts:295-343 | every created document's slug is one of the seeds' slugs |
| `SeedRecipes.RunCreatesWellFormedSlugs` | scripts/seed-recipes.ts:288-346 | every document a run creates has a well-formed slug of at most 96 characters |
| `SeedRecipes.TakenSeedIsSkipped` | scripts/seed-recipes.ts:298-305 | a seed whose slug is taken gets no document: the run goes on with the next seed, or, when the existence query was rejected, ends with nothing more created |
| `SeedRecipes.CompleteRunTakesEverySlug` | scripts/seed-recipes.ts:295-343 | no slug taken before is given up, and a run that nothing stopped has taken every seed's slug |
| `SeedRecipes.AbortHasACause` | scripts/seed-recipes.ts:295-343 | a run stops only at a seed with a rejected request or a failed upload, and when every request of every seed goes through it runs to the end |
| `SeedRecipes.Slugify` | scripts/seed-recipes.ts:230-239 | the seed script's `slugify`: lower-case, "&" spelled " and ", drop other characters, trim, hyphenate whitespace runs, collapse hyphens, cut at 96; its properties are the lemmas above |
| `SeedRecipes.BuildDocument` | scripts/seed-recipes.ts:315-339 | the document `run` creates for a seed; `DocumentFields`, `DocumentListsPreserved` and `BuiltDocumentIsValid` state what it holds |
| `SeedRecipes.SeedCreated` | scripts/seed-recipes.ts:307-341 | whether the upload, the season lookups and the creation of a seed's document all go through |
| `SeedRecipes.RunFrom` | scripts/seed-recipes.ts:295-343 | the loop from one seed on, in the script's order of requests; the run lemmas state what it creates and takes |
| `SeedRecipes.RunAll` | scripts/seed-recipes.ts:288-346 | `run`: the opening season check, then the loop; `RunWith` is proved to compute it |
| `RecipeSchema.ItemProblems` | sanity/schemas/ingredient.ts:24 | one message per ingredient line without an item, and none exactly when every line is valid |
| `RecipeSchema.ValidIffNoProblems` | sanity/schemas/recipe.ts:8-118 | a draft passes validation exactly when the studio shows no message for it |
| `RecipeSchema.Valid` | sanity/schemas/recipe.ts:8-118 | every validation rule of the recipe schema; `ValidIffNoProblems` ties it to the messages |
| `RecipeSchema.Problems` | sanity/schemas/recipe.ts:8-118 | the fields the studio flags, in schema order; `ValidIffNoProblems` ties it to `Valid` |
| `RecipeSchema.GenerateSlug` | sanity/schemas/recipe.ts:15-27 | the generated slug is a slug of at most 96 characters |
| `RecipeSchema.NewRecipe` | sanity/schemas/recipe.ts:107-116 | a new recipe starts with `featured` false and `publishedAt` set, and lacks exactly its title and slug |
| `RecipeSchema.NewRecipeNeedsTitleAndSlug` | sanity/schemas/recipe.ts:8-118 | a new recipe is invalid, and filling in a title and slug makes it valid |
| `SeasonSchema.GenerateSlug` | sanity/schemas/season.ts:21-26 | the season slug uses the recipe's transform and is a slug of at most 96 characters |
| `SeasonSchema.GeneratedSlugValidates` | sanity/schemas/season.ts:8-36 | a titled draft with a generated non-empty slug is valid, with or without an order. Regenerating from the slug changes nothing |
| `SeasonSchema.Valid` | sanity/schemas/season.ts:8-36 | the season schema's rules: a title and a slug are required |
| `IngredientSchema.Prepare` | sanity/schemas/ingredient.ts:36-39 | the preview title is the item, and the subtitle is never the empty string |
| `IngredientSchema.PrepareSubtitle` | sanity/schemas/ingredient.ts:37-38 | the subtitle is quantity and unit joined by one space, the one present, or none exactly when both are empty |
| `IngredientSchema.PreviewOf` | sanity/schemas/ingredient.ts:24-39 | a valid ingredient always has a title; a subtitle appears only with a quantity or unit |
| `IngredientSchema.Valid` | sanity/schemas/ingredient.ts:24 | an ingredient line needs an item |
| `CardMeta.StarCount` | app/components/RecipesGridClient.tsx:133-144 | at most three stars, and none without a difficulty |
| `CardMeta.MetaLine` | app/components/RecipesGridClient.tsx:133-176 | the label is the raw difficulty exactly when truthy; the total badge appears exactly when the summed minutes are non-zero, showing that sum |
| `CardMeta.StarCountIgnoresCase` | app/components/RecipesGridClient.tsx:137-144 | the star count does not depend on letter case |
| `CardMeta.ChoiceStars` | app/components/RecipesGridClient.tsx:137-144 | "Easy", "Medium" and "Hard" give one, two and three stars; no difficulty gives none |
| `CardMeta.TotalBadge` | app/components/RecipesGridClient.tsx:133-135 | with no negative minutes the badge is hidden exactly when both times are missing or zero |
| `RecipesGrid.SeasonOptions` | app/components/RecipesGridClient.tsx:40-48 | the given seasons when there are any, otherwise the four defaults from spring to winter |
| `RecipesGrid.WithSeason` | app/components/RecipesGridClient.tsx:50-55 | exactly the recipes having the season, never more than given |
| `RecipesGrid.Filtered` | app/components/RecipesGridClient.tsx:50-55 | all recipes while no season is active, otherwise exactly those with the active season |
| `RecipesGrid.WithSeasonAppend` | app/components/RecipesGridClient.tsx:52-54 | the filter keeps the recipes' order |
| `RecipesGrid.WithSeasonBounds` | app/components/RecipesGridClient.tsx:52-54 | a recipe without seasons is never shown under a season, and a season all recipes have keeps them all |
| `RecipesGrid.RecipesGrid.constructor` | app/components/RecipesGridClient.tsx:33-34 | the grid mounts with no season and nine visible cards |
| `RecipesGrid.RecipesGrid.Current` | app/components/RecipesGridClient.tsx:50-55 | the filtered list is never longer than the recipes |
| `RecipesGrid.RecipesGrid.Rendered` | app/components/RecipesGridClient.tsx:94 | the rendered cards are the first `min(visibleCount, filtered)` filtered recipes |
| `RecipesGrid.RecipesGrid.ShowMoreVisible` | app/components/RecipesGridClient.tsx:214 | "Show More" is offered exactly when a filtered recipe is not rendered |
| `RecipesGrid.RecipesGrid.ShowAllVisible` | app/components/RecipesGridClient.tsx:60 | while "SHOW ALL" is hidden every recipe is shown |
| `RecipesGrid.RecipesGrid.SelectSeason` | app/components/RecipesGridClient.tsx:35-78 | a season button selects its season, and the count returns to nine when the season changes |
| `RecipesGrid.RecipesGrid.ShowAll` | app/components/RecipesGridClient.tsx:35-62 | "SHOW ALL" clears the season, so every recipe passes and the button disappears |
| `RecipesGrid.RecipesGrid.ShowMore` | app/components/RecipesGridClient.tsx:220 | "Show More" renders every filtered recipe and so hides itself |
| `RecipesGrid.CardFor` | app/components/RecipesGridClient.tsx:99-147 | a grid card links to "/recipes/" + slug and shows at most three stars |
| `HomePage.CardAt` | app/page.tsx:123-147 | a featured card always has a non-empty key and title, and a link under "/recipes/" |
| `HomePage.FeaturedSectionShape` | app/page.tsx:96-124 | the placeholder appears exactly when nothing is featured; otherwise the first six recipes each get a card, in order |
| `HomePage.CardFallbacks` | app/page.tsx:123-147 | the slug gives key and link, else the position and the bare path; a missing title shows "Recipe" |
| `HomePage.IndexKeysDistinct` | app/page.tsx:123 | two cards without a slug never share a key |
| `HomePage.SameMetaAsGrid` | app/page.tsx:110-183 | the home page derives the meta line exactly as the grid does |
| `HomePage.FeaturedSection` | app/page.tsx:96-108 | the placeholder or the first six featured cards; `FeaturedSectionShape` states which |
| `Navbar.IsActiveBySegments` | app/components/Navbar.tsx:19-22 | a non-home link is active exactly on its path and below it |
| `Navbar.SiblingPathNotActive` | app/components/Navbar.tsx:19-22 | a path that only shares leading letters, such as "/recipesx", does not activate "/recipes" |
| `Navbar.NestedPathActive` | app/components/Navbar.tsx:19-22 | pages below a link keep it active; home is active only on "/" |
| `Navbar.AtMostOneNavLinkActive` | app/components/Navbar.tsx:19-22 | at most one of the bar's links is active on any page |
| `Navbar.IsActive` | app/components/Navbar.tsx:19-22 | home is active only on "/", any other link on its path and below it; the lemmas above state this |
| `Navbar.Navbar.constructor` | app/components/Navbar.tsx:8-16 | mounting starts with the menu closed and `scrolled` set by the current scroll position |
| `Navbar.Navbar.ToggleMenu` | app/components/Navbar.tsx:88 | the menu button flips `open` and leaves `scrolled` |
| `Navbar.Navbar.CloseMenu` | app/components/Navbar.tsx:53-130 | the logo and mobile links close the menu and leave `scrolled` |
| `Navbar.Navbar.OnScroll` | app/components/Navbar.tsx:12 | `scrolled` holds exactly beyond two pixels; `open` is unchanged |
| `Navbar.ToggleTwiceRestores` | app/components/Navbar.tsx:88 | pressing the menu button twice restores both fields |
| `ImageProxy.Check` | app/api/image-proxy/route.ts:36-61 | a missing parameter gives 400 "Missing url parameter" and an unparseable one 400 "Invalid url parameter". Only an exactly allowed host proceeds to the fetch |
| `ImageProxy.Complete` | app/api/image-proxy/route.ts:63-95 | an exception gives 500, a non-ok answer 502 with its status, an ok answer the image with its headers |
| `ImageProxy.ChecksComeFirst` | app/api/image-proxy/route.ts:36-61 | a failing check decides the answer whatever the upstream would say; a host outside the list gives 403 |
| `ImageProxy.SuccessHeaders` | app/api/image-proxy/route.ts:80-91 | the content type defaults to "image/jpeg"; an ETag is passed only when present and non-empty |
| `ImageProxy.HostMatchIsExact` | app/api/image-proxy/route.ts:6-61 | on the host name the URL parser gives, matching is exact: neither a sub-domain nor a parent domain of an allowed host, nor a spelling the list does not hold, is let through |
| `ImageProxy.Get` | app/api/image-proxy/route.ts:34-96 | the checks, then the upstream fetch; `ChecksComeFirst` and `SuccessHeaders` state what it answers |
| `Contact.BreakLinesSplits` | app/api/contact/route.ts:40-43 | each line break becomes "<br/>" and nothing else changes |
| `Contact.TransportOf` | app/api/contact/route.ts:27-32 | TLS from the start exactly on port 465 |
| `Contact.MailOf` | app/api/contact/route.ts:34-44 | the mail goes to the recipient, replies to the sender, with subject "New contact from " + name and the message as text |
| `Contact.MalformedBodyFails` | app/api/contact/route.ts:3-56 | a body that is not JSON, or is JSON null, throws inside the `try` and is answered 500 "Failed to send" with nothing sent; among bodies whose fields are strings or absent, no other gets that answer without a send being tried |
| `Contact.FieldsCheckedFirst` | app/api/contact/route.ts:7-12 | a missing name, email or message is a 400 however the server is set up, and nothing is sent |
| `Contact.ConfigurationRequired` | app/api/contact/route.ts:14-25 | without host, user or password the answer is 500 "Email not configured" and nothing is sent |
| `Contact.SendsOneMessage` | app/api/contact/route.ts:14-55 | a complete request sends exactly one message with the configured sender, recipient, port and TLS. The answer is 200 when the transport accepts it, 500 "Failed to send" otherwise |
| `Contact.Post` | app/api/contact/route.ts:3-56 | the whole handler; `FieldsCheckedFirst`, `ConfigurationRequired` and `SendsOneMessage` state its answers |
| `Contact.BreakLines` | app/api/contact/route.ts:40-43 | line breaks become "<br/>"; `BreakLinesSplits` states it |
| `Contact.HtmlBody` | app/api/contact/route.ts:40-43 | the HTML body of the mail; `MailOf` states how it is used |
| `Contact.RecipientOf` | app/api/contact/route.ts:14-18 | the recipient: the configured address, else the user; `ConfigurationRequired` states when it is missing |

## Left out

- Network requests, the clock, URL parsing, the scroll position, the CMS and
  the mail transport are parameters. Their timeouts, headers and retries are
  not modelled.
- The six id rules and `extractTikTokVideoId` are explicit matchers, not a
  general regular-expression engine.
- Concurrent requests sharing the cache are not modelled. Each read is one
  atomic step.
- The GET `catch` answer (500 "Failed to fetch TikTok videos") is not
  modelled: with every request an oracle, nothing inside that `try` can throw.
- Time stamps, the `debug` fields of the responses and console logging are
  not modelled.
- `TikTokRoute.Post`: the `test` action's response fields other than the URL
  count, the first URL, the oEmbed verdict and data are not modelled.
- Lower-casing is exact for ASCII, KELVIN SIGN and LATIN CAPITAL LETTER I WITH
  DOT ABOVE. Other non-ASCII letters are kept as they are, because every
  caller either drops them or compares with ASCII words.
- JavaScript numbers are reals: `NaN`, infinities and the `Number()` parsing
  of SMTP_PORT are not modelled. The port arrives already read.
- `Contact`: field values that are JSON but not strings are treated as
  absent, so a falsy one gives 400 as in the source, but a truthy one does
  not. A truthy non-string message makes `message.replace`
  (app/api/contact/route.ts line 43) throw, and the source answers 500
  "Failed to send" with nothing sent, where the model answers 400. A truthy
  non-string name or email still reaches the transport in the source,
  converted to text by the template literals.
- `Contact.Post`: answers 400 "Missing fields" for a truthy non-string
  field, for the reason above.
- `Contact.MalformedBodyFails`: its "no other body" half holds only among
  bodies whose fields are strings or absent, for the reason above.
- `TikTokRoute.VideoDataFor`: an oEmbed field that is present but not a
  string is `None`, so its default is used ("TikTok Video" for the title,
  "@axlas.cooks" for the author, null for the thumbnail and the HTML). The source's `||`
  (app/api/tiktok-videos/route.ts lines 52-55) passes a truthy non-string
  value, such as a numeric title, through unchanged.
- `ImageProxy`: `new URL(req.url)` on the request itself is assumed to
  succeed.
- `SeedRecipes`: the image upload's internals (timeout, the placeholder
  retry, the file-name handling) are one lookup that gives an asset id or
  nothing.
- `SeedRecipes.Cms`: a rejected request (the opening season check, the
  existence query, a season lookup, `client.create`) is an oracle indexed by
  the seed's position rather than derived from the request; its effect, the
  end of the run, is modelled. The warnings the opening check logs are not.
- `SeedRecipes.RunWith`: stated for any slug function, so that its proof does
  not unfold the slug pipeline. `SeedRecipes.Run` instantiates it with the
  script's `Slugify`.
- Sanity's `required` on a string is modelled as present and non-empty. The
  studio's other UI behaviour is not modelled: ordering, previews other than
  the ingredient's, and the radio/tag layouts.
- `RecipesGrid.SeasonOptions`: states the number of defaults and the first
  and last slugs, not the titles.
- `ImageProxy`: the upstream request follows redirects
  (app/api/image-proxy/route.ts line 70), so an allowed host can send the
  proxy on to a host outside the list, whose answer is passed on. The fetch
  is one oracle call, and the allow-list lemmas speak only of the host of the
  first request.
- `ImageProxy.HostMatchIsExact`: shows exactness on representative host names
  rather than over all strings. `ImageProxy.Check` states the general rule.
- `ImageProxy`: URL parsing is a parameter. `new URL` (app/api/image-proxy/route.ts
  line 47) lower-cases the host, so an upper-case spelling of an allowed host
  is fetched; the model matches whatever host name the parser gives and does
  not capture that folding.
- `Navbar.ToggleTwiceRestores`: a method that calls the handler twice, since
  a lemma cannot call a method.
- `sanity/queries.ts`, the page layouts, animations, the reels and contact
  form components, and the recipe detail page only fetch or present data.
  They are not part of this model, nor is the upper-case display of labels.

=== FILE: card_meta.dfy ===
/**
 * The meta line under a recipe card, derived the same way by the recipes
 * grid and the home page: the difficulty shownLabel with its stars, and the total
 * time badge. Minutes are JavaScript numbers, modelled as reals; `NaN` is
 * not modelled.
 */
module CardMeta {
  import opened Wrappers
  import opened JsText

  /** `x || 0` on an optional number: absent and zero both give zero. */
  function OrZero(m: Option<real>): real {
    match m case Some(x) => x case None => 0.0
  }

  /** `(prepTime || 0) + (cookTime || 0)`. */
  function TotalMinutes(prep: Option<real>, cook: Option<real>): real {
    OrZero(prep) + OrZero(cook)
  }

  /** The star count for a difficulty, compared lower-cased with the three known words. */
  function StarCount(difficulty: Option<string>): (n: nat)
    ensures n <= 3
    ensures n > 0 ==> Truthy(difficulty)
  {
    var diff := Lower(OrElse(difficulty, ""));
    if diff == "hard" then 3
    else if diff == "medium" then 2
    else if diff == "easy" then 1
    else 0
  }

  /** What the meta line shows: the raw difficulty text if any, how many stars, and the total if non-zero. */
  datatype Meta = Meta(shownLabel: Option<string>, stars: nat, total: Option<real>)

  function MetaLine(prep: Option<real>, cook: Option<real>, difficulty: Option<string>): (m: Meta)
    ensures m.shownLabel.Some? <==> Truthy(difficulty)
    ensures m.shownLabel.Some? ==> m.shownLabel == difficulty
    ensures m.stars > 0 ==> m.shownLabel.Some?
    ensures m.total.Some? <==> OrZero(prep) + OrZero(cook) != 0.0
    ensures m.total.Some? ==> m.total.value == OrZero(prep) + OrZero(cook)
  {
    var total := TotalMinutes(prep, cook);
    var stars := StarCount(difficulty);
    Meta(NonEmpty(difficulty), if Truthy(difficulty) then stars else 0, if total != 0.0 then Some(total) else None)
  }

  /** The star count does not depend on case: any spelling of a word counts like its lower-case form. */
  lemma StarCountIgnoresCase(s: string)
    ensures StarCount(Some(s)) == StarCount(Some(Lower(s)))
  {
    LowerIdempotent(s);
    if s == [] {
      assert Lower(s) == [];
    }
  }

  /** The three difficulties the studio offers give one, two and three stars; other text gives none. */
  lemma ChoiceStars()
    ensures StarCount(Some("Easy")) == 1
    ensures StarCount(Some("Medium")) == 2
    ensures StarCount(Some("Hard")) == 3
    ensures StarCount(None) == 0 && StarCount(Some("")) == 0
  {
    LowerCapitalised('E', "asy");
    LowerKeeps("easy");
    LowerCapitalised('M', "edium");
    LowerKeeps("medium");
    LowerCapitalised('H', "ard");
    LowerKeeps("hard");
  }

  /**
   * With no negative minutes the badge is hidden exactly when both times are
   * missing or zero; the total counts a missing time as zero.
   */
  lemma TotalBadge(prep: Option<real>, cook: Option<real>)
    requires OrZero(prep) >= 0.0 && OrZero(cook) >= 0.0
    ensures MetaLine(prep, cook, None).total.None? <==> OrZero(prep) == 0.0 && OrZero(cook) == 0.0
    ensures prep.None? ==> TotalMinutes(prep, cook) == OrZero(cook)
    ensures cook.None? ==> TotalMinutes(prep, cook) == OrZero(prep)
  {
  }
}

=== FILE: contact.dfy ===
/**
 * The contact endpoint: it checks the submitted fields and the mail
 * configuration, then sends one message built from the fields. The mail
 * transport is a parameter that either accepts a message or fails.
 */
module Contact {
  import opened Wrappers
  import opened JsText

  /**
   * The request body. `Malformed` is a body that is not JSON, or is JSON
   * `null`, whose destructuring throws inside the `try`; any other JSON value
   * gives the three fields it reads (absent or non-string ones are `None`).
   */
  datatype Body = Malformed | Fields(name: Option<string>, email: Option<string>, message: Option<string>)

  /**
   * The environment: SMTP_HOST, SMTP_PORT already read as a number (`None`
   * when unset or empty), SMTP_USER, SMTP_PASS and CONTACT_TO.
   */
  datatype Env = Env(host: Option<string>, port: Option<int>, user: Option<string>, pass: Option<string>, contactTo: Option<string>)

  const DefaultPort := 587
  const ImplicitTlsPort := 465

  datatype Transport = Transport(host: string, port: int, secure: bool, user: string, pass: string)

  datatype Mail = Mail(from: string, to: string, subject: string, replyTo: string, text: string, html: string)

  datatype Response = Response(status: nat, ok: bool, error: string)

  /** What a request did: the response and, when one was handed to the transport, the transport and the message. */
  datatype Outcome = Outcome(response: Response, attempted: Option<(Transport, Mail)>)

  const Sent := Response(200, true, "")
  const MissingFields := Response(400, false, "Missing fields")
  const NotConfigured := Response(500, false, "Email not configured")
  const FailedToSend := Response(500, false, "Failed to send")

  /** `message.replace(/\n/g, "<br/>")`. */
  function BreakLines(message: string): string {
    FlatMap(message, c => if c == '\n' then "<br/>" else [c])
  }

  /** Every line break becomes "<br/>" and nothing else changes: a message without one is kept as it is. */
  lemma {:induction false} BreakLinesSplits(a: string, b: string)
    ensures BreakLines(a + "\n" + b) == BreakLines(a) + "<br/>" + BreakLines(b)
    ensures (forall i :: 0 <= i < |a| ==> a[i] != '\n') ==> BreakLines(a) == a
  {
    var f := c => if c == '\n' then "<br/>" else [c];
    FlatMapAppend(a + "\n", b, f);
    FlatMapAppend(a, "\n", f);
    assert FlatMap("\n", f) == "<br/>" by {
      assert "\n"[1..] == [];
    }
    if forall i :: 0 <= i < |a| ==> a[i] != '\n' {
      FlatMapKeeps(a, f);
    }
  }

  /** The HTML body: one paragraph each for name, email and the heading, then the message with its line breaks. */
  function HtmlBody(name: string, email: string, message: string): string {
    "<p><strong>Name:</strong> " + name + "</p>\n"
    + "             <p><strong>Email:</strong> " + email + "</p>\n"
    + "             <p><strong>Message:</strong></p>\n"
    + "             <p>" + BreakLines(message) + "</p>"
  }

  /** `SMTP_PORT || 587`, then `CONTACT_TO || SMTP_USER`. */
  function PortOf(env: Env): int { env.port.GetOr(DefaultPort) }

  function RecipientOf(env: Env): Option<string> {
    if Truthy(env.contactTo) then env.contactTo else env.user
  }

  /** The transport settings: TLS from the start exactly on port 465. */
  function TransportOf(host: string, port: int, user: string, pass: string): (t: Transport)
    ensures t.secure <==> port == ImplicitTlsPort
    ensures t.port == port
  {
    Transport(host, port, port == ImplicitTlsPort, user, pass)
  }

  function MailOf(user: string, to: string, name: string, email: string, message: string): (m: Mail)
    ensures m.subject == "New contact from " + name && m.replyTo == email && m.text == message && m.to == to
  {
    Mail("Axlas Recipes <" + user + ">", to, "New contact from " + name, email, message, HtmlBody(name, email, message))
  }

  /** `POST`: field check, configuration check, one send; `send` says whether the transport accepted the message. */
  function Post(body: Body, env: Env, send: (Transport, Mail) -> bool): Outcome {
    match body
    case Malformed => Outcome(FailedToSend, None)
    case Fields(name, email, message) =>
      if !Truthy(name) || !Truthy(email) || !Truthy(message) then Outcome(MissingFields, None)
      else
        var to := RecipientOf(env);
        if !Truthy(env.host) || !Truthy(env.user) || !Truthy(env.pass) || !Truthy(to) then Outcome(NotConfigured, None)
        else
          var transport := TransportOf(env.host.value, PortOf(env), env.user.value, env.pass.value);
          var mail := MailOf(env.user.value, to.value, name.value, email.value, message.value);
          Outcome(if send(transport, mail) then Sent else FailedToSend, Some((transport, mail)))
  }

  /**
   * A body that is not JSON, or is JSON `null`, is a 500 "Failed to send"
   * with nothing sent; among bodies whose fields are strings or absent, it
   * is the only one answered that way without a send being tried.
   */
  lemma MalformedBodyFails(b: Body, env: Env, send: (Transport, Mail) -> bool)
    ensures Post(Malformed, env, send) == Outcome(FailedToSend, None)
    ensures Post(b, env, send).response == FailedToSend && Post(b, env, send).attempted.None? <==> b.Malformed?
  {
  }

  /**
   * The fields are checked before the configuration: a missing name, email
   * or message is a 400 however the server is set up, the subject is never
   * asked for, and nothing is sent.
   */
  lemma FieldsCheckedFirst(name: Option<string>, email: Option<string>, message: Option<string>, env: Env, send: (Transport, Mail) -> bool)
    ensures var out := Post(Fields(name, email, message), env, send);
      (!Truthy(name) || !Truthy(email) || !Truthy(message)) <==> out.response == MissingFields
    ensures !Truthy(name) || !Truthy(email) || !Truthy(message) ==> Post(Fields(name, email, message), env, send).attempted.None?
  {
  }

  /**
   * Without host, user or password the request is a 500 "Email not
   * configured" and nothing is sent. The recipient falls back to SMTP_USER,
   * so the recipient check never decides on its own.
   */
  lemma ConfigurationRequired(b: Body, env: Env, send: (Transport, Mail) -> bool)
    requires b.Fields? && Truthy(b.name) && Truthy(b.email) && Truthy(b.message)
    ensures Post(b, env, send).response == NotConfigured <==> !Truthy(env.host) || !Truthy(env.user) || !Truthy(env.pass)
    ensures Post(b, env, send).response == NotConfigured ==> Post(b, env, send).attempted.None?
    ensures !Truthy(RecipientOf(env)) ==> !Truthy(env.user)
  {
  }

  /**
   * A complete request sends exactly one message: from the configured user,
   * to CONTACT_TO or else that user, on port 587 unless another is set, with
   * TLS from the start only on port 465; the answer is 200 when the
   * transport accepts the message and 500 "Failed to send" when it does not.
   */
  lemma SendsOneMessage(name: string, email: string, message: string, env: Env, send: (Transport, Mail) -> bool)
    requires name != "" && email != "" && message != ""
    requires Truthy(env.host) && Truthy(env.user) && Truthy(env.pass)
    ensures var out := Post(Fields(Some(name), Some(email), Some(message)), env, send);
      && out.attempted.Some?
      && var (t, m) := out.attempted.value;
      && m.from == "Axlas Recipes <" + env.user.value + ">"
      && m.to == (if Truthy(env.contactTo) then env.contactTo.value else env.user.value)
      && m.subject == "New contact from " + name && m.replyTo == email && m.text == message
      && m.html == HtmlBody(name, email, message)
      && t.port == (if env.port.Some? then env.port.value else 587)
      && (t.secure <==> t.port == 465)
      && (out.response == Sent <==> send(t, m))
      && (out.response != Sent ==> out.response == FailedToSend)
  {
  }
}

=== FILE: discovery.dfy ===
/**
 * The discovery cascade of the TikTok endpoint: the structured-API strategy,
 * the profile-page scraping strategy and the validated fallback list, each
 * validating candidate watch URLs one at a time.
 *
 * Every outbound request is an oracle: the validator (`validateTikTokVideo`,
 * true iff the oEmbed lookup answers with a success status) is a predicate on
 * URLs, the structured endpoints' answers are a value, and the profile page
 * fetched with a given user agent is a function of that user agent.
 */
module Discovery {
  import opened Wrappers
  import JsText
  import VideoIds

  /** At most this many candidates of a strategy are validated. */
  const MaxCandidates := 10
  /** Validation stops once this many candidates were accepted. */
  const EnoughVideos := 3

  const UserAgents: seq<string> := [
    "Mozilla/5.0 (Windows NT 10.0; Win64; x64) AppleWebKit/537.36 (KHTML, like Gecko) Chrome/120.0.0.0 Safari/537.36",
    "Mozilla/5.0 (Macintosh; Intel Mac OS X 10_15_7) AppleWebKit/537.36 (KHTML, like Gecko) Chrome/120.0.0.0 Safari/537.36",
    "Mozilla/5.0 (iPhone; CPU iPhone OS 17_0 like Mac OS X) AppleWebKit/605.1.15 (KHTML, like Gecko) Version/17.0 Mobile/15E148 Safari/604.1"
  ]

  const FallbackUrls: seq<string> := [
    "https://www.tiktok.com/@axlas.cooks/video/7563006717324217622",
    "https://www.tiktok.com/@axlas.cooks/video/7562963997083831574",
    "https://www.tiktok.com/@axlas.cooks/video/7562229699628272918"
  ]

  /**
   * What the structured endpoints answered. `videoCount` is absent when the
   * profile-detail request failed, was not ok, or had no `userInfo`;
   * `itemIds` is absent when the item-list request failed, was not ok, or
   * had no `itemList`.
   */
  datatype ApiAnswers = ApiAnswers(videoCount: Option<int>, itemIds: Option<seq<string>>)

  /**
   * The outside world as seen by one discovery run: the structured API, the
   * profile page per user agent (absent when the request threw or was not
   * ok), and the validator.
   */
  datatype Upstream = Upstream(
    api: ApiAnswers,
    profilePage: string -> Option<string>,
    isValid: string -> bool)

  function Min(a: int, b: int): int {
    if a <= b then a else b
  }

  /** The validator-accepted URLs of `urls`, in order. */
  function Accepted(urls: seq<string>, isValid: string -> bool): (r: seq<string>)
    ensures |r| <= |urls|
    ensures forall i :: 0 <= i < |r| ==> r[i] in urls && isValid(r[i])
  {
    if urls == [] then []
    else (if isValid(urls[0]) then [urls[0]] else []) + Accepted(urls[1..], isValid)
  }

  lemma {:induction false} AcceptedAppend(a: seq<string>, b: seq<string>, isValid: string -> bool)
    ensures Accepted(a + b, isValid) == Accepted(a, isValid) + Accepted(b, isValid)
    decreases |a|
  {
    if a == [] {
      assert a + b == b;
    } else {
      assert (a + b)[1..] == a[1..] + b;
      AcceptedAppend(a[1..], b, isValid);
    }
  }

  /** Validating one more URL appends it to the accepted ones when the validator accepts it. */
  lemma AcceptedStep(urls: seq<string>, k: nat, isValid: string -> bool)
    requires k < |urls|
    ensures Accepted(urls[..k + 1], isValid)
      == Accepted(urls[..k], isValid) + (if isValid(urls[k]) then [urls[k]] else [])
  {
    assert urls[..k + 1] == urls[..k] + [urls[k]];
    AcceptedAppend(urls[..k], [urls[k]], isValid);
    assert Accepted([urls[k]], isValid) == (if isValid(urls[k]) then [urls[k]] else []) by {
      assert [urls[k]][1..] == [];
    }
  }

  /** Every URL the validator accepts is kept, and nothing else. */
  lemma {:induction false} AcceptedExactly(urls: seq<string>, isValid: string -> bool)
    ensures forall u :: u in Accepted(urls, isValid) <==> u in urls && isValid(u)
    decreases |urls|
  {
    if urls != [] {
      AcceptedExactly(urls[1..], isValid);
      assert urls == [urls[0]] + urls[1..];
    }
  }

  /** The first (at most) three accepted URLs: what a cut-off validation returns. */
  function FirstAccepted(urls: seq<string>, isValid: string -> bool): seq<string> {
    var a := Accepted(urls, isValid);
    a[..Min(EnoughVideos, |a|)]
  }

  /**
   * The validation loop of the first two strategies: candidates in order,
   * accepted ones appended, stopping right after the third acceptance.
   * `checked` is the number of validator calls made: the validator saw
   * exactly `urls[..checked]`, and before each call fewer than three URLs had
   * been accepted.
   */
  method ValidateUntilEnough(urls: seq<string>, isValid: string -> bool) returns (valid: seq<string>, checked: nat)
    ensures checked <= |urls|
    ensures valid == Accepted(urls[..checked], isValid)
    ensures checked > 0 ==> |Accepted(urls[..checked - 1], isValid)| < EnoughVideos
    ensures checked < |urls| ==> |valid| == EnoughVideos
    ensures valid == FirstAccepted(urls, isValid)
  {
    valid, checked := [], 0;
    while checked < |urls|
      invariant checked <= |urls|
      invariant valid == Accepted(urls[..checked], isValid)
      invariant |valid| < EnoughVideos
      invariant checked > 0 ==> |Accepted(urls[..checked - 1], isValid)| < EnoughVideos
    {
      var url := urls[checked];
      var ok := isValid(url);
      AcceptedStep(urls, checked, isValid);
      checked := checked + 1;
      if ok {
        valid := valid + [url];
        if |valid| >= EnoughVideos {
          break;
        }
      }
    }
    if checked == |urls| {
      assert urls[..checked] == urls;
    } else {
      var rest := urls[checked..];
      assert urls == urls[..checked] + rest;
      AcceptedAppend(urls[..checked], rest, isValid);
      assert Accepted(urls, isValid)[..EnoughVideos] == valid;
    }
  }

  /** `getValidatedFallbackVideos`: every fallback URL is validated, with no cut-off. */
  method ValidateFallback(isValid: string -> bool) returns (valid: seq<string>)
    ensures valid == Accepted(FallbackUrls, isValid)
  {
    valid := [];
    var i := 0;
    while i < |FallbackUrls|
      invariant i <= |FallbackUrls|
      invariant valid == Accepted(FallbackUrls[..i], isValid)
    {
      var url := FallbackUrls[i];
      AcceptedStep(FallbackUrls, i, isValid);
      if isValid(url) {
        valid := valid + [url];
      }
      i := i + 1;
    }
    assert FallbackUrls[..i] == FallbackUrls;
  }

  /** `ids.slice(0, 10).map(id => watch URL)`. */
  function Candidates(ids: seq<string>): (urls: seq<string>)
    ensures |urls| == Min(MaxCandidates, |ids|)
    ensures forall i :: 0 <= i < |urls| ==> urls[i] == VideoIds.ProfileVideoUrl(ids[i])
  {
    seq(Min(MaxCandidates, |ids|), i requires 0 <= i < Min(MaxCandidates, |ids|) => VideoIds.ProfileVideoUrl(ids[i]))
  }

  /** Strategy 1 as a value: validation runs only on a non-zero count and a present item list. */
  function PublicApiResult(api: ApiAnswers, isValid: string -> bool): seq<string> {
    if api.videoCount.Some? && api.videoCount.value > 0 && api.itemIds.Some?
    then FirstAccepted(Candidates(api.itemIds.value), isValid)
    else []
  }

  /** `tryPublicApiMethod`. */
  method TryPublicApi(api: ApiAnswers, isValid: string -> bool) returns (valid: seq<string>)
    ensures valid == PublicApiResult(api, isValid)
  {
    valid := [];
    if api.videoCount.Some? && api.videoCount.value > 0 && api.itemIds.Some? {
      var urls := Candidates(api.itemIds.value);
      var checked;
      valid, checked := ValidateUntilEnough(urls, isValid);
    }
  }

  /** The ids found on the page of the first user agent, from `a` on, whose page yields any. */
  function FirstProductivePage(profilePage: string -> Option<string>, a: nat): (r: Option<seq<string>>)
    requires a <= |UserAgents|
    ensures r.Some? ==> |r.value| > 0
    decreases |UserAgents| - a
  {
    if a == |UserAgents| then None
    else
      var page := profilePage(UserAgents[a]);
      if page.Some? && |VideoIds.ExtractVideoIds(page.value)| > 0
      then Some(VideoIds.ExtractVideoIds(page.value))
      else FirstProductivePage(profilePage, a + 1)
  }

  /** Strategy 2 as a value. */
  function ScrapingResult(profilePage: string -> Option<string>, isValid: string -> bool): seq<string> {
    match FirstProductivePage(profilePage, 0)
    case Some(ids) => FirstAccepted(Candidates(ids), isValid)
    case None => []
  }

  /**
   * `tryAlternativeScraping`: the user agents in turn; the first page that
   * yields at least one id decides the result, even if none of its ids
   * validates.
   */
  method TryProfileScraping(profilePage: string -> Option<string>, isValid: string -> bool) returns (valid: seq<string>)
    ensures valid == ScrapingResult(profilePage, isValid)
  {
    var a := 0;
    while a < |UserAgents|
      invariant a <= |UserAgents|
      invariant FirstProductivePage(profilePage, a) == FirstProductivePage(profilePage, 0)
    {
      var page := profilePage(UserAgents[a]);
      if page.Some? {
        var ids := VideoIds.ExtractVideoIdsFromHtml(page.value);
        if |ids| > 0 {
          assert FirstProductivePage(profilePage, a) == Some(ids);
          var urls := Candidates(ids);
          var checked;
          valid, checked := ValidateUntilEnough(urls, isValid);
          return;
        }
      }
      assert FirstProductivePage(profilePage, a) == FirstProductivePage(profilePage, a + 1);
      a := a + 1;
    }
    assert FirstProductivePage(profilePage, a) == None;
    valid := [];
  }

  /** `getRecentVideosFromProfile` as a value. */
  function Cascade(up: Upstream): seq<string> {
    var fromApi := PublicApiResult(up.api, up.isValid);
    if |fromApi| > 0 then fromApi
    else
      var fromPage := ScrapingResult(up.profilePage, up.isValid);
      if |fromPage| > 0 then fromPage
      else Accepted(FallbackUrls, up.isValid)
  }

  /** `getRecentVideosFromProfile`: strategy 1, else strategy 2, else the validated fallback list. */
  method GetRecentVideosFromProfile(up: Upstream) returns (urls: seq<string>)
    ensures urls == Cascade(up)
  {
    urls := TryPublicApi(up.api, up.isValid);
    if |urls| > 0 {
      return;
    }
    urls := TryProfileScraping(up.profilePage, up.isValid);
    if |urls| > 0 {
      return;
    }
    urls := ValidateFallback(up.isValid);
  }

  lemma FirstAcceptedBounded(urls: seq<string>, isValid: string -> bool)
    ensures |FirstAccepted(urls, isValid)| <= EnoughVideos
    ensures forall u :: u in FirstAccepted(urls, isValid) ==> u in urls && isValid(u)
  {
    var a := Accepted(urls, isValid);
    forall u | u in a[..Min(EnoughVideos, |a|)] ensures u in urls && isValid(u) {
      var k :| 0 <= k < Min(EnoughVideos, |a|) && a[..Min(EnoughVideos, |a|)][k] == u;
      assert a[k] == u;
    }
  }

  /**
   * Whatever the upstream answers, discovery returns at most three URLs, each
   * accepted by the validator: a strategy's candidates from its first ten
   * ids, or a fallback URL.
   */
  lemma CascadeBoundedAndValidated(up: Upstream)
    ensures |Cascade(up)| <= EnoughVideos
    ensures forall u :: u in Cascade(up) ==> up.isValid(u)
    ensures forall u :: u in Cascade(up) ==>
      u in FallbackUrls
      || (up.api.itemIds.Some? && u in Candidates(up.api.itemIds.value))
      || (FirstProductivePage(up.profilePage, 0).Some? && u in Candidates(FirstProductivePage(up.profilePage, 0).value))
  {
    var fromApi := PublicApiResult(up.api, up.isValid);
    if up.api.videoCount.Some? && up.api.videoCount.value > 0 && up.api.itemIds.Some? {
      FirstAcceptedBounded(Candidates(up.api.itemIds.value), up.isValid);
    }
    if FirstProductivePage(up.profilePage, 0).Some? {
      FirstAcceptedBounded(Candidates(FirstProductivePage(up.profilePage, 0).value), up.isValid);
    }
    AcceptedExactly(FallbackUrls, up.isValid);
    assert |Accepted(FallbackUrls, up.isValid)| <= 3;
  }

  /** Whether a fetched profile page yields any video id. */
  predicate Productive(page: Option<string>) {
    page.Some? && |VideoIds.ExtractVideoIds(page.value)| > 0
  }

  /** The user agents from `b` on are tried in order: the first productive one, `a`, gives the ids. */
  lemma {:induction false} FirstProductivePageIsAt(profilePage: string -> Option<string>, b: nat, a: nat)
    requires b <= a < |UserAgents|
    requires forall c :: b <= c < a ==> !Productive(profilePage(UserAgents[c]))
    requires Productive(profilePage(UserAgents[a]))
    ensures FirstProductivePage(profilePage, b) == Some(VideoIds.ExtractVideoIds(profilePage(UserAgents[a]).value))
    decreases a - b
  {
    if b < a {
      assert !Productive(profilePage(UserAgents[b]));
      FirstProductivePageIsAt(profilePage, b + 1, a);
    }
  }

  /**
   * Strategy 2 stops at the first user agent whose page yields an id: two
   * worlds that agree on the pages up to that agent give the same result,
   * whatever the later pages hold, even when none of its ids validates.
   */
  lemma ScrapingStopsAtFirstProductivePage(pages1: string -> Option<string>, pages2: string -> Option<string>, isValid: string -> bool, a: nat)
    requires a < |UserAgents|
    requires forall c :: 0 <= c <= a ==> pages1(UserAgents[c]) == pages2(UserAgents[c])
    requires forall c :: 0 <= c < a ==> !Productive(pages1(UserAgents[c]))
    requires Productive(pages1(UserAgents[a]))
    ensures ScrapingResult(pages1, isValid) == ScrapingResult(pages2, isValid)
    ensures ScrapingResult(pages1, isValid)
      == FirstAccepted(Candidates(VideoIds.ExtractVideoIds(pages1(UserAgents[a]).value)), isValid)
  {
    var ids := VideoIds.ExtractVideoIds(pages1(UserAgents[a]).value);
    assert FirstProductivePage(pages1, 0) == Some(ids) by {
      FirstProductivePageIsAt(pages1, 0, a);
    }
    assert FirstProductivePage(pages2, 0) == Some(ids) by {
      forall c | 0 <= c < a ensures !Productive(pages2(UserAgents[c])) {
        assert pages1(UserAgents[c]) == pages2(UserAgents[c]);
      }
      assert pages1(UserAgents[a]) == pages2(UserAgents[a]);
      FirstProductivePageIsAt(pages2, 0, a);
    }
  }

  /**
   * The URLs found by scraping are distinct, and each gives back, through
   * `extractTikTokVideoId`, the id it was built from.
   */
  lemma ScrapedUrlsRoundTrip(profilePage: string -> Option<string>, isValid: string -> bool)
    ensures VideoIds.Distinct(ScrapingResult(profilePage, isValid))
    ensures forall u :: u in ScrapingResult(profilePage, isValid) ==>
      exists id :: VideoIds.ExtractVideoId(u) == Some(id) && u == VideoIds.ProfileVideoUrl(id)
  {
    match FirstProductivePage(profilePage, 0)
    case None =>
    case Some(ids) =>
      var html := FirstProductivePageHtml(profilePage, 0);
      VideoIds.ExtractedIdsWellFormed(html);
      VideoIds.ExtractedIdsDistinctAndOrdered(html);
      ValidatedCandidatesRoundTrip(ids, isValid);
  }

  lemma ValidatedCandidatesRoundTrip(ids: seq<string>, isValid: string -> bool)
    requires VideoIds.Distinct(ids)
    requires forall id :: id in ids ==> |id| > 0 && JsText.AllDigits(id)
    ensures VideoIds.Distinct(FirstAccepted(Candidates(ids), isValid))
    ensures forall u :: u in FirstAccepted(Candidates(ids), isValid) ==>
      exists id :: VideoIds.ExtractVideoId(u) == Some(id) && u == VideoIds.ProfileVideoUrl(id)
  {
    var urls := Candidates(ids);
    CandidatesDistinct(ids);
    CandidatesRoundTrip(ids);
    AcceptedKeepsDistinct(urls, isValid);
    FirstAcceptedBounded(urls, isValid);
  }

  lemma ProfileVideoUrlInjective(a: string, b: string)
    requires VideoIds.ProfileVideoUrl(a) == VideoIds.ProfileVideoUrl(b)
    ensures a == b
  {
    assert VideoIds.ProfileVideoUrl(a)[42..] == a;
    assert VideoIds.ProfileVideoUrl(b)[42..] == b;
  }

  lemma CandidatesDistinct(ids: seq<string>)
    requires VideoIds.Distinct(ids)
    ensures VideoIds.Distinct(Candidates(ids))
  {
    var urls := Candidates(ids);
    forall i, j | 0 <= i < j < |urls| ensures urls[i] != urls[j] {
      if urls[i] == urls[j] {
        ProfileVideoUrlInjective(ids[i], ids[j]);
      }
    }
  }

  lemma CandidatesRoundTrip(ids: seq<string>)
    requires forall id :: id in ids ==> |id| > 0 && JsText.AllDigits(id)
    ensures forall u :: u in Candidates(ids) ==>
      exists id :: VideoIds.ExtractVideoId(u) == Some(id) && u == VideoIds.ProfileVideoUrl(id)
  {
    var urls := Candidates(ids);
    forall u | u in urls
      ensures exists id :: VideoIds.ExtractVideoId(u) == Some(id) && u == VideoIds.ProfileVideoUrl(id)
    {
      var k :| 0 <= k < |urls| && urls[k] == u;
      assert ids[k] in ids;
      VideoIds.ProfileVideoUrlRoundTrip(ids[k]);
    }
  }

  /** The page behind `FirstProductivePage`, as a witness for the lemmas. */
  function FirstProductivePageHtml(profilePage: string -> Option<string>, a: nat): (html: string)
    requires a <= |UserAgents|
    requires FirstProductivePage(profilePage, a).Some?
    ensures FirstProductivePage(profilePage, a).value == VideoIds.ExtractVideoIds(html)
    decreases |UserAgents| - a
  {
    var page := profilePage(UserAgents[a]);
    if page.Some? && |VideoIds.ExtractVideoIds(page.value)| > 0
    then page.value
    else FirstProductivePageHtml(profilePage, a + 1)
  }

  lemma {:induction false} AcceptedKeepsDistinct(urls: seq<string>, isValid: string -> bool)
    requires VideoIds.Distinct(urls)
    ensures VideoIds.Distinct(Accepted(urls, isValid))
    decreases |urls|
  {
    if urls != [] {
      AcceptedKeepsDistinct(urls[1..], isValid);
      AcceptedExactly(urls[1..], isValid);
      assert urls[0] !in urls[1..];
    }
  }
}

=== FILE: home_page.dfy ===
/**
 * The featured-recipes section of the home page: a placeholder when nothing
 * is featured, otherwise one card for each of the first six recipes, with
 * its key, link, title and meta line.
 */
module HomePage {
  import opened Wrappers
  import opened JsText
  import CardMeta
  import RecipesGrid

  /** A featured recipe as the query returns it; every field may be missing. */
  datatype FeaturedRecipe = FeaturedRecipe(
    title: Option<string>,
    slug: Option<string>,
    prepTime: Option<real>,
    cookTime: Option<real>,
    difficulty: Option<string>)

  /** The most cards the section shows. */
  const MaxCards := 6

  const LinkPrefix := "/recipes/"

  datatype Card = Card(key: string, href: string, title: string, meta: CardMeta.Meta)

  datatype Section = Placeholder | Grid(cards: seq<Card>)

  /** The card for the recipe at position `idx`. */
  function CardAt(r: FeaturedRecipe, idx: nat): (c: Card)
    ensures c.key != ""
    ensures c.title != ""
    ensures StartsWith(c.href, LinkPrefix)
  {
    Card(OrElse(r.slug, DecimalString(idx)), LinkPrefix + OrElse(r.slug, ""), OrElse(r.title, "Recipe"),
         CardMeta.MetaLine(r.prepTime, r.cookTime, r.difficulty))
  }

  function FeaturedSection(featured: seq<FeaturedRecipe>): Section {
    if |featured| == 0 then Placeholder
    else
      var shown := if |featured| <= MaxCards then featured else featured[..MaxCards];
      Grid(seq(|shown|, i requires 0 <= i < |shown| => CardAt(shown[i], i)))
  }

  /**
   * The placeholder appears exactly when nothing is featured; otherwise the
   * first six recipes, no more, each get a card in their order.
   */
  lemma FeaturedSectionShape(featured: seq<FeaturedRecipe>)
    ensures FeaturedSection(featured).Placeholder? <==> |featured| == 0
    ensures FeaturedSection(featured).Grid? ==>
      |FeaturedSection(featured).cards| == RecipesGrid.Min(MaxCards, |featured|)
      && forall i :: 0 <= i < |FeaturedSection(featured).cards| ==>
           FeaturedSection(featured).cards[i] == CardAt(featured[i], i)
  {
  }

  /**
   * A card links to its slug, or to the bare listing path when the slug is
   * missing or empty; the key is the slug, or the position when there is no
   * slug; a recipe without a title is shown as "Recipe".
   */
  lemma CardFallbacks(r: FeaturedRecipe, idx: nat)
    ensures Truthy(r.slug) ==> CardAt(r, idx).href == LinkPrefix + r.slug.value && CardAt(r, idx).key == r.slug.value
    ensures !Truthy(r.slug) ==> CardAt(r, idx).href == LinkPrefix && CardAt(r, idx).key == DecimalString(idx)
    ensures !Truthy(r.title) ==> CardAt(r, idx).title == "Recipe"
  {
    assert LinkPrefix + "" == LinkPrefix;
  }

  /** Two cards without a slug never share a key. */
  lemma IndexKeysDistinct(r1: FeaturedRecipe, i: nat, r2: FeaturedRecipe, j: nat)
    requires !Truthy(r1.slug) && !Truthy(r2.slug) && i != j
    ensures CardAt(r1, i).key != CardAt(r2, j).key
  {
    DecimalRoundTrip(i);
    DecimalRoundTrip(j);
  }

  /** The home page derives the meta line exactly as the grid does for the same fields. */
  lemma SameMetaAsGrid(r: FeaturedRecipe, g: RecipesGrid.Recipe, idx: nat)
    requires g.prepTime == r.prepTime && g.cookTime == r.cookTime && g.difficulty == r.difficulty
    ensures CardAt(r, idx).meta == RecipesGrid.CardFor(g).meta
  {
  }
}

=== FILE: image_proxy.dfy ===
/**
 * The image proxy endpoint: a chain of checks on the `url` query parameter
 * that ends either in a JSON error or in one upstream request whose answer
 * is passed on. URL parsing and the upstream request are parameters.
 */
module ImageProxy {
  import opened Wrappers
  import opened JsText

  /** The exact host names the proxy fetches from. */
  const AllowedHostnames: set<string> := {
    "p16-sign-sg.tiktokcdn-us.com",
    "p16-sign.tiktokcdn-us.com",
    "p16-sign-sg.tiktokcdn.com",
    "p16-sign.tiktokcdn.com",
    "p77-sign.tiktokcdn-us.com",
    "p77-sign.tiktokcdn.com",
    "p16-sign-va.tiktokcdn-us.com",
    "p16-sign-va.tiktokcdn.com",
    "p16-pu-sign-no.tiktokcdn-eu.com",
    "p16-pu-sign.tiktokcdn-eu.com",
    "p16-pu-sign-no.tiktokcdn.com",
    "p16-pu-sign.tiktokcdn.com",
    "p77-pu-sign-no.tiktokcdn-eu.com",
    "p77-pu-sign.tiktokcdn-eu.com",
    "p16-pu-sign-va.tiktokcdn-eu.com",
    "p16-pu-sign-va.tiktokcdn.com",
    "p16-sign-no.tiktokcdn-eu.com",
    "p16-sign-no.tiktokcdn.com",
    "p77-sign-no.tiktokcdn-eu.com",
    "p77-sign-no.tiktokcdn.com",
    "p16-sign-sg.tiktokcdn-eu.com",
    "p77-sign-sg.tiktokcdn-eu.com",
    "p16-sign-va.tiktokcdn-eu.com",
    "p77-sign-va.tiktokcdn-eu.com"
  }

  const CacheControl := "public, max-age=300, s-maxage=600, stale-while-revalidate=86400"
  const DefaultContentType := "image/jpeg"

  /** A parsed URL: its host name and its serialisation, the address actually requested. */
  datatype Target = Target(hostname: string, href: string)

  /** What the upstream request gave: an exception (from the request or the body), or a response. */
  datatype Upstream =
    | Threw
    | Answered(ok: bool, status: nat, contentType: Option<string>, etag: Option<string>, body: seq<bv8>)

  /** The proxy's response. */
  datatype Response =
    | JsonError(status: nat, error: string)
    | Image(contentType: string, cacheControl: string, etag: Option<string>, body: seq<bv8>)
  {
    function Status(): nat { if JsonError? then status else 200 }
  }

  /** The outcome of the checks: an answer straight away, or the target to request. */
  datatype Decision = Reject(response: Response) | Fetch(target: Target)

  /**
   * The checks in their order: the parameter must be present and non-empty,
   * parse as a URL, and name an allowed host exactly.
   */
  function Check(url: Option<string>, parse: string -> Option<Target>): (d: Decision)
    ensures !Truthy(url) ==> d == Reject(JsonError(400, "Missing url parameter"))
    ensures Truthy(url) && parse(url.value).None? ==> d == Reject(JsonError(400, "Invalid url parameter"))
    ensures d.Fetch? <==> Truthy(url) && parse(url.value).Some? && parse(url.value).value.hostname in AllowedHostnames
    ensures d.Fetch? ==> d.target == parse(url.value).value
  {
    if !Truthy(url) then Reject(JsonError(400, "Missing url parameter"))
    else match parse(url.value)
      case None => Reject(JsonError(400, "Invalid url parameter"))
      case Some(target) =>
        if target.hostname !in AllowedHostnames then Reject(JsonError(403, "Hostname not allowed"))
        else Fetch(target)
  }

  /** What the proxy answers once the upstream request is done. */
  function Complete(answer: Upstream): (r: Response)
    ensures answer.Threw? ==> r == JsonError(500, "Image proxy error")
    ensures answer.Answered? && !answer.ok ==> r == JsonError(502, "Upstream failed: " + DecimalString(answer.status))
    ensures r.Image? <==> answer.Answered? && answer.ok
    ensures r.Image? ==>
              r.body == answer.body && r.cacheControl == CacheControl && r.contentType != "" && r.etag != Some("")
  {
    match answer
    case Threw => JsonError(500, "Image proxy error")
    case Answered(ok, status, contentType, etag, body) =>
      if !ok then JsonError(502, "Upstream failed: " + DecimalString(status))
      else Image(OrElse(contentType, DefaultContentType), CacheControl, NonEmpty(etag), body)
  }

  /** `GET`: the checks, then at most one upstream request. */
  function Get(url: Option<string>, parse: string -> Option<Target>, fetch: string -> Upstream): Response {
    match Check(url, parse)
    case Reject(response) => response
    case Fetch(target) => Complete(fetch(target.href))
  }

  /**
   * The first failing check decides the answer: 400 for a missing or
   * unparseable parameter, 403 for any host not in the list, whatever the
   * upstream would have said; only an allowed host reaches the upstream.
   */
  lemma ChecksComeFirst(url: Option<string>, parse: string -> Option<Target>, fetch1: string -> Upstream, fetch2: string -> Upstream)
    ensures Check(url, parse).Reject? ==> Get(url, parse, fetch1) == Get(url, parse, fetch2)
    ensures Truthy(url) && parse(url.value).Some? && parse(url.value).value.hostname !in AllowedHostnames ==>
      Get(url, parse, fetch1) == JsonError(403, "Hostname not allowed")
    ensures Get(url, parse, fetch1).Status() == 200 ==>
      Truthy(url) && parse(url.value).Some? && parse(url.value).value.hostname in AllowedHostnames
  {
  }

  /**
   * A success passes the image through with the content type defaulting to
   * "image/jpeg" and an ETag only when the upstream sent a non-empty one.
   */
  lemma SuccessHeaders(ct: Option<string>, etag: Option<string>, body: seq<bv8>, status: nat)
    ensures !Truthy(ct) ==> Complete(Answered(true, status, ct, etag, body)).contentType == "image/jpeg"
    ensures Truthy(ct) ==> Complete(Answered(true, status, ct, etag, body)).contentType == ct.value
    ensures Complete(Answered(true, status, ct, etag, body)).etag.Some? <==> Truthy(etag)
  {
  }

  /** Matching of the host name the URL parser gives is exact: neither a sub-domain nor a parent domain of an allowed host is let through, nor a spelling the allow-list does not hold. */
  lemma HostMatchIsExact()
    ensures "p16-sign.tiktokcdn.com" in AllowedHostnames
    ensures "tiktokcdn.com" !in AllowedHostnames
    ensures "evil.p16-sign.tiktokcdn.com" !in AllowedHostnames
    ensures "P16-SIGN.TIKTOKCDN.COM" !in AllowedHostnames
  {
  }
}

=== FILE: ingredient_schema.dfy ===
/**
 * The `ingredient` object type of the studio: four optional-looking string
 * fields of which only `item` is required, and the list preview that shows
 * the item with its quantity and unit beneath it.
 */
module IngredientSchema {
  import opened Wrappers
  import opened JsText

  /** An ingredient line as the studio stores it; an absent field is `None`. */
  datatype Ingredient = Ingredient(quantity: Option<string>, unit: Option<string>, item: Option<string>, note: Option<string>)

  /** The rule set: `item` is required; `quantity`, `unit` and `note` may be left out. */
  predicate Valid(i: Ingredient) {
    Truthy(i.item)
  }

  /** What the preview shows: a title and, when there is one, a subtitle. */
  datatype Preview = Preview(title: Option<string>, subtitle: Option<string>)

  /** `preview.prepare`: the truthy values among quantity and unit, joined by one space, or no subtitle at all. */
  function Prepare(quantity: Option<string>, unit: Option<string>, item: Option<string>): (p: Preview)
    ensures p.title == item
    ensures p.subtitle != Some("")
  {
    var qty := Join(FilterTruthy([quantity, unit]), " ");
    Preview(item, if qty == "" then None else Some(qty))
  }

  /**
   * The subtitle, case by case: both parts joined by a single space, the one
   * non-empty part alone, or none when both are empty or missing.
   */
  lemma PrepareSubtitle(quantity: Option<string>, unit: Option<string>, item: Option<string>)
    ensures Truthy(quantity) && Truthy(unit) ==>
      Prepare(quantity, unit, item).subtitle == Some(quantity.value + " " + unit.value)
    ensures Truthy(quantity) && !Truthy(unit) ==> Prepare(quantity, unit, item).subtitle == quantity
    ensures !Truthy(quantity) && Truthy(unit) ==> Prepare(quantity, unit, item).subtitle == unit
    ensures Prepare(quantity, unit, item).subtitle.None? <==> !Truthy(quantity) && !Truthy(unit)
  {
    var xs := [quantity, unit];
    assert xs[1..] == [unit];
    assert [unit][1..] == [];
    if Truthy(quantity) && Truthy(unit) {
      var parts := [quantity.value, unit.value];
      assert FilterTruthy(xs) == parts;
      assert parts[1..] == [unit.value];
      assert Join(parts, " ") == quantity.value + " " + unit.value;
    } else if Truthy(quantity) {
      assert FilterTruthy(xs) == [quantity.value];
    } else if Truthy(unit) {
      assert FilterTruthy(xs) == [unit.value];
    } else {
      assert FilterTruthy(xs) == [];
    }
  }

  /** The preview of a stored ingredient; for a valid one the title is never missing. */
  function PreviewOf(i: Ingredient): (p: Preview)
    ensures Valid(i) ==> p.title.Some? && p.title.value != ""
    ensures p.subtitle.Some? ==> Truthy(i.quantity) || Truthy(i.unit)
  {
    PrepareSubtitle(i.quantity, i.unit, i.item);
    Prepare(i.quantity, i.unit, i.item)
  }
}

=== FILE: js_text.dfy ===
/**
 * Small pieces of JavaScript string semantics shared by the models:
 * truthiness of an optional string, the regular-expression class `\s`,
 * lower-casing, character-wise rewriting, prefixes, and
 * order-preserving filtering.
 */
module JsText {
  import opened Wrappers

  /** A string-valued field is truthy in JavaScript iff it is present and non-empty. */
  predicate Truthy(s: Option<string>) {
    s.Some? && s.value != ""
  }

  /** `s || fallback` for an optional string. */
  function OrElse(s: Option<string>, fallback: string): (r: string)
    ensures Truthy(s) ==> r == s.value
    ensures !Truthy(s) ==> r == fallback
  {
    if Truthy(s) then s.value else fallback
  }

  /** `s || null` / `s || undefined`: keeps only a non-empty string. */
  function NonEmpty(s: Option<string>): (r: Option<string>)
    ensures r.Some? <==> Truthy(s)
    ensures r.Some? ==> r.value == s.value
  {
    if Truthy(s) then s else None
  }

  predicate IsDigit(c: char) {
    '0' <= c <= '9'
  }

  predicate AllDigits(s: string) {
    forall i :: 0 <= i < |s| ==> IsDigit(s[i])
  }

  predicate IsLowerAlnum(c: char) {
    'a' <= c <= 'z' || IsDigit(c)
  }

  /** The characters a slug may contain: a-z, 0-9 and '-'. */
  predicate IsSlugChar(c: char) {
    IsLowerAlnum(c) || c == '-'
  }

  predicate IsSlug(s: string) {
    forall i :: 0 <= i < |s| ==> IsSlugChar(s[i])
  }

  /**
   * The class matched by `\s` in a JavaScript regular expression; it is also
   * the set of characters `String.prototype.trim` removes.
   */
  predicate IsSpace(c: char) {
    c == '\t' || c == '\n' || c == '\U{000B}' || c == '\U{000C}' || c == '\r' || c == ' '
    || c == '\U{00A0}' || c == '\U{1680}' || ('\U{2000}' <= c <= '\U{200A}')
    || c == '\U{2028}' || c == '\U{2029}' || c == '\U{202F}' || c == '\U{205F}'
    || c == '\U{3000}' || c == '\U{FEFF}'
  }

  /** Each character replaced by a string, the results concatenated. */
  function FlatMap(s: string, f: char -> string): string {
    if s == [] then [] else f(s[0]) + FlatMap(s[1..], f)
  }

  lemma {:induction false} FlatMapAppend(a: string, b: string, f: char -> string)
    ensures FlatMap(a + b, f) == FlatMap(a, f) + FlatMap(b, f)
  {
    if a != [] {
      assert (a + b)[0] == a[0] && (a + b)[1..] == a[1..] + b;
      FlatMapAppend(a[1..], b, f);
    } else {
      assert a + b == b;
    }
  }

  /** A flat map that keeps every character of `s` leaves `s` unchanged. */
  lemma {:induction false} FlatMapKeeps(s: string, f: char -> string)
    requires forall i :: 0 <= i < |s| ==> f(s[i]) == [s[i]]
    ensures FlatMap(s, f) == s
  {
    if s != [] {
      FlatMapKeeps(s[1..], f);
    }
  }

  /** A flat map whose every piece is made of characters satisfying `q` yields only such characters. */
  lemma {:induction false} FlatMapInto(s: string, f: char -> string, q: char -> bool)
    requires forall i, k :: 0 <= i < |s| && 0 <= k < |f(s[i])| ==> q(f(s[i])[k])
    ensures forall j :: 0 <= j < |FlatMap(s, f)| ==> q(FlatMap(s, f)[j])
  {
    if s != [] {
      FlatMapInto(s[1..], f, q);
      forall j | 0 <= j < |FlatMap(s, f)| ensures q(FlatMap(s, f)[j]) {
        if j >= |f(s[0])| {
          assert FlatMap(s, f)[j] == FlatMap(s[1..], f)[j - |f(s[0])|];
        }
      }
    }
  }

  /** The characters the modelled lower-casing leaves alone; every slug character and all whitespace are among them. */
  predicate CaseStable(c: char) {
    !('A' <= c <= 'Z') && c != '\U{212A}' && c != '\U{0130}'
  }

  /**
   * `toLowerCase` of one character, as far as the result can be ASCII: A-Z,
   * KELVIN SIGN (to 'k') and LATIN CAPITAL LETTER I WITH DOT ABOVE (to 'i'
   * followed by COMBINING DOT ABOVE). Every other character is kept as it
   * is; the lower-case forms of the remaining non-ASCII letters are again
   * non-ASCII letters, which the callers (slug filters and comparisons with
   * ASCII words) treat exactly like the originals.
   */
  function LowerChar(c: char): (r: string)
    ensures 'A' <= c <= 'Z' ==> r == [(c as int + 32) as char]
    ensures CaseStable(c) ==> r == [c]
    ensures forall k :: 0 <= k < |r| ==> (IsSpace(r[k]) <==> IsSpace(c))
    ensures forall k :: 0 <= k < |r| ==> CaseStable(r[k])
  {
    if 'A' <= c <= 'Z' then [(c as int + 32) as char]
    else if c == '\U{212A}' then "k"
    else if c == '\U{0130}' then "i\U{0307}"
    else [c]
  }

  /** `toLowerCase`. */
  function Lower(s: string): string {
    FlatMap(s, LowerChar)
  }

  /** Lower-casing leaves a string without case-changing characters, such as a slug or whitespace, unchanged. */
  lemma LowerKeeps(s: string)
    requires forall i :: 0 <= i < |s| ==> CaseStable(s[i])
    ensures Lower(s) == s
  {
    FlatMapKeeps(s, LowerChar);
  }

  /** Lower-casing leaves a concatenation of case-stable pieces as it is. */
  lemma LowerKeepsJoin(a: string, b: string)
    requires forall i :: 0 <= i < |a| ==> CaseStable(a[i])
    requires forall i :: 0 <= i < |b| ==> CaseStable(b[i])
    ensures Lower(a + b) == a + b
  {
    var x := a + b;
    forall i | 0 <= i < |x|
      ensures CaseStable(x[i])
    {
      if i < |a| {
        assert x[i] == a[i];
      } else {
        assert x[i] == b[i - |a|];
      }
    }
    LowerKeeps(x);
  }

  /** Lower-casing twice is lower-casing once. */
  lemma LowerIdempotent(s: string)
    ensures Lower(Lower(s)) == Lower(s)
  {
    FlatMapInto(s, LowerChar, CaseStable);
    LowerKeeps(Lower(s));
  }

  /** A capitalised word: only its first letter changes. */
  lemma LowerCapitalised(c: char, rest: string)
    requires 'A' <= c <= 'Z' && forall i :: 0 <= i < |rest| ==> CaseStable(rest[i])
    ensures Lower([c] + rest) == [(c as int + 32) as char] + rest
  {
    FlatMapAppend([c], rest, LowerChar);
    assert [c][1..] == [];
    LowerKeeps(rest);
  }

  predicate StartsWith(s: string, prefix: string) {
    |prefix| <= |s| && s[..|prefix|] == prefix
  }

  /** `s` contains `t` starting at index `i`. */
  predicate OccursAt(s: string, t: string, i: nat) {
    i + |t| <= |s| && s[i..i + |t|] == t
  }

  /** Order-preserving filter of a sequence of strings. */
  function FilterTruthy(xs: seq<Option<string>>): (r: seq<string>)
    ensures |r| <= |xs|
    ensures forall i :: 0 <= i < |r| ==> r[i] != ""
  {
    if xs == [] then []
    else (if Truthy(xs[0]) then [xs[0].value] else []) + FilterTruthy(xs[1..])
  }

  /** `filter(Boolean)` keeps exactly the present, non-empty values. */
  lemma {:induction false} FilterTruthyMembers(xs: seq<Option<string>>)
    ensures forall x :: x in FilterTruthy(xs) <==>
      exists i :: 0 <= i < |xs| && xs[i] == Some(x) && x != ""
  {
    if xs != [] {
      FilterTruthyMembers(xs[1..]);
      forall x | (exists i :: 0 <= i < |xs[1..]| && xs[1..][i] == Some(x) && x != "")
        ensures exists i :: 0 <= i < |xs| && xs[i] == Some(x) && x != ""
      {
        var i :| 0 <= i < |xs[1..]| && xs[1..][i] == Some(x) && x != "";
        assert xs[i + 1] == Some(x);
      }
      forall x | (exists i :: 0 <= i < |xs| && xs[i] == Some(x) && x != "")
        ensures x in FilterTruthy(xs)
      {
        var i :| 0 <= i < |xs| && xs[i] == Some(x) && x != "";
        if i > 0 {
          assert xs[1..][i - 1] == Some(x);
        }
      }
    }
  }

  /** When every value is present and non-empty, `filter(Boolean)` drops nothing. */
  lemma {:induction false} FilterTruthyKeepsAll(xs: seq<Option<string>>)
    requires forall i :: 0 <= i < |xs| ==> Truthy(xs[i])
    ensures |FilterTruthy(xs)| == |xs|
    ensures forall i :: 0 <= i < |xs| ==> Some(FilterTruthy(xs)[i]) == xs[i]
  {
    if xs != [] {
      FilterTruthyKeepsAll(xs[1..]);
    }
  }

  /** `Array.prototype.join(sep)`. */
  function Join(parts: seq<string>, sep: string): string {
    if parts == [] then ""
    else if |parts| == 1 then parts[0]
    else parts[0] + sep + Join(parts[1..], sep)
  }

  /** `String(n)` for a non-negative integer. */
  function DecimalString(n: nat): (s: string)
    ensures |s| > 0 && AllDigits(s)
    ensures (|s| == 1) <==> n < 10
    decreases n
  {
    if n < 10 then [('0' as int + n) as char]
    else DecimalString(n / 10) + [('0' as int + n % 10) as char]
  }

  /** The value of a string of decimal digits, as `Number` reads it. */
  function DigitsValue(s: string): nat
    requires AllDigits(s)
  {
    if s == [] then 0 else DigitsValue(s[..|s| - 1]) * 10 + (s[|s| - 1] as int - '0' as int)
  }

  /** Reading back what `String(n)` wrote gives `n`, so distinct numbers are written differently. */
  lemma {:induction false} DecimalRoundTrip(n: nat)
    ensures DigitsValue(DecimalString(n)) == n
    decreases n
  {
    var s := DecimalString(n);
    if n >= 10 {
      DecimalRoundTrip(n / 10);
      assert s[..|s| - 1] == DecimalString(n / 10);
    }
  }
}

=== FILE: navbar.dfy ===
/**
 * The site's navigation bar: which link is marked active for the current
 * path, and the two pieces of state, the mobile menu's `open` and the
 * shadow's `scrolled`, as fields of a class whose methods are the event
 * handlers. The scroll position is a parameter.
 */
module Navbar {
  import opened JsText

  const Home := "/"

  /** The links of the desktop bar and of the mobile menu. */
  const NavLinks := ["/recipes", "/about", "/contact"]

  /** `isActive`: the home link only on the home page, any other link on its own path and below it. */
  predicate IsActive(pathname: string, href: string) {
    if href == Home then pathname == Home
    else pathname == href || StartsWith(pathname, href + "/")
  }

  /**
   * The same rule stated by segments: a link other than home is active
   * exactly on its path and on that path followed by "/" and anything.
   */
  lemma IsActiveBySegments(pathname: string, href: string)
    requires href != Home
    ensures IsActive(pathname, href) <==> pathname == href || exists rest :: pathname == href + "/" + rest
  {
    if StartsWith(pathname, href + "/") {
      var rest := pathname[|href| + 1..];
      assert pathname == href + "/" + rest;
    }
    if exists rest :: pathname == href + "/" + rest {
      var rest :| pathname == href + "/" + rest;
      assert pathname[..|href + "/"|] == href + "/";
    }
  }

  /** A path that merely begins with the same letters is not below the link: "/recipesx" does not mark "/recipes". */
  lemma SiblingPathNotActive(href: string, extra: string)
    requires href != Home && extra != [] && extra[0] != '/'
    ensures !IsActive(href + extra, href)
  {
    var p := href + extra;
    assert p[|href|] == extra[0];
    assert (href + "/")[|href|] == '/';
  }

  /** Every page below a link keeps that link active, and the home link is active nowhere else. */
  lemma NestedPathActive(href: string, rest: string)
    requires href != Home
    ensures IsActive(href + "/" + rest, href)
    ensures rest != [] ==> !IsActive(Home + rest, Home)
  {
    assert (href + "/" + rest)[..|href + "/"|] == href + "/";
  }

  /** At most one of the bar's links is active on any page. */
  lemma AtMostOneNavLinkActive(pathname: string)
    ensures forall i, j :: 0 <= i < j < |NavLinks| ==> !(IsActive(pathname, NavLinks[i]) && IsActive(pathname, NavLinks[j]))
  {
    forall i, j | 0 <= i < j < |NavLinks|
      ensures !(IsActive(pathname, NavLinks[i]) && IsActive(pathname, NavLinks[j]))
    {
      var a, b := NavLinks[i], NavLinks[j];
      assert a[1] != b[1];
      assert IsActive(pathname, a) ==> |pathname| > 1 && pathname[1] == a[1];
      assert IsActive(pathname, b) ==> |pathname| > 1 && pathname[1] == b[1];
    }
  }

  class Navbar {
    var open: bool
    var scrolled: bool

    /** Mounting runs the scroll handler once with the current position. */
    constructor (scrollY: real)
      ensures !open
      ensures scrolled <==> scrollY > 2.0
    {
      open := false;
      scrolled := scrollY > 2.0;
    }

    /** The menu button. */
    method ToggleMenu()
      modifies this
      ensures open == !old(open) && scrolled == old(scrolled)
    {
      open := !open;
    }

    /** The logo and every link of the mobile menu. */
    method CloseMenu()
      modifies this
      ensures !open && scrolled == old(scrolled)
    {
      open := false;
    }

    /** The scroll listener. */
    method OnScroll(scrollY: real)
      modifies this
      ensures (scrolled <==> scrollY > 2.0) && open == old(open)
    {
      scrolled := scrollY > 2.0;
    }
  }

  /** Pressing the menu button twice leaves both fields as they were. */
  method ToggleTwiceRestores(nav: Navbar)
    modifies nav
    ensures nav.open == old(nav.open) && nav.scrolled == old(nav.scrolled)
  {
    nav.ToggleMenu();
    nav.ToggleMenu();
  }
}

=== FILE: recipe_schema.dfy ===
/**
 * The `recipe` document type of the studio: its field rules as one validity
 * predicate, the slug generated from the title, and the values a new
 * document starts with. A `required` string is one that is present and
 * non-empty.
 */
module RecipeSchema {
  import opened Wrappers
  import opened JsText
  import IngredientSchema
  import StudioSlug

  /** The hero image: an uploaded asset and its alt text. */
  datatype HeroImage = HeroImage(asset: Option<string>, alt: Option<string>)

  /**
   * A recipe as edited in the studio; an absent field is `None`. Numbers are
   * JavaScript numbers, so minutes are reals; steps are kept as their text
   * and seasons as the referenced ids.
   */
  datatype RecipeDraft = RecipeDraft(
    title: Option<string>,
    slug: Option<string>,
    heroImage: Option<HeroImage>,
    summary: Option<string>,
    ingredients: Option<seq<IngredientSchema.Ingredient>>,
    steps: Option<seq<string>>,
    prepTime: Option<real>,
    cookTime: Option<real>,
    recipeYield: Option<string>,
    difficulty: Option<string>,
    tags: Option<seq<string>>,
    seasons: Option<seq<string>>,
    publishedAt: Option<string>,
    featured: Option<bool>)

  /** The values the difficulty radio offers. */
  const DifficultyChoices := ["Easy", "Medium", "Hard"]

  predicate IsInteger(x: real) {
    x == x.Floor as real
  }

  /** `Rule.min(0).integer()` on an optional number: absent, or a whole number of at least zero. */
  predicate MinutesOk(m: Option<real>) {
    m.None? || (m.value >= 0.0 && IsInteger(m.value))
  }

  /** `Rule.min(1)` on an optional array: absent, or at least one entry. */
  predicate AtLeastOne<T>(xs: Option<seq<T>>) {
    xs.None? || |xs.value| >= 1
  }

  /** The alt text rule lives inside the image, so it applies only once there is an image. */
  predicate AltOk(image: Option<HeroImage>) {
    image.None? || Truthy(image.value.alt)
  }

  /** Every ingredient line satisfies the ingredient type's own rules. */
  predicate IngredientsOk(xs: Option<seq<IngredientSchema.Ingredient>>) {
    xs.None? || forall i :: 0 <= i < |xs.value| ==> IngredientSchema.Valid(xs.value[i])
  }

  /** All field rules of the recipe type. */
  predicate Valid(d: RecipeDraft) {
    && Truthy(d.title)
    && Truthy(d.slug)
    && AltOk(d.heroImage)
    && AtLeastOne(d.ingredients) && IngredientsOk(d.ingredients)
    && AtLeastOne(d.steps)
    && MinutesOk(d.prepTime) && MinutesOk(d.cookTime)
    && (d.difficulty.None? || d.difficulty.value in DifficultyChoices)
  }

  /** The fields a validation message can point at. */
  datatype FieldPath = Title | Slug | HeroImageAlt | Ingredients | IngredientItem(index: nat) | Steps | PrepTime | CookTime | Difficulty

  /** The messages the studio shows for a draft, one per failing rule, in field order. */
  function Problems(d: RecipeDraft): seq<FieldPath> {
    (if Truthy(d.title) then [] else [Title])
    + (if Truthy(d.slug) then [] else [Slug])
    + (if AltOk(d.heroImage) then [] else [HeroImageAlt])
    + (if AtLeastOne(d.ingredients) then [] else [Ingredients])
    + ItemProblems(d.ingredients)
    + (if AtLeastOne(d.steps) then [] else [Steps])
    + (if MinutesOk(d.prepTime) then [] else [PrepTime])
    + (if MinutesOk(d.cookTime) then [] else [CookTime])
    + (if d.difficulty.None? || d.difficulty.value in DifficultyChoices then [] else [Difficulty])
  }

  /** One message per ingredient line without an item, pointing at that line. */
  function ItemProblems(xs: Option<seq<IngredientSchema.Ingredient>>): (r: seq<FieldPath>)
    ensures forall p :: p in r ==>
              xs.Some? && p.IngredientItem? && p.index < |xs.value| && !IngredientSchema.Valid(xs.value[p.index])
    ensures r == [] <==> IngredientsOk(xs)
  {
    if xs.None? then []
    else ItemProblemsFrom(xs.value, 0)
  }

  function ItemProblemsFrom(lines: seq<IngredientSchema.Ingredient>, start: nat): (r: seq<FieldPath>)
    requires start <= |lines|
    decreases |lines| - start
    ensures forall p :: p in r ==>
              p.IngredientItem? && start <= p.index < |lines| && !IngredientSchema.Valid(lines[p.index])
    ensures r == [] <==> forall i :: start <= i < |lines| ==> IngredientSchema.Valid(lines[i])
  {
    if start == |lines| then []
    else
      var here := if IngredientSchema.Valid(lines[start]) then [] else [IngredientItem(start)];
      here + ItemProblemsFrom(lines, start + 1)
  }

  /** A draft passes validation exactly when the studio shows no message for it. */
  lemma ValidIffNoProblems(d: RecipeDraft)
    ensures Valid(d) <==> Problems(d) == []
  {
    var items := ItemProblems(d.ingredients);
  }

  /** The `slugify` option, applied to the title the slug field is generated from. */
  function GenerateSlug(d: RecipeDraft): (slug: string)
    ensures IsSlug(slug) && |slug| <= StudioSlug.MaxSlugLength
  {
    StudioSlug.Slugify(d.title.GetOr(""))
  }

  /** A new recipe: only `publishedAt` (the clock reading) and `featured` (false) are filled in. */
  function NewRecipe(now: string): (d: RecipeDraft)
    ensures d.featured == Some(false) && d.publishedAt == Some(now)
    ensures Problems(d) == [Title, Slug]
  {
    RecipeDraft(None, None, None, None, None, None, None, None, None, None, None, None, Some(now), Some(false))
  }

  /** A new recipe cannot be published until its title and slug are filled in. */
  lemma NewRecipeNeedsTitleAndSlug(now: string, title: string, slug: string)
    ensures !Valid(NewRecipe(now))
    ensures title != "" && slug != "" ==> Valid(NewRecipe(now).(title := Some(title), slug := Some(slug)))
  {
    ValidIffNoProblems(NewRecipe(now));
  }
}

=== FILE: recipes_grid.dfy ===
/**
 * The recipes grid: season buttons, the season filter, and the "show more"
 * pagination. The two pieces of component state, the active season and the
 * number of visible cards, are the fields of a class whose methods are the
 * click handlers together with the effect that resets the count.
 */
module RecipesGrid {
  import opened Wrappers
  import opened JsText
  import CardMeta

  datatype Season = Season(title: string, slug: string)

  /** A recipe as the grid receives it; only the fields the grid reads. */
  datatype Recipe = Recipe(
    title: string,
    slug: string,
    seasons: Option<seq<Season>>,
    prepTime: Option<real>,
    cookTime: Option<real>,
    difficulty: Option<string>)

  /** The number of cards shown before "Show More", and again after every change of season. */
  const PageSize := 9

  const DefaultSeasons := [Season("Spring", "spring"), Season("Summer", "summer"), Season("Autumn", "autumn"), Season("Winter", "winter")]

  /** `seasonOptions`: the seasons passed in, or the four defaults when none are. */
  function SeasonOptions(seasons: seq<Season>): (options: seq<Season>)
    ensures |options| > 0
    ensures |seasons| > 0 ==> options == seasons
    ensures |seasons| == 0 ==> |options| == 4 && options[0].slug == "spring" && options[3].slug == "winter"
  {
    if |seasons| > 0 then seasons else DefaultSeasons
  }

  /** `(r.seasons || []).some((s) => s.slug === slug)`. */
  predicate HasSeason(r: Recipe, slug: string) {
    r.seasons.Some? && exists i :: 0 <= i < |r.seasons.value| && r.seasons.value[i].slug == slug
  }

  /** The recipes having a season with this slug, in their order. */
  function WithSeason(recipes: seq<Recipe>, slug: string): (r: seq<Recipe>)
    ensures |r| <= |recipes|
    ensures forall x :: x in r <==> x in recipes && HasSeason(x, slug)
  {
    if recipes == [] then []
    else (if HasSeason(recipes[0], slug) then [recipes[0]] else []) + WithSeason(recipes[1..], slug)
  }

  /** `filtered`: every recipe while no season is active (none, or the empty slug), else those with the active one. */
  function Filtered(recipes: seq<Recipe>, active: Option<string>): (r: seq<Recipe>)
    ensures !Truthy(active) ==> r == recipes
    ensures Truthy(active) ==> forall x :: x in r <==> x in recipes && HasSeason(x, active.value)
  {
    if !Truthy(active) then recipes else WithSeason(recipes, active.value)
  }

  /** The filter keeps the recipes' order: filtering two lists one after the other is filtering each. */
  lemma {:induction false} WithSeasonAppend(a: seq<Recipe>, b: seq<Recipe>, slug: string)
    ensures WithSeason(a + b, slug) == WithSeason(a, slug) + WithSeason(b, slug)
  {
    if a == [] {
      assert a + b == b;
    } else {
      assert (a + b)[0] == a[0] && (a + b)[1..] == a[1..] + b;
      WithSeasonAppend(a[1..], b, slug);
    }
  }

  /**
   * A recipe without seasons appears under no season, and when every recipe
   * has the season the filter keeps them all.
   */
  lemma {:induction false} WithSeasonBounds(recipes: seq<Recipe>, slug: string)
    ensures (forall i :: 0 <= i < |recipes| ==> HasSeason(recipes[i], slug)) ==> WithSeason(recipes, slug) == recipes
    ensures forall x :: x in WithSeason(recipes, slug) ==> x.seasons.Some? && |x.seasons.value| > 0
  {
    if recipes != [] {
      WithSeasonBounds(recipes[1..], slug);
    }
  }

  function Min(a: int, b: int): int {
    if a <= b then a else b
  }

  /** The grid's state: the active season (`null` is `None`) and how many cards are visible. */
  class RecipesGrid {
    const recipes: seq<Recipe>
    const seasons: seq<Season>
    var activeSeason: Option<string>
    var visibleCount: nat

    /** Mounting: no season, nine cards. */
    constructor (recipes: seq<Recipe>, seasons: seq<Season>)
      ensures this.recipes == recipes && this.seasons == seasons
      ensures activeSeason == None && visibleCount == PageSize
    {
      this.recipes := recipes;
      this.seasons := seasons;
      activeSeason := None;
      visibleCount := PageSize;
    }

    function Current(): (r: seq<Recipe>)
      reads this
      ensures |r| <= |recipes|
    {
      Filtered(recipes, activeSeason)
    }

    /** The cards rendered: the first `min(visibleCount, |filtered|)` filtered recipes. */
    function Rendered(): (r: seq<Recipe>)
      reads this
      ensures |r| == Min(visibleCount, |Current()|)
      ensures forall i :: 0 <= i < |r| ==> r[i] == Current()[i]
    {
      Current()[..Min(visibleCount, |Current()|)]
    }

    /** "Show More" is offered exactly when some filtered recipe is not rendered. */
    predicate ShowMoreVisible()
      reads this
      ensures ShowMoreVisible() <==> |Rendered()| < |Current()|
    {
      |Current()| > visibleCount
    }

    /** "SHOW ALL" is offered only while a season is active; while it is hidden every recipe passes the filter. */
    predicate ShowAllVisible()
      reads this
      ensures !ShowAllVisible() ==> Current() == recipes
    {
      Truthy(activeSeason)
    }

    /** A season button: select it; the count goes back to nine when the season changes. */
    method SelectSeason(slug: string)
      modifies this
      ensures activeSeason == Some(slug)
      ensures visibleCount == if old(activeSeason) != Some(slug) then PageSize else old(visibleCount)
    {
      var previous := activeSeason;
      activeSeason := Some(slug);
      if previous != activeSeason {
        visibleCount := PageSize;
      }
    }

    /** "SHOW ALL": clear the season; the count goes back to nine when one was set. */
    method ShowAll()
      modifies this
      ensures activeSeason == None && Current() == recipes
      ensures visibleCount == if old(activeSeason).Some? then PageSize else old(visibleCount)
      ensures !ShowAllVisible()
    {
      var previous := activeSeason;
      activeSeason := None;
      if previous != activeSeason {
        visibleCount := PageSize;
      }
    }

    /** "Show More": make every filtered recipe visible, which hides the button. */
    method ShowMore()
      modifies this
      ensures activeSeason == old(activeSeason)
      ensures visibleCount == |Current()|
      ensures Rendered() == Current() && !ShowMoreVisible()
    {
      visibleCount := |Current()|;
    }
  }

  /** The link and meta line of a grid card. */
  datatype Card = Card(href: string, meta: CardMeta.Meta)

  function CardFor(r: Recipe): (c: Card)
    ensures c.href == "/recipes/" + r.slug
    ensures c.meta.stars <= 3
  {
    Card("/recipes/" + r.slug, CardMeta.MetaLine(r.prepTime, r.cookTime, r.difficulty))
  }
}

=== FILE: season_schema.dfy ===
/**
 * The `season` document type of the studio: a required title, a required
 * slug generated from it, and an optional sort order.
 */
module SeasonSchema {
  import opened Wrappers
  import opened JsText
  import StudioSlug

  /** A season as edited in the studio; `order` is a JavaScript number. */
  datatype SeasonDraft = SeasonDraft(title: Option<string>, slug: Option<string>, order: Option<real>)

  /** The field rules: title and slug required, any order or none. */
  predicate Valid(d: SeasonDraft) {
    Truthy(d.title) && Truthy(d.slug)
  }

  /** The `slugify` option applied to the title, the same transform the recipe type uses. */
  function GenerateSlug(d: SeasonDraft): (slug: string)
    ensures IsSlug(slug) && |slug| <= StudioSlug.MaxSlugLength
  {
    StudioSlug.Slugify(d.title.GetOr(""))
  }

  /**
   * Filling the slug from a title that yields a non-empty slug makes a draft
   * with a title valid, whatever its order; re-generating from the generated
   * slug changes nothing.
   */
  lemma GeneratedSlugValidates(d: SeasonDraft)
    requires Truthy(d.title) && GenerateSlug(d) != ""
    ensures Valid(d.(slug := Some(GenerateSlug(d))))
    ensures Valid(d.(slug := Some(GenerateSlug(d)), order := None))
    ensures StudioSlug.Slugify(GenerateSlug(d)) == GenerateSlug(d)
  {
    StudioSlug.SlugifyIdempotent(d.title.GetOr(""));
  }
}

=== FILE: seed_recipes.dfy ===
/**
 * The recipe seeding script: its own `slugify`, the document it builds for
 * each seed record, and the loop that creates the documents whose slug is
 * not taken yet. The CMS is seen through three lookups: whether a recipe
 * with a slug exists (a set of slugs), the season lookup by slug, and the
 * image upload.
 */
module SeedRecipes {
  import opened Wrappers
  import RecipeSchema
  import IngredientSchema
  import opened JsText
  import opened SlugSteps

  const MaxSlugLength := 96

  /** `replace(/&/g, " and ")` on one character. */
  function SpellAmpersand(c: char): string {
    if c == '&' then " and " else [c]
  }

  /** The characters `replace(/[^a-z0-9\s-]/g, "")` keeps. */
  predicate SeedSlugChar(c: char) {
    IsLowerAlnum(c) || IsSpace(c) || c == '-'
  }

  /** The steps before `trim()`, which work character by character. */
  function BeforeTrim(s: string): string {
    Filter(FlatMap(Lower(s), SpellAmpersand), SeedSlugChar)
  }

  /**
   * The script's `slugify`: lower-case, spell '&' as " and ", drop every
   * character outside a-z, 0-9, whitespace and '-', trim, turn each
   * whitespace run into '-', collapse each run of hyphens, keep the first 96
   * characters.
   */
  function Slugify(input: string): string {
    var trimmed := Trim(BeforeTrim(input));
    var hyphenated := HyphenateRuns(trimmed, IsSpace, false);
    Truncate(HyphenateRuns(hyphenated, IsHyphen, false), MaxSlugLength)
  }

  /** The result is a slug of at most 96 characters with no two adjacent hyphens. */
  lemma SlugifyWellFormed(input: string)
    ensures IsSlug(Slugify(input)) && NoDoubleHyphen(Slugify(input)) && |Slugify(input)| <= MaxSlugLength
  {
    var kept := BeforeTrim(input);
    var trimmed := Trim(kept);
    var hyphenated := HyphenateRuns(trimmed, IsSpace, false);
    var collapsed := HyphenateRuns(hyphenated, IsHyphen, false);
    TrimmedKeepsChars(kept);
    HyphenateRunsInto(trimmed, IsSpace, false, IsSlugChar);
    HyphenateRunsInto(hyphenated, IsHyphen, false, IsSlugChar);
    HyphenateRunsCollapses(hyphenated, IsHyphen, false);
    var slug := Truncate(collapsed, MaxSlugLength);
    assert forall j :: 0 <= j < |slug| ==> slug[j] == collapsed[j];
  }

  /** Every character `trim()` keeps is one of the input's. */
  lemma TrimmedKeepsChars(s: string)
    requires forall i :: 0 <= i < |s| ==> SeedSlugChar(s[i])
    ensures forall j :: 0 <= j < |Trim(s)| ==> SeedSlugChar(Trim(s)[j])
  {
    var t := TrimStart(s);
    forall j | 0 <= j < |Trim(s)| ensures SeedSlugChar(Trim(s)[j]) {
      assert Trim(s)[j] == t[j];
      assert t[j] == s[|s| - |t| + j];
    }
  }

  lemma BeforeTrimKeeps(s: string)
    requires forall i :: 0 <= i < |s| ==> IsSlugChar(s[i]) || IsSpace(s[i])
    ensures BeforeTrim(s) == s
  {
    LowerKeeps(s);
    FlatMapKeeps(s, SpellAmpersand);
    FilterKeepsAll(s, SeedSlugChar);
  }

  /**
   * A slug of at most 96 characters without two adjacent hyphens is its own
   * slug.
   */
  lemma SlugifyFixesSlugs(s: string)
    requires IsSlug(s) && NoDoubleHyphen(s) && |s| <= MaxSlugLength
    ensures Slugify(s) == s
  {
    BeforeTrimKeeps(s);
    TrimKeeps(s);
    HyphenateRunsKeeps(s, IsSpace, false);
    CollapseKeepsSingleHyphens(s);
  }

  /** Slugifying a slug changes nothing. */
  lemma SlugifyIdempotent(input: string)
    ensures Slugify(Slugify(input)) == Slugify(input)
  {
    SlugifyWellFormed(input);
    SlugifyFixesSlugs(Slugify(input));
  }

  lemma BeforeTrimAppend(a: string, b: string)
    ensures BeforeTrim(a + b) == BeforeTrim(a) + BeforeTrim(b)
  {
    FlatMapAppend(a, b, LowerChar);
    FlatMapAppend(Lower(a), Lower(b), SpellAmpersand);
    FilterAppend(FlatMap(Lower(a), SpellAmpersand), FlatMap(Lower(b), SpellAmpersand), SeedSlugChar);
  }

  /** Whitespace around the input is trimmed before hyphenation, so it makes no difference. */
  lemma SlugifyIgnoresSurroundingSpace(w1: string, s: string, w2: string)
    requires AllIn(w1, IsSpace) && AllIn(w2, IsSpace)
    ensures Slugify(w1 + s + w2) == Slugify(s)
  {
    BeforeTrimAppend(w1 + s, w2);
    BeforeTrimAppend(w1, s);
    BeforeTrimKeeps(w1);
    BeforeTrimKeeps(w2);
    TrimIgnoresPadding(w1, BeforeTrim(s), w2);
  }

  lemma BeforeTrimOfSpacedAmpersand()
    ensures BeforeTrim(" & ") == "  and  "
  {
    LowerKeeps(" & ");
    var x := " & ";
    assert x[1..] == "& " && x[1..][1..] == " " && x[1..][1..][1..] == [];
    assert FlatMap(" ", SpellAmpersand) == " ";
    assert FlatMap("& ", SpellAmpersand) == " and " + " ";
    assert FlatMap(x, SpellAmpersand) == "  and  ";
    FilterKeepsAll("  and  ", SeedSlugChar);
  }

  /** For two lower-case words around " & ", the steps before `trim()` give "  and  " between them. */
  lemma BeforeTrimOfAmpersand(a: string, b: string)
    requires AllIn(a, IsLowerAlnum) && AllIn(b, IsLowerAlnum)
    ensures BeforeTrim(a + " & " + b) == a + "  and  " + b
  {
    BeforeTrimAppend(a + " & ", b);
    BeforeTrimAppend(a, " & ");
    BeforeTrimKeeps(a);
    BeforeTrimKeeps(b);
    BeforeTrimOfSpacedAmpersand();
  }

  /** Each of the two whitespace runs around "and" becomes one '-'. */
  lemma HyphenateAroundAnd(a: string, b: string)
    requires AllIn(a, IsLowerAlnum) && AllIn(b, IsLowerAlnum)
    ensures HyphenateRuns(a + "  and  " + b, IsSpace, false) == a + "-and-" + b
  {
    var spaces, and := "  ", "and";
    assert a + "  and  " + b == a + spaces + and + spaces + b;
    assert NoneIn(a, IsSpace) && NoneIn(b, IsSpace);
    assert AllIn(spaces, IsSpace) && NoneIn(and, IsSpace);
    HyphenateRunsAround(a, spaces, and, spaces, b, IsSpace);
    assert a + "-" + and + "-" + b == a + "-and-" + b;
  }

  lemma CollapseAroundAnd(a: string, b: string)
    requires AllIn(a, IsLowerAlnum) && AllIn(b, IsLowerAlnum)
    ensures HyphenateRuns(a + "-and-" + b, IsHyphen, false) == a + "-and-" + b
  {
    var y := a + "-and-" + b;
    forall i | 0 <= i < |y| - 1 ensures !(y[i] == '-' && y[i + 1] == '-') {
      if i < |a| {
        assert y[i] == a[i];
      } else if i >= |a| + 5 {
        assert y[i] == b[i - |a| - 5];
      }
    }
    CollapseKeepsSingleHyphens(y);
  }

  /** '&' between two words becomes the word "and". */
  lemma SlugifySpellsAmpersand(a: string, b: string)
    requires AllIn(a, IsLowerAlnum) && AllIn(b, IsLowerAlnum)
    requires a != [] && b != [] && |a| + 5 + |b| <= MaxSlugLength
    ensures Slugify(a + " & " + b) == a + "-and-" + b
  {
    var x := a + "  and  " + b;
    BeforeTrimOfAmpersand(a, b);
    assert x[0] == a[0] && x[|x| - 1] == b[|b| - 1];
    TrimKeeps(x);
    HyphenateAroundAnd(a, b);
    CollapseAroundAnd(a, b);
  }

  lemma SlugifyThymeAndRosemary()
    ensures Slugify("thyme & rosemary") == "thyme-and-rosemary"
  {
    var a, b := "thyme", "rosemary";
    assert a + " & " + b == "thyme & rosemary";
    assert a + "-and-" + b == "thyme-and-rosemary";
    SlugifySpellsAmpersand(a, b);
  }

  /** The difficulties a seed may name. */
  datatype Difficulty = Easy | Medium | Hard
  {
    function Name(): string {
      match this
      case Easy => "Easy"
      case Medium => "Medium"
      case Hard => "Hard"
    }
  }

  /** One ingredient line; the document copies its fields next to `_type: "ingredient"`. */
  datatype IngredientLine = IngredientLine(quantity: Option<string>, unit: Option<string>, item: string, note: Option<string>)

  /** A seed record (the `Seed` type). */
  datatype Seed = Seed(
    title: string,
    summary: string,
    seasons: seq<string>,
    imageUrl: string,
    alt: string,
    ingredients: seq<IngredientLine>,
    steps: seq<string>,
    prep: Option<real>,
    cook: Option<real>,
    recipeYield: Option<string>,
    difficulty: Option<Difficulty>,
    featured: Option<bool>)

  /** A span of text, `_type: "span"`. */
  datatype Span = Span(text: string)

  /** A portable-text block, `_type: "block"`. */
  datatype Block = Block(style: string, children: seq<Span>)

  /** A reference to another document, `_type: "reference"`. */
  datatype Reference = Reference(ref: string)

  datatype HeroImage = HeroImage(asset: Reference, alt: string)

  /** The recipe document handed to `client.create`, `_type: "recipe"`. */
  datatype RecipeDocument = RecipeDocument(
    id: string,
    title: string,
    slug: string,
    summary: string,
    heroImage: HeroImage,
    ingredients: seq<IngredientLine>,
    steps: seq<Block>,
    prepTime: real,
    cookTime: real,
    recipeYield: string,
    difficulty: string,
    seasons: seq<Reference>,
    featured: bool,
    publishedAt: string)

  const DocumentIdPrefix := "recipe."

  /** A step becomes one normal block holding one span with its text. */
  function StepBlock(text: string): Block {
    Block("normal", [Span(text)])
  }

  /** `filter(Boolean)` over the season lookups, each survivor as a reference. */
  function SeasonRefs(ids: seq<Option<string>>): seq<Reference> {
    var present := FilterTruthy(ids);
    seq(|present|, i requires 0 <= i < |present| => Reference(present[i]))
  }

  /** The document built for `seed` once its slug, image asset, season lookups and time stamp are known. */
  function BuildDocument(seed: Seed, slug: string, assetId: string, seasonIds: seq<Option<string>>, publishedAt: string): RecipeDocument {
    RecipeDocument(
      DocumentIdPrefix + slug,
      seed.title,
      slug,
      seed.summary,
      HeroImage(Reference(assetId), seed.alt),
      seed.ingredients,
      seq(|seed.steps|, i requires 0 <= i < |seed.steps| => StepBlock(seed.steps[i])),
      seed.prep.GetOr(0.0),
      seed.cook.GetOr(0.0),
      seed.recipeYield.GetOr(""),
      match seed.difficulty case Some(d) => d.Name() case None => "Easy",
      SeasonRefs(seasonIds),
      seed.featured == Some(true),
      publishedAt)
  }

  /**
   * The document carries the slug in its id and its slug field, copies the
   * seed's text, and fills each absent optional field with its default:
   * 0 minutes, an empty yield, "Easy", and not featured.
   */
  lemma DocumentFields(seed: Seed, slug: string, assetId: string, seasonIds: seq<Option<string>>, publishedAt: string)
    ensures var doc := BuildDocument(seed, slug, assetId, seasonIds, publishedAt);
      && doc.id == "recipe." + slug && doc.slug == slug
      && doc.title == seed.title && doc.heroImage.alt == seed.alt && doc.heroImage.asset.ref == assetId
      && (seed.prep.None? ==> doc.prepTime == 0.0) && (seed.prep.Some? ==> doc.prepTime == seed.prep.value)
      && (seed.cook.None? ==> doc.cookTime == 0.0) && (seed.cook.Some? ==> doc.cookTime == seed.cook.value)
      && (seed.recipeYield.None? ==> doc.recipeYield == "") && (seed.recipeYield.Some? ==> doc.recipeYield == seed.recipeYield.value)
      && (seed.difficulty.None? ==> doc.difficulty == "Easy")
      && (doc.difficulty in ["Easy", "Medium", "Hard"])
      && (doc.featured <==> seed.featured == Some(true))
  {
  }

  /**
   * Ingredients and steps map one to one and in order, each step to one
   * block with one span; the season references are exactly the lookups that
   * found a season, in order, and all of them when every lookup succeeds.
   */
  lemma DocumentListsPreserved(seed: Seed, slug: string, assetId: string, seasonIds: seq<Option<string>>, publishedAt: string)
    ensures var doc := BuildDocument(seed, slug, assetId, seasonIds, publishedAt);
      && doc.ingredients == seed.ingredients
      && |doc.steps| == |seed.steps|
      && (forall i :: 0 <= i < |seed.steps| ==> doc.steps[i].children == [Span(seed.steps[i])])
      && (forall id :: Reference(id) in doc.seasons <==> exists k :: 0 <= k < |seasonIds| && seasonIds[k] == Some(id) && id != "")
      && ((forall k :: 0 <= k < |seasonIds| ==> Truthy(seasonIds[k])) ==>
            |doc.seasons| == |seasonIds| && forall k :: 0 <= k < |seasonIds| ==> Some(doc.seasons[k].ref) == seasonIds[k])
  {
    var doc := BuildDocument(seed, slug, assetId, seasonIds, publishedAt);
    var present := FilterTruthy(seasonIds);
    FilterTruthyMembers(seasonIds);
    forall id ensures Reference(id) in doc.seasons <==> id in present {
      if Reference(id) in doc.seasons {
        var k :| 0 <= k < |doc.seasons| && doc.seasons[k] == Reference(id);
        assert present[k] == id;
      }
      if id in present {
        var k :| 0 <= k < |present| && present[k] == id;
        assert doc.seasons[k] == Reference(id);
      }
    }
    if forall k :: 0 <= k < |seasonIds| ==> Truthy(seasonIds[k]) {
      FilterTruthyKeepsAll(seasonIds);
    }
  }

  /** How the studio sees a created document. */
  function AsDraft(doc: RecipeDocument): RecipeSchema.RecipeDraft {
    RecipeSchema.RecipeDraft(
      Some(doc.title), Some(doc.slug),
      Some(RecipeSchema.HeroImage(Some(doc.heroImage.asset.ref), Some(doc.heroImage.alt))),
      Some(doc.summary),
      Some(seq(|doc.ingredients|, i requires 0 <= i < |doc.ingredients| =>
        var l := doc.ingredients[i]; IngredientSchema.Ingredient(l.quantity, l.unit, Some(l.item), l.note))),
      Some(seq(|doc.steps|, i requires 0 <= i < |doc.steps| => StepText(doc.steps[i]))),
      Some(doc.prepTime), Some(doc.cookTime),
      Some(doc.recipeYield), Some(doc.difficulty), None,
      Some(seq(|doc.seasons|, i requires 0 <= i < |doc.seasons| => doc.seasons[i].ref)),
      Some(doc.publishedAt), Some(doc.featured))
  }

  /** The text of a block: that of its first span, the only one the script writes. */
  function StepText(b: Block): string {
    if b.children == [] then "" else b.children[0].text
  }

  /**
   * A document the script builds passes the studio's recipe rules whenever
   * the seed has a title, alt text, at least one ingredient (each with an
   * item), at least one step and whole, non-negative minutes if any, and the
   * slug is not empty: the defaults it fills in are all admissible.
   */
  lemma BuiltDocumentIsValid(seed: Seed, slug: string, assetId: string, seasonIds: seq<Option<string>>, publishedAt: string)
    requires seed.title != "" && seed.alt != "" && slug != ""
    requires |seed.ingredients| >= 1 && forall i :: 0 <= i < |seed.ingredients| ==> seed.ingredients[i].item != ""
    requires |seed.steps| >= 1
    requires RecipeSchema.MinutesOk(seed.prep) && RecipeSchema.MinutesOk(seed.cook)
    ensures RecipeSchema.Valid(AsDraft(BuildDocument(seed, slug, assetId, seasonIds, publishedAt)))
  {
    var doc := BuildDocument(seed, slug, assetId, seasonIds, publishedAt);
    DocumentFields(seed, slug, assetId, seasonIds, publishedAt);
    var d := AsDraft(doc);
    assert RecipeSchema.IsInteger(0.0);
    assert d.difficulty.value in RecipeSchema.DifficultyChoices;
  }

  /**
   * The script copies the seed's minutes unchecked, so a fractional or
   * negative time gives a document the studio flags; only an absent time is
   * replaced, by the admissible 0.
   */
  lemma BadSeedTimeIsFlagged(seed: Seed, slug: string, assetId: string, seasonIds: seq<Option<string>>, publishedAt: string)
    ensures !RecipeSchema.MinutesOk(seed.prep) ==>
      RecipeSchema.PrepTime in RecipeSchema.Problems(AsDraft(BuildDocument(seed, slug, assetId, seasonIds, publishedAt)))
    ensures !RecipeSchema.MinutesOk(seed.cook) ==>
      RecipeSchema.CookTime in RecipeSchema.Problems(AsDraft(BuildDocument(seed, slug, assetId, seasonIds, publishedAt)))
  {
    var d := AsDraft(BuildDocument(seed, slug, assetId, seasonIds, publishedAt));
    assert d.prepTime == Some(seed.prep.GetOr(0.0)) && d.cookTime == Some(seed.cook.GetOr(0.0));
    assert RecipeSchema.IsInteger(0.0);
  }

  /**
   * The CMS as the script sees it. A rejected request ends `run()`, and with
   * it the process; each such rejection is an oracle, indexed by the
   * position of the seed whose request it is.
   */
  datatype Cms = Cms(
    /** Whether one of the four `getSeasonRef` queries of the opening check is rejected. */
    checkRejected: bool,
    /** Whether the query for an existing recipe with the seed's slug is rejected. */
    existsRejected: nat -> bool,
    /** `getSeasonRef`: the id of the season with a slug; `None` for no season or an empty id. */
    seasonId: string -> Option<string>,
    /** Whether one of the seed's season lookups is rejected, failing the `Promise.all`. */
    seasonsRejected: nat -> bool,
    /** `uploadImage(url, filename)`: the asset id, or `None` when the image and the placeholder both fail. */
    upload: (string, string) -> Option<string>,
    /** Whether `client.create` rejects the seed's document. */
    createRejected: nat -> bool)

  function SeasonIds(seed: Seed, cms: Cms): seq<Option<string>> {
    seq(|seed.seasons|, i requires 0 <= i < |seed.seasons| => cms.seasonId(seed.seasons[i]))
  }

  /** What a run did: the documents created, the slugs taken afterwards, and whether a rejected request stopped it. */
  datatype Outcome = Outcome(created: seq<RecipeDocument>, taken: set<string>, aborted: bool)

  /** The slug `slugify` gives each seed's title. */
  function SeedSlugs(seeds: seq<Seed>, slugify: string -> string): (slugs: seq<string>)
    ensures |slugs| == |seeds|
    ensures forall i :: 0 <= i < |seeds| ==> slugs[i] == slugify(seeds[i].title)
  {
    seq(|seeds|, i requires 0 <= i < |seeds| => slugify(seeds[i].title))
  }

  /** Whether every request for creating seed `i`'s document goes through: its upload, its season lookups and the creation. */
  predicate SeedCreated(seeds: seq<Seed>, slugs: seq<string>, i: nat, cms: Cms)
    requires |slugs| == |seeds| && i < |seeds|
  {
    cms.upload(seeds[i].imageUrl, slugs[i] + ".jpg").Some? && !cms.seasonsRejected(i) && !cms.createRejected(i)
  }

  /**
   * The loop of `run` from seed `i` on, with `slugs[i]` the slug of seed
   * `i`, `taken` the slugs of the recipes already stored and `stamp(i)` the
   * time stamp taken for seed `i`. The requests of a seed come in the
   * script's order: the existence query, the upload, the season lookups,
   * the creation.
   */
  function RunFrom(seeds: seq<Seed>, slugs: seq<string>, i: nat, taken: set<string>, cms: Cms, stamp: nat -> string): Outcome
    requires |slugs| == |seeds| && i <= |seeds|
    decreases |seeds| - i
  {
    if i == |seeds| then Outcome([], taken, false)
    else if cms.existsRejected(i) then Outcome([], taken, true)
    else if slugs[i] in taken then RunFrom(seeds, slugs, i + 1, taken, cms, stamp)
    else match cms.upload(seeds[i].imageUrl, slugs[i] + ".jpg")
      case None => Outcome([], taken, true)
      case Some(assetId) =>
        if cms.seasonsRejected(i) || cms.createRejected(i) then Outcome([], taken, true)
        else
          var doc := BuildDocument(seeds[i], slugs[i], assetId, SeasonIds(seeds[i], cms), stamp(i));
          var rest := RunFrom(seeds, slugs, i + 1, taken + {slugs[i]}, cms, stamp);
          Outcome([doc] + rest.created, rest.taken, rest.aborted)
  }

  /** `run`: the opening season check, then the loop over the seeds. */
  function RunAll(seeds: seq<Seed>, slugs: seq<string>, taken: set<string>, cms: Cms, stamp: nat -> string): Outcome
    requires |slugs| == |seeds|
  {
    if cms.checkRejected then Outcome([], taken, true)
    else RunFrom(seeds, slugs, 0, taken, cms, stamp)
  }

  /**
   * `run`: one pass over the seeds, skipping those whose slug is taken,
   * stopping at the first rejected request. It is stated for any slug
   * function so that its proof does not unfold the slug pipeline.
   */
  method RunWith(seeds: seq<Seed>, slugify: string -> string, taken0: set<string>, cms: Cms, stamp: nat -> string)
    returns (created: seq<RecipeDocument>, taken: set<string>, aborted: bool)
    ensures Outcome(created, taken, aborted) == RunAll(seeds, SeedSlugs(seeds, slugify), taken0, cms, stamp)
  {
    ghost var slugs := SeedSlugs(seeds, slugify);
    created, taken, aborted := [], taken0, false;
    if cms.checkRejected {
      aborted := true;
      return;
    }
    var i := 0;
    while i < |seeds|
      invariant i <= |seeds|
      invariant var rest := RunFrom(seeds, slugs, i, taken, cms, stamp);
        Outcome(created + rest.created, rest.taken, rest.aborted) == RunFrom(seeds, slugs, 0, taken0, cms, stamp)
    {
      var seed := seeds[i];
      var slug := slugify(seed.title);
      assert slug == slugs[i];
      if cms.existsRejected(i) {
        assert created + [] == created;
        aborted := true;
        return;
      }
      if slug in taken {
        i := i + 1;
        continue;
      }
      var asset := cms.upload(seed.imageUrl, slug + ".jpg");
      if asset.None? || cms.seasonsRejected(i) || cms.createRejected(i) {
        assert created + [] == created;
        aborted := true;
        return;
      }
      var doc := BuildDocument(seed, slug, asset.value, SeasonIds(seed, cms), stamp(i));
      ghost var rest := RunFrom(seeds, slugs, i + 1, taken + {slug}, cms, stamp);
      assert RunFrom(seeds, slugs, i, taken, cms, stamp) == Outcome([doc] + rest.created, rest.taken, rest.aborted);
      assert created + [doc] + rest.created == created + ([doc] + rest.created);
      created := created + [doc];
      taken := taken + {slug};
      i := i + 1;
    }
  }

  /** `run` with the script's own `slugify`. */
  method Run(seeds: seq<Seed>, taken0: set<string>, cms: Cms, stamp: nat -> string)
    returns (created: seq<RecipeDocument>, taken: set<string>, aborted: bool)
    ensures Outcome(created, taken, aborted) == RunAll(seeds, SeedSlugs(seeds, Slugify), taken0, cms, stamp)
  {
    created, taken, aborted := RunWith(seeds, Slugify, taken0, cms, stamp);
  }

  /** The slugs of a list of documents. */
  function SlugsOf(docs: seq<RecipeDocument>): set<string> {
    set k | 0 <= k < |docs| :: docs[k].slug
  }

  lemma SlugsOfCons(d: RecipeDocument, docs: seq<RecipeDocument>)
    ensures SlugsOf([d] + docs) == {d.slug} + SlugsOf(docs)
  {
    var all := [d] + docs;
    forall x | x in SlugsOf(all) ensures x in {d.slug} + SlugsOf(docs) {
      var k :| 0 <= k < |all| && all[k].slug == x;
      if k > 0 { assert all[k] == docs[k - 1]; }
    }
    forall x | x in {d.slug} + SlugsOf(docs) ensures x in SlugsOf(all) {
      if x == d.slug { assert all[0].slug == x; }
      else {
        var k :| 0 <= k < |docs| && docs[k].slug == x;
        assert all[k + 1] == docs[k];
      }
    }
  }

  /**
   * A run creates documents only for slugs not taken before, never two with
   * the same slug, each with id "recipe." + slug, and afterwards exactly
   * the old slugs and the created ones are taken.
   */
  lemma {:induction false} RunCreatesOnlyNewSlugs(seeds: seq<Seed>, slugs: seq<string>, i: nat, taken: set<string>, cms: Cms, stamp: nat -> string)
    requires |slugs| == |seeds| && i <= |seeds|
    decreases |seeds| - i
    ensures var out := RunFrom(seeds, slugs, i, taken, cms, stamp);
      && (forall k :: 0 <= k < |out.created| ==>
            out.created[k].slug !in taken && out.created[k].id == DocumentIdPrefix + out.created[k].slug)
      && (forall k, l :: 0 <= k < l < |out.created| ==> out.created[k].slug != out.created[l].slug)
      && out.taken == taken + SlugsOf(out.created)
  {
    if i < |seeds| && !cms.existsRejected(i) {
      var slug := slugs[i];
      if slug in taken {
        RunCreatesOnlyNewSlugs(seeds, slugs, i + 1, taken, cms, stamp);
      } else if SeedCreated(seeds, slugs, i, cms) {
        RunCreatesOnlyNewSlugs(seeds, slugs, i + 1, taken + {slug}, cms, stamp);
        var out := RunFrom(seeds, slugs, i, taken, cms, stamp);
        var rest := RunFrom(seeds, slugs, i + 1, taken + {slug}, cms, stamp);
        assert out.created == [out.created[0]] + rest.created;
        assert out.created[0].slug == slug;
        forall k | 0 < k < |out.created| ensures out.created[k] == rest.created[k - 1] {}
        SlugsOfCons(out.created[0], rest.created);
      }
    }
  }

  /** Every created document's slug is the slug of one of the seeds run over. */
  lemma {:induction false} RunSlugsComeFromSeeds(seeds: seq<Seed>, slugs: seq<string>, i: nat, taken: set<string>, cms: Cms, stamp: nat -> string)
    requires |slugs| == |seeds| && i <= |seeds|
    decreases |seeds| - i
    ensures forall d :: d in RunFrom(seeds, slugs, i, taken, cms, stamp).created ==> d.slug in slugs[i..]
  {
    if i < |seeds| && !cms.existsRejected(i) {
      var slug := slugs[i];
      if slug in taken {
        RunSlugsComeFromSeeds(seeds, slugs, i + 1, taken, cms, stamp);
      } else if SeedCreated(seeds, slugs, i, cms) {
        RunSlugsComeFromSeeds(seeds, slugs, i + 1, taken + {slug}, cms, stamp);
      }
    }
  }

  /** With the script's `slugify`, every created document has a well-formed slug of at most 96 characters. */
  lemma RunCreatesWellFormedSlugs(seeds: seq<Seed>, taken: set<string>, cms: Cms, stamp: nat -> string)
    ensures forall d :: d in RunAll(seeds, SeedSlugs(seeds, Slugify), taken, cms, stamp).created ==>
      IsSlug(d.slug) && NoDoubleHyphen(d.slug) && |d.slug| <= MaxSlugLength
  {
    var slugs := SeedSlugs(seeds, Slugify);
    RunSlugsComeFromSeeds(seeds, slugs, 0, taken, cms, stamp);
    forall j | 0 <= j < |seeds|
      ensures IsSlug(slugs[j]) && NoDoubleHyphen(slugs[j]) && |slugs[j]| <= MaxSlugLength
    {
      SlugifyWellFormed(seeds[j].title);
    }
  }

  /**
   * A seed whose slug is already taken gets no document: the run goes on
   * with the next seed, unless the query for the existing recipe was
   * rejected, which ends it with nothing more created.
   */
  lemma TakenSeedIsSkipped(seeds: seq<Seed>, slugs: seq<string>, i: nat, taken: set<string>, cms: Cms, stamp: nat -> string)
    requires |slugs| == |seeds| && i < |seeds| && slugs[i] in taken
    ensures var out := RunFrom(seeds, slugs, i, taken, cms, stamp);
      && (cms.existsRejected(i) ==> out.created == [] && out.aborted)
      && (!cms.existsRejected(i) ==> out == RunFrom(seeds, slugs, i + 1, taken, cms, stamp))
  {
  }

  /**
   * A run that no rejection stopped has gone through every seed: afterwards
   * every seed's slug is taken, and nothing taken before was given up.
   */
  lemma {:induction false} CompleteRunTakesEverySlug(seeds: seq<Seed>, slugs: seq<string>, i: nat, taken: set<string>, cms: Cms, stamp: nat -> string)
    requires |slugs| == |seeds| && i <= |seeds|
    decreases |seeds| - i
    ensures var out := RunFrom(seeds, slugs, i, taken, cms, stamp);
      && taken <= out.taken
      && (!out.aborted ==> forall j :: i <= j < |seeds| ==> slugs[j] in out.taken)
  {
    if i < |seeds| && !cms.existsRejected(i) {
      if slugs[i] in taken {
        CompleteRunTakesEverySlug(seeds, slugs, i + 1, taken, cms, stamp);
      } else if SeedCreated(seeds, slugs, i, cms) {
        CompleteRunTakesEverySlug(seeds, slugs, i + 1, taken + {slugs[i]}, cms, stamp);
      }
    }
  }

  /**
   * A run stops only at a seed with a rejected request or an image that
   * could not be uploaded; when every request of every seed goes through,
   * it runs to the end.
   */
  lemma {:induction false} AbortHasACause(seeds: seq<Seed>, slugs: seq<string>, i: nat, taken: set<string>, cms: Cms, stamp: nat -> string)
    requires |slugs| == |seeds| && i <= |seeds|
    decreases |seeds| - i
    ensures RunFrom(seeds, slugs, i, taken, cms, stamp).aborted ==>
      exists j :: i <= j < |seeds| && (cms.existsRejected(j) || !SeedCreated(seeds, slugs, j, cms))
    ensures (forall j :: i <= j < |seeds| ==> !cms.existsRejected(j) && SeedCreated(seeds, slugs, j, cms)) ==>
      !RunFrom(seeds, slugs, i, taken, cms, stamp).aborted
  {
    if i < |seeds| && !cms.existsRejected(i) {
      if slugs[i] in taken {
        AbortHasACause(seeds, slugs, i + 1, taken, cms, stamp);
      } else if SeedCreated(seeds, slugs, i, cms) {
        AbortHasACause(seeds, slugs, i + 1, taken + {slugs[i]}, cms, stamp);
      }
    }
  }
}

=== FILE: slug_steps.dfy ===
/**
 * The string steps the slug functions chain together, each the effect of
 * one JavaScript call: `replace(/[^…]/g, "")` is `Filter`, `replace(/x+/g,
 * "-")` is `HyphenateRuns`, `trim()` is `Trim` and `slice(0, n)` is
 * `Truncate`.
 */
module SlugSteps {
  import opened JsText

  predicate IsHyphen(c: char) {
    c == '-'
  }

  /** No two adjacent hyphens. */
  predicate NoDoubleHyphen(s: string) {
    forall i :: 0 <= i < |s| - 1 ==> !(s[i] == '-' && s[i + 1] == '-')
  }

  /** `replace(/[^…]/g, "")`: the characters `keep` accepts, in order. */
  function Filter(s: string, keep: char -> bool): (r: string)
    ensures |r| <= |s|
    ensures forall j :: 0 <= j < |r| ==> keep(r[j])
  {
    if s == [] then []
    else (if keep(s[0]) then [s[0]] else []) + Filter(s[1..], keep)
  }

  lemma {:induction false} FilterAppend(a: string, b: string, keep: char -> bool)
    ensures Filter(a + b, keep) == Filter(a, keep) + Filter(b, keep)
  {
    if a == [] {
      assert a + b == b;
    } else {
      assert (a + b)[0] == a[0] && (a + b)[1..] == a[1..] + b;
      FilterAppend(a[1..], b, keep);
    }
  }

  /** A filter that accepts every character is the identity. */
  lemma {:induction false} FilterKeepsAll(s: string, keep: char -> bool)
    requires forall i :: 0 <= i < |s| ==> keep(s[i])
    ensures Filter(s, keep) == s
  {
    if s != [] {
      FilterKeepsAll(s[1..], keep);
    }
  }

  /** A filter drops a rejected character lying between accepted ones and keeps the rest. */
  lemma FilterDropsOne(l: string, c: char, r: string, keep: char -> bool)
    requires (forall i :: 0 <= i < |l| ==> keep(l[i])) && !keep(c)
    requires forall i :: 0 <= i < |r| ==> keep(r[i])
    ensures Filter(l + [c] + r, keep) == l + r
  {
    var lc := l + [c];
    FilterAppend(lc, r, keep);
    FilterAppend(l, [c], keep);
    FilterKeepsAll(l, keep);
    FilterKeepsAll(r, keep);
    var one: string := [c];
    assert Filter(one, keep) == [] by {
      assert one[1..] == [];
      assert Filter(one[1..], keep) == [];
    }
    assert Filter(lc, keep) == l;
  }

  /**
   * `replace(/p+/g, "-")` for a character class `p`, scanning with `inRun`
   * telling whether the previous character belonged to a run already
   * replaced: each maximal run of `p` characters becomes one '-'.
   */
  function HyphenateRuns(s: string, p: char -> bool, inRun: bool): (r: string)
    ensures |r| <= |s|
  {
    if s == [] then []
    else if p(s[0]) then (if inRun then [] else "-") + HyphenateRuns(s[1..], p, true)
    else [s[0]] + HyphenateRuns(s[1..], p, false)
  }

  /**
   * After replacing the runs, every character is '-' or a character of the
   * input outside the class: when the input is made of `q` and `p`
   * characters and '-' satisfies `q`, the output is made of `q` characters.
   */
  lemma {:induction false} HyphenateRunsInto(s: string, p: char -> bool, inRun: bool, q: char -> bool)
    requires q('-')
    requires forall i :: 0 <= i < |s| ==> q(s[i]) || p(s[i])
    ensures forall j :: 0 <= j < |HyphenateRuns(s, p, inRun)| ==>
      q(HyphenateRuns(s, p, inRun)[j]) && (IsHyphen(HyphenateRuns(s, p, inRun)[j]) || !p(HyphenateRuns(s, p, inRun)[j]))
  {
    if s != [] {
      var b := p(s[0]);
      HyphenateRunsInto(s[1..], p, b, q);
      var head := if b then (if inRun then [] else "-") else [s[0]];
      var r := HyphenateRuns(s, p, inRun);
      assert r == head + HyphenateRuns(s[1..], p, b);
      forall j | 0 <= j < |r|
        ensures q(r[j]) && (IsHyphen(r[j]) || !p(r[j]))
      {
        if j >= |head| {
          assert r[j] == HyphenateRuns(s[1..], p, b)[j - |head|];
        }
      }
    }
  }

  /**
   * A string whose only class characters are single hyphens, none of them
   * right after a run already replaced, is left unchanged.
   */
  lemma {:induction false} HyphenateRunsKeeps(s: string, p: char -> bool, inRun: bool)
    requires forall i :: 0 <= i < |s| && p(s[i]) ==> s[i] == '-'
    requires forall i :: 0 < i < |s| && p(s[i]) ==> !p(s[i - 1])
    requires |s| > 0 && p(s[0]) ==> !inRun
    ensures HyphenateRuns(s, p, inRun) == s
  {
    if s != [] {
      var t := s[1..];
      forall i | 0 < i < |t| && p(t[i])
        ensures !p(t[i - 1])
      {
        assert t[i] == s[i + 1] && t[i - 1] == s[i];
      }
      if |t| > 0 && p(t[0]) {
        assert t[0] == s[1];
      }
      HyphenateRunsKeeps(t, p, p(s[0]));
      if p(s[0]) {
        assert s[0] == '-' && !inRun;
        assert HyphenateRuns(s, p, inRun) == "-" + t;
      } else {
        assert HyphenateRuns(s, p, inRun) == [s[0]] + t;
      }
      assert s == [s[0]] + t;
    }
  }

  /** Collapsing hyphen runs leaves a string without two adjacent hyphens unchanged. */
  lemma CollapseKeepsSingleHyphens(s: string)
    requires NoDoubleHyphen(s)
    ensures HyphenateRuns(s, IsHyphen, false) == s
  {
    HyphenateRunsKeeps(s, IsHyphen, false);
  }

  /**
   * When '-' is itself in the class, the output has no two adjacent hyphens,
   * and inside a run it does not start with one.
   */
  lemma {:induction false} HyphenateRunsCollapses(s: string, p: char -> bool, inRun: bool)
    requires p('-')
    ensures NoDoubleHyphen(HyphenateRuns(s, p, inRun))
    ensures inRun && |HyphenateRuns(s, p, inRun)| > 0 ==> HyphenateRuns(s, p, inRun)[0] != '-'
  {
    if s != [] {
      var b := p(s[0]);
      HyphenateRunsCollapses(s[1..], p, b);
      var tail := HyphenateRuns(s[1..], p, b);
      var head := if b then (if inRun then [] else "-") else [s[0]];
      var r := HyphenateRuns(s, p, inRun);
      assert r == head + tail;
      forall i | 0 <= i < |r| - 1
        ensures !(r[i] == '-' && r[i + 1] == '-')
      {
        if i >= |head| {
          assert r[i] == tail[i - |head|] && r[i + 1] == tail[i + 1 - |head|];
        } else {
          assert |head| == 1 && r[i + 1] == tail[0];
        }
      }
    }
  }

  /** Whether the scan is inside a run after reading `s`. */
  function RunState(s: string, p: char -> bool, inRun: bool): bool {
    if s == [] then inRun else p(s[|s| - 1])
  }

  /** The runs of a concatenation are replaced piece by piece, the scan state carried across. */
  lemma {:induction false} HyphenateRunsAppend(a: string, b: string, p: char -> bool, inRun: bool)
    ensures HyphenateRuns(a + b, p, inRun)
      == HyphenateRuns(a, p, inRun) + HyphenateRuns(b, p, RunState(a, p, inRun))
  {
    if a == [] {
      assert a + b == b;
    } else {
      assert (a + b)[0] == a[0] && (a + b)[1..] == a[1..] + b;
      HyphenateRunsAppend(a[1..], b, p, p(a[0]));
      if |a| > 1 {
        assert a[1..][|a[1..]| - 1] == a[|a| - 1];
      }
    }
  }

  /** A whole run becomes one '-', or nothing when it continues a run already replaced. */
  lemma {:induction false} HyphenateRunsOfRun(w: string, p: char -> bool, inRun: bool)
    requires AllIn(w, p)
    ensures HyphenateRuns(w, p, inRun) == (if inRun || w == [] then [] else "-")
    ensures RunState(w, p, inRun) == (inRun || w != [])
  {
    if w != [] {
      HyphenateRunsOfRun(w[1..], p, true);
      if |w| > 1 {
        assert w[1..][|w[1..]| - 1] == w[|w| - 1];
      }
    }
  }

  predicate NoneIn(s: string, p: char -> bool) {
    forall i :: 0 <= i < |s| ==> !p(s[i])
  }

  predicate AllIn(s: string, p: char -> bool) {
    forall i :: 0 <= i < |s| ==> p(s[i])
  }

  /**
   * A run after a piece free of the class becomes exactly one '-', and the
   * scan goes on as at the start of a string.
   */
  lemma HyphenateRunsBetween(a: string, w: string, b: string, p: char -> bool)
    requires NoneIn(a, p)
    requires w != [] && AllIn(w, p)
    requires b == [] || !p(b[0])
    ensures HyphenateRuns(a + w + b, p, false) == a + "-" + HyphenateRuns(b, p, false)
  {
    var aw := a + w;
    HyphenateRunsKeeps(a, p, false);
    assert !RunState(a, p, false);
    HyphenateRunsOfRun(w, p, false);
    HyphenateRunsAppend(a, w, p, false);
    assert HyphenateRuns(aw, p, false) == a + "-";
    assert RunState(aw, p, false) by {
      assert aw[|aw| - 1] == w[|w| - 1];
    }
    HyphenateRunsAppend(aw, b, p, false);
    assert HyphenateRuns(b, p, true) == HyphenateRuns(b, p, false);
  }

  /**
   * A non-empty piece `m` between two runs, with pieces free of the class
   * on either side: each run becomes one '-'.
   */
  lemma HyphenateRunsAround(a: string, w1: string, m: string, w2: string, b: string, p: char -> bool)
    requires NoneIn(a, p) && NoneIn(m, p) && NoneIn(b, p) && m != []
    requires w1 != [] && AllIn(w1, p) && w2 != [] && AllIn(w2, p)
    ensures HyphenateRuns(a + w1 + m + w2 + b, p, false) == a + "-" + m + "-" + b
  {
    var rest := m + w2 + b;
    assert HyphenateRuns(rest, p, false) == m + "-" + b by {
      assert b == [] || !p(b[0]);
      HyphenateRunsBetween(m, w2, b, p);
      HyphenateRunsKeeps(b, p, false);
    }
    assert HyphenateRuns(a + w1 + rest, p, false) == a + "-" + HyphenateRuns(rest, p, false) by {
      assert rest[0] == m[0];
      HyphenateRunsBetween(a, w1, rest, p);
    }
    assert a + w1 + m + w2 + b == a + w1 + rest;
    assert a + "-" + (m + "-" + b) == a + "-" + m + "-" + b;
  }

  /** Runs at both edges of a non-empty piece free of the class become one '-' each. */
  lemma HyphenateRunsEdges(w1: string, a: string, w2: string, p: char -> bool)
    requires NoneIn(a, p) && a != []
    requires w1 != [] && AllIn(w1, p) && w2 != [] && AllIn(w2, p)
    ensures HyphenateRuns(w1 + a + w2, p, false) == "-" + a + "-"
  {
    var w1a := w1 + a;
    HyphenateRunsOfRun(w1, p, false);
    assert RunState(w1, p, false) by {
      assert p(w1[|w1| - 1]);
    }
    HyphenateRunsKeeps(a, p, true);
    HyphenateRunsAppend(w1, a, p, false);
    assert HyphenateRuns(w1a, p, false) == "-" + a;
    assert !RunState(w1a, p, false) by {
      assert w1a[|w1a| - 1] == a[|a| - 1];
    }
    HyphenateRunsOfRun(w2, p, false);
    HyphenateRunsAppend(w1a, w2, p, false);
  }

  /** `trimStart()`: drops the leading whitespace. */
  function TrimStart(s: string): (r: string)
    ensures |r| <= |s| && r == s[|s| - |r|..]
    ensures forall i :: 0 <= i < |s| - |r| ==> IsSpace(s[i])
    ensures r == [] || !IsSpace(r[0])
  {
    if s != [] && IsSpace(s[0]) then TrimStart(s[1..]) else s
  }

  /** `trimEnd()`: drops the trailing whitespace. */
  function TrimEnd(s: string): (r: string)
    ensures |r| <= |s| && r == s[..|r|]
    ensures forall i :: |r| <= i < |s| ==> IsSpace(s[i])
    ensures r == [] || !IsSpace(r[|r| - 1])
  {
    if s != [] && IsSpace(s[|s| - 1]) then TrimEnd(s[..|s| - 1]) else s
  }

  /** `trim()`. */
  function Trim(s: string): string {
    TrimEnd(TrimStart(s))
  }

  lemma {:induction false} TrimStartSkipsPadding(w: string, x: string)
    requires AllIn(w, IsSpace)
    ensures TrimStart(w + x) == TrimStart(x)
  {
    if w == [] {
      assert w + x == x;
    } else {
      assert (w + x)[1..] == w[1..] + x;
      TrimStartSkipsPadding(w[1..], x);
    }
  }

  lemma {:induction false} TrimEndSkipsPadding(x: string, w: string)
    requires AllIn(w, IsSpace)
    ensures TrimEnd(x + w) == TrimEnd(x)
  {
    if w == [] {
      assert x + w == x;
    } else {
      var w' := w[..|w| - 1];
      assert (x + w)[..|x + w| - 1] == x + w';
      TrimEndSkipsPadding(x, w');
    }
  }

  lemma {:induction false} TrimIgnoresTrailingPadding(x: string, w: string)
    requires AllIn(w, IsSpace)
    ensures TrimEnd(TrimStart(x + w)) == TrimEnd(TrimStart(x))
  {
    if x == [] {
      assert x + w == w;
    } else if IsSpace(x[0]) {
      assert (x + w)[1..] == x[1..] + w;
      TrimIgnoresTrailingPadding(x[1..], w);
    } else {
      TrimEndSkipsPadding(x, w);
    }
  }

  /** A string with no whitespace at either end is its own `trim()`. */
  lemma TrimKeeps(s: string)
    requires s == [] || (!IsSpace(s[0]) && !IsSpace(s[|s| - 1]))
    ensures Trim(s) == s
  {
    assert TrimStart(s) == s;
  }

  /** Whitespace around a string makes no difference to `trim()`. */
  lemma TrimIgnoresPadding(w1: string, x: string, w2: string)
    requires AllIn(w1, IsSpace) && AllIn(w2, IsSpace)
    ensures Trim(w1 + x + w2) == Trim(x)
  {
    assert w1 + x + w2 == w1 + (x + w2);
    TrimStartSkipsPadding(w1, x + w2);
    TrimIgnoresTrailingPadding(x, w2);
  }

  /** `slice(0, n)`. */
  function Truncate(s: string, n: nat): (r: string)
    ensures |r| <= n && |r| <= |s| && r == s[..|r|]
    ensures |s| <= n ==> r == s
    ensures |s| > n ==> |r| == n
  {
    if |s| <= n then s else s[..n]
  }
}

=== FILE: studio_slug.dfy ===
/**
 * The `slugify` option of the studio's slug fields. The recipe schema
 * (sanity/schemas/recipe.ts) and the season schema (sanity/schemas/season.ts)
 * declare the same chain, so both use this one function.
 */
module StudioSlug {
  import opened JsText
  import opened SlugSteps

  const MaxSlugLength := 96

  /**
   * Lower-case, turn each whitespace run into one '-', drop every character
   * outside a-z, 0-9 and '-', keep the first 96 characters. The result is a
   * slug of at most 96 characters.
   */
  function Slugify(input: string): (slug: string)
    ensures IsSlug(slug) && |slug| <= MaxSlugLength
  {
    var hyphenated := HyphenateRuns(Lower(input), IsSpace, false);
    var kept := Filter(hyphenated, IsSlugChar);
    var slug := Truncate(kept, MaxSlugLength);
    assert forall j :: 0 <= j < |slug| ==> slug[j] == kept[j];
    slug
  }

  /**
   * A slug of at most 96 characters is its own slug: in particular hyphens
   * already present, even doubled ones, are kept as they are.
   */
  lemma SlugifyFixesSlugs(s: string)
    requires IsSlug(s) && |s| <= MaxSlugLength
    ensures Slugify(s) == s
  {
    LowerKeeps(s);
    HyphenateRunsKeeps(s, IsSpace, false);
    FilterKeepsAll(s, IsSlugChar);
  }

  /** Slugifying a slug changes nothing. */
  lemma SlugifyIdempotent(input: string)
    ensures Slugify(Slugify(input)) == Slugify(input)
  {
    SlugifyFixesSlugs(Slugify(input));
  }

  /**
   * Between two slug words a whitespace run, however long, becomes exactly
   * one '-'.
   */
  lemma SlugifyJoinsWords(a: string, w: string, b: string)
    requires IsSlug(a) && IsSlug(b) && |a| + 1 + |b| <= MaxSlugLength
    requires w != [] && AllIn(w, IsSpace)
    ensures Slugify(a + w + b) == a + "-" + b
  {
    var aw := a + w;
    assert forall i :: 0 <= i < |w| ==> CaseStable(w[i]) by {
      assert forall c :: IsSpace(c) ==> CaseStable(c);
    }
    LowerKeepsJoin(a, w);
    LowerKeepsJoin(aw, b);
    assert NoneIn(a, IsSpace) && NoneIn(b, IsSpace);
    HyphenateRunsBetween(a, w, b, IsSpace);
    HyphenateRunsKeeps(b, IsSpace, false);
    var joined := a + "-" + b;
    assert IsSlug(joined);
    FilterKeepsAll(joined, IsSlugChar);
  }

  /** Unlike `trim()`, whitespace at either edge is hyphenated like any other run. */
  lemma SlugifyHyphenatesEdges(w1: string, a: string, w2: string)
    requires IsSlug(a) && 0 < |a| && |a| + 2 <= MaxSlugLength
    requires w1 != [] && AllIn(w1, IsSpace) && w2 != [] && AllIn(w2, IsSpace)
    ensures Slugify(w1 + a + w2) == "-" + a + "-"
  {
    var w1a := w1 + a;
    assert forall c :: IsSpace(c) ==> CaseStable(c);
    LowerKeepsJoin(w1, a);
    LowerKeepsJoin(w1a, w2);
    assert NoneIn(a, IsSpace);
    HyphenateRunsEdges(w1, a, w2, IsSpace);
    var edged := "-" + a + "-";
    assert IsSlug(edged);
    FilterKeepsAll(edged, IsSlugChar);
  }

  lemma LowerAroundAmpersand(a: string, b: string)
    requires IsSlug(a) && IsSlug(b)
    ensures Lower(a + " & " + b) == a + " & " + b
  {
    var x := a + " & " + b;
    forall i | 0 <= i < |x| ensures CaseStable(x[i]) {
      if i < |a| { assert x[i] == a[i]; }
      else if i >= |a| + 3 { assert x[i] == b[i - |a| - 3]; }
    }
    LowerKeeps(x);
  }

  /** A slug has no whitespace. */
  lemma SlugHasNoSpace(s: string)
    requires IsSlug(s)
    ensures NoneIn(s, IsSpace)
  {
  }

  lemma HyphenateAroundAmpersand(a: string, b: string)
    requires IsSlug(a) && IsSlug(b)
    ensures HyphenateRuns(a + " & " + b, IsSpace, false) == a + "-&-" + b
  {
    var space, amp := " ", "&";
    assert a + " & " + b == a + space + amp + space + b;
    SlugHasNoSpace(a);
    SlugHasNoSpace(b);
    assert AllIn(space, IsSpace) && NoneIn(amp, IsSpace);
    HyphenateRunsAround(a, space, amp, space, b, IsSpace);
    assert a + "-" + amp + "-" + b == a + "-&-" + b;
  }

  lemma FilterDropsAmpersand(a: string, b: string)
    requires IsSlug(a) && IsSlug(b)
    ensures Filter(a + "-&-" + b, IsSlugChar) == a + "--" + b
  {
    var left, right := a + "-", "-" + b;
    assert a + "-&-" + b == left + ['&'] + right;
    assert IsSlug(left) && IsSlug(right);
    FilterDropsOne(left, '&', right, IsSlugChar);
    assert left + right == a + "--" + b;
  }

  /** '&' is dropped rather than spelled out, so the spaces around it give two hyphens. */
  lemma SlugifyDropsAmpersand(a: string, b: string)
    requires IsSlug(a) && IsSlug(b) && |a| + 2 + |b| <= MaxSlugLength
    ensures Slugify(a + " & " + b) == a + "--" + b
  {
    LowerAroundAmpersand(a, b);
    HyphenateAroundAmpersand(a, b);
    FilterDropsAmpersand(a, b);
  }

  lemma SlugifyThymeAndRosemary()
    ensures Slugify("thyme & rosemary") == "thyme--rosemary"
  {
    var a, b := "thyme", "rosemary";
    assert a + " & " + b == "thyme & rosemary";
    assert a + "--" + b == "thyme--rosemary";
    SlugifyDropsAmpersand(a, b);
  }
}

=== FILE: tiktok_cache.dfy ===
/**
 * The process-wide, single-slot video cache of the TikTok endpoint. The
 * clock is a parameter: `now` is the reading taken by the validity check and
 * `storedAt` the reading taken when a freshly discovered list is stored.
 */
module TikTokCache {
  import Discovery

  /** Five minutes, in milliseconds. */
  const Ttl := 5 * 60 * 1000

  /** The contents of the slot: the URL list and when it was stored. */
  datatype Slot = Slot(data: seq<string>, timestamp: int)

  /** The slot at process start, and after a refresh. */
  const Cleared := Slot([], 0)

  /** `isCacheValid`: the stored list is non-empty and younger than the TTL. */
  predicate Fresh(s: Slot, now: int) {
    |s.data| > 0 && now - s.timestamp < Ttl
  }

  /** One call of `getCachedOrFetchVideos`: what it returns, the slot after it, and whether discovery ran. */
  datatype Read = Read(urls: seq<string>, slot: Slot, discovered: bool)

  /**
   * `getCachedOrFetchVideos` on a slot: a fresh slot answers without running
   * discovery; otherwise discovery runs once and its result, even an empty
   * one, is stored with the time of the store.
   */
  function ReadThrough(s: Slot, now: int, storedAt: int, discovery: seq<string>): (r: Read)
    ensures r.discovered <==> !Fresh(s, now)
    ensures !r.discovered ==> r.urls == s.data && r.slot == s
    ensures r.discovered ==> r.urls == discovery && r.slot == Slot(discovery, storedAt)
  {
    if Fresh(s, now) then Read(s.data, s, false)
    else Read(discovery, Slot(discovery, storedAt), true)
  }

  /**
   * Two reads within the TTL of the list the first one returned, with a
   * non-empty list: the second runs no discovery and returns the same list,
   * so at most one discovery run happens.
   */
  lemma SecondReadWithinTtlHits(s: Slot, now1: int, storedAt1: int, d1: seq<string>,
                                now2: int, storedAt2: int, d2: seq<string>)
    requires |ReadThrough(s, now1, storedAt1, d1).urls| > 0
    requires now2 - ReadThrough(s, now1, storedAt1, d1).slot.timestamp < Ttl
    ensures !ReadThrough(ReadThrough(s, now1, storedAt1, d1).slot, now2, storedAt2, d2).discovered
    ensures ReadThrough(ReadThrough(s, now1, storedAt1, d1).slot, now2, storedAt2, d2).urls
      == ReadThrough(s, now1, storedAt1, d1).urls
  {
  }

  /**
   * An empty discovery result is stored but never served as a hit: the next
   * read rediscovers, at any time.
   */
  lemma EmptyResultIsRediscovered(s: Slot, now1: int, storedAt1: int, now2: int, storedAt2: int, d2: seq<string>)
    requires ReadThrough(s, now1, storedAt1, []).discovered
    ensures ReadThrough(ReadThrough(s, now1, storedAt1, []).slot, now2, storedAt2, d2).discovered
    ensures ReadThrough(ReadThrough(s, now1, storedAt1, []).slot, now2, storedAt2, d2).urls == d2
  {
  }

  /** A stored non-empty list is served exactly while it is younger than the TTL. */
  lemma StoredListServedUntilExpiry(data: seq<string>, storedAt: int, now: int, d: seq<string>)
    requires |data| > 0
    ensures !ReadThrough(Slot(data, storedAt), now, now, d).discovered <==> now < storedAt + Ttl
  {
  }

  /** The shared cache object, `videoCache`. */
  class VideoCache {
    var data: seq<string>
    var timestamp: int
    const ttl: int

    /** Discovery never stores more than three URLs. */
    ghost predicate Valid()
      reads this
    {
      ttl == Ttl && |data| <= Discovery.EnoughVideos
    }

    function CurrentSlot(): Slot
      reads this
    {
      Slot(data, timestamp)
    }

    constructor ()
      ensures Valid() && CurrentSlot() == Cleared
    {
      data := [];
      timestamp := 0;
      ttl := Ttl;
    }

    /** `isCacheValid` at clock reading `now`. */
    predicate IsCacheValid(now: int)
      reads this
      requires Valid()
      ensures IsCacheValid(now) <==> Fresh(CurrentSlot(), now)
    {
      |data| > 0 && now - timestamp < ttl
    }

    /** `getCachedOrFetchVideos`. */
    method GetCachedOrFetchVideos(now: int, storedAt: int, up: Discovery.Upstream) returns (urls: seq<string>, discovered: bool)
      requires Valid()
      modifies this
      ensures Valid()
      ensures Read(urls, CurrentSlot(), discovered)
        == ReadThrough(old(CurrentSlot()), now, storedAt, Discovery.Cascade(up))
    {
      if IsCacheValid(now) {
        return data, false;
      }
      urls := Discovery.GetRecentVideosFromProfile(up);
      Discovery.CascadeBoundedAndValidated(up);
      data := urls;
      timestamp := storedAt;
      discovered := true;
    }

    /** The refresh action's reset of both fields. */
    method Clear()
      requires Valid()
      modifies this
      ensures Valid() && CurrentSlot() == Cleared
    {
      data := [];
      timestamp := 0;
    }
  }
}

=== FILE: tiktok_route.dfy ===
/**
 * The TikTok videos endpoint: oEmbed enrichment of each discovered URL, the
 * GET handler that serves the (cached) list, and the POST handler with its
 * `refresh` and `test` actions. Time stamps and log lines in the responses
 * are not modelled.
 */
module TikTokRoute {
  import opened Wrappers
  import opened JsText
  import VideoIds
  import Discovery
  import opened TikTokCache

  const DefaultTitle := "TikTok Video"
  const FallbackTitle := "Latest TikTok Video"
  const DefaultAuthor := "@axlas.cooks"

  /** The fields of an oEmbed answer the endpoint reads; a field that is absent or not a string is `None`. */
  datatype OEmbed = OEmbed(title: Option<string>, authorName: Option<string>, thumbnailUrl: Option<string>, html: Option<string>)

  /** What `getTikTokVideoData` returns. */
  datatype VideoData = VideoData(title: string, thumbnail: Option<string>, author: string, html: Option<string>)

  /** One element of the GET response's `videos` array. */
  datatype VideoRecord = VideoRecord(id: string, url: string, title: string, thumbnail: Option<string>, author: string, embedUrl: string)

  /**
   * The outside world seen by the endpoint: the discovery upstreams, and the
   * oEmbed answer for a URL (`None` when the request throws, answers with a
   * non-2xx status or its body is not JSON).
   */
  datatype World = World(discovery: Discovery.Upstream, oembed: string -> Option<OEmbed>)

  /** `getFallbackVideoData`. */
  const FallbackVideoData := VideoData(FallbackTitle, None, DefaultAuthor, None)

  /** `getTikTokVideoData`: the oEmbed fields with their `||` defaults, or the fallback data. */
  function VideoDataFor(answer: Option<OEmbed>): VideoData
  {
    match answer
    case None => FallbackVideoData
    case Some(o) =>
      VideoData(OrElse(o.title, DefaultTitle), NonEmpty(o.thumbnailUrl), OrElse(o.authorName, DefaultAuthor), NonEmpty(o.html))
  }

  /**
   * Enrichment never yields an empty title or author and never invents a
   * thumbnail: a thumbnail is present exactly when the answer carried a
   * non-empty one, and it is that one; a failed request gives the fallback.
   */
  lemma EnrichmentNeverFabricates(answer: Option<OEmbed>)
    ensures VideoDataFor(answer).title != [] && VideoDataFor(answer).author != []
    ensures VideoDataFor(answer).thumbnail.Some?
      <==> answer.Some? && Truthy(answer.value.thumbnailUrl)
    ensures VideoDataFor(answer).thumbnail.Some? ==> VideoDataFor(answer).thumbnail == answer.value.thumbnailUrl
    ensures answer.None? ==> VideoDataFor(answer).title == FallbackTitle && VideoDataFor(answer).html == None
    ensures answer.Some? && Truthy(answer.value.title) ==> VideoDataFor(answer).title == answer.value.title.value
  {
  }

  /** The record GET builds for one URL: `id` is the video ID or, without one, the URL itself. */
  function RecordFor(url: string, answer: Option<OEmbed>): VideoRecord
  {
    var d := VideoDataFor(answer);
    var id := match VideoIds.ExtractVideoId(url) case Some(v) => v case None => url;
    VideoRecord(id, url, d.title, d.thumbnail, d.author, VideoIds.EmbedUrl(url))
  }

  /** For every URL discovery produces, the record's id, embed URL and link agree with the video ID. */
  lemma RecordOfProfileUrl(id: string, answer: Option<OEmbed>)
    requires |id| > 0 && AllDigits(id)
    ensures RecordFor(VideoIds.ProfileVideoUrl(id), answer).id == id
    ensures RecordFor(VideoIds.ProfileVideoUrl(id), answer).url == VideoIds.ProfileVideoUrl(id)
    ensures RecordFor(VideoIds.ProfileVideoUrl(id), answer).embedUrl == VideoIds.EmbedPrefix + id
  {
    VideoIds.ProfileVideoUrlRoundTrip(id);
  }

  /** The enrichment loop of GET: one record per URL, in order, each enriched independently. */
  method AssembleVideos(urls: seq<string>, oembed: string -> Option<OEmbed>) returns (videos: seq<VideoRecord>)
    ensures |videos| == |urls|
    ensures forall i :: 0 <= i < |urls| ==> videos[i] == RecordFor(urls[i], oembed(urls[i]))
  {
    videos := [];
    for k := 0 to |urls|
      invariant |videos| == k
      invariant forall i :: 0 <= i < k ==> videos[i] == RecordFor(urls[i], oembed(urls[i]))
    {
      var data := VideoDataFor(oembed(urls[k]));
      var id := match VideoIds.ExtractVideoId(urls[k]) case Some(v) => v case None => urls[k];
      videos := videos + [VideoRecord(id, urls[k], data.title, data.thumbnail, data.author, VideoIds.EmbedUrl(urls[k]))];
    }
  }

  /** The GET response body (always status 200). */
  datatype GetResponse =
    | Found(videos: seq<VideoRecord>, count: nat, source: string)
    | NotFound(error: string, videos: seq<VideoRecord>)
  {
    predicate Success() { Found? }
  }

  /** The GET response for the URL list the cache read returned. */
  function Respond(urls: seq<string>, oembed: string -> Option<OEmbed>): GetResponse
  {
    if |urls| == 0 then NotFound("No recent videos found", [])
    else Found(seq(|urls|, i requires 0 <= i < |urls| => RecordFor(urls[i], oembed(urls[i]))), |urls|, "auto-scraped")
  }

  /**
   * GET succeeds exactly when there is at least one URL; it then answers one
   * record per URL with `count` equal to their number, and otherwise the
   * error "No recent videos found" with an empty `videos` array.
   */
  lemma RespondShape(urls: seq<string>, oembed: string -> Option<OEmbed>)
    ensures Respond(urls, oembed).Success() <==> |urls| > 0
    ensures Respond(urls, oembed).Success() ==>
      Respond(urls, oembed).count == |Respond(urls, oembed).videos| == |urls|
      && (forall i :: 0 <= i < |urls| ==> Respond(urls, oembed).videos[i].url == urls[i])
    ensures !Respond(urls, oembed).Success() ==>
      Respond(urls, oembed).videos == [] && Respond(urls, oembed).error == "No recent videos found"
  {
  }

  /**
   * GET never serves more than three videos, and each one is for a URL the
   * read returned: the cached list, or a fresh discovery result.
   */
  lemma GetServesAtMostThree(s: Slot, now: int, storedAt: int, w: World)
    requires |s.data| <= Discovery.EnoughVideos
    ensures |Respond(ReadThrough(s, now, storedAt, Discovery.Cascade(w.discovery)).urls, w.oembed).videos| <= Discovery.EnoughVideos
    ensures forall v :: v in Respond(ReadThrough(s, now, storedAt, Discovery.Cascade(w.discovery)).urls, w.oembed).videos ==>
      (if Fresh(s, now) then v.url in s.data else v.url in Discovery.Cascade(w.discovery))
  {
    Discovery.CascadeBoundedAndValidated(w.discovery);
    var urls := ReadThrough(s, now, storedAt, Discovery.Cascade(w.discovery)).urls;
    RespondShape(urls, w.oembed);
  }

  /** The `action` of a POST body: `Malformed` when the body is not JSON or is JSON `null`; a non-string `action` is `None`. */
  datatype PostBody = Malformed | Json(action: Option<string>)

  /** The POST response body. */
  datatype PostResponse =
    | Refreshed(count: nat)
    | TestResults(urlsFound: nat, firstUrl: Option<string>, oEmbedTest: string, oEmbedData: Option<VideoData>)
    | Rejected(error: string)
  {
    /** The HTTP status. */
    function Status(): int { if Rejected? then 400 else 200 }
  }

  /** The `test` action's report for a discovery result. */
  function TestReport(urls: seq<string>, oembed: string -> Option<OEmbed>): PostResponse
  {
    var data := if |urls| > 0 then Some(VideoDataFor(oembed(urls[0]))) else None;
    TestResults(|urls|, if |urls| > 0 then NonEmpty(Some(urls[0])) else None,
                if data.Some? then "Success" else "Failed", data)
  }

  /**
   * The `test` action reports "Success" exactly when discovery found a URL,
   * even when that URL's oEmbed request fails, since the fallback data is an
   * object.
   */
  lemma TestSucceedsIffUrlsFound(urls: seq<string>, oembed: string -> Option<OEmbed>)
    ensures TestReport(urls, oembed).oEmbedTest == "Success" <==> |urls| > 0
    ensures TestReport(urls, oembed).urlsFound == |urls|
    ensures |urls| > 0 && oembed(urls[0]).None? ==>
      TestReport(urls, oembed).oEmbedData == Some(FallbackVideoData)
    ensures TestReport(urls, oembed).Status() == 200
  {
  }

  /** Records built one URL at a time, in order, are the ones `Respond` serves. */
  lemma RespondWithRecords(urls: seq<string>, oembed: string -> Option<OEmbed>, videos: seq<VideoRecord>)
    requires |urls| > 0 && |videos| == |urls|
    requires forall i :: 0 <= i < |urls| ==> videos[i] == RecordFor(urls[i], oembed(urls[i]))
    ensures Respond(urls, oembed) == Found(videos, |videos|, "auto-scraped")
  {
    var built := seq(|urls|, i requires 0 <= i < |urls| => RecordFor(urls[i], oembed(urls[i])));
    assert built == videos;
  }

  /** `GET`: read through the cache, then enrich every URL. */
  method Get(cache: VideoCache, now: int, storedAt: int, w: World) returns (resp: GetResponse)
    requires cache.Valid()
    modifies cache
    ensures cache.Valid()
    ensures cache.CurrentSlot() == ReadThrough(old(cache.CurrentSlot()), now, storedAt, Discovery.Cascade(w.discovery)).slot
    ensures resp == Respond(ReadThrough(old(cache.CurrentSlot()), now, storedAt, Discovery.Cascade(w.discovery)).urls, w.oembed)
  {
    var urls, _ := cache.GetCachedOrFetchVideos(now, storedAt, w.discovery);
    if |urls| == 0 {
      return NotFound("No recent videos found", []);
    }
    var videos := AssembleVideos(urls, w.oembed);
    RespondWithRecords(urls, w.oembed, videos);
    resp := Found(videos, |videos|, "auto-scraped");
  }

  /**
   * `POST`: `refresh` clears the slot and reads through it, so discovery
   * always runs; `test` runs discovery without touching the cache; any other
   * action, including the missing action of a JSON number, string or array,
   * is a 400 "Invalid action"; a body that is not JSON, or is JSON `null`,
   * is a 400 "Invalid request".
   */
  method Post(cache: VideoCache, body: PostBody, now: int, storedAt: int, w: World) returns (resp: PostResponse)
    requires cache.Valid()
    modifies cache
    ensures cache.Valid()
    ensures body == Json(Some("refresh")) ==>
      cache.CurrentSlot() == Slot(Discovery.Cascade(w.discovery), storedAt)
      && resp == Refreshed(|Discovery.Cascade(w.discovery)|)
    ensures body != Json(Some("refresh")) ==> cache.CurrentSlot() == old(cache.CurrentSlot())
    ensures body == Json(Some("test")) ==> resp == TestReport(Discovery.Cascade(w.discovery), w.oembed)
    ensures body.Malformed? ==> resp == Rejected("Invalid request")
    ensures body.Json? && body.action != Some("refresh") && body.action != Some("test") ==>
      resp == Rejected("Invalid action")
  {
    if body.Malformed? {
      return Rejected("Invalid request");
    }
    if body.action == Some("refresh") {
      cache.Clear();
      var urls, _ := cache.GetCachedOrFetchVideos(now, storedAt, w.discovery);
      return Refreshed(|urls|);
    }
    if body.action == Some("test") {
      var testUrls := Discovery.GetRecentVideosFromProfile(w.discovery);
      var data := None;
      if |testUrls| > 0 {
        data := Some(VideoDataFor(w.oembed(testUrls[0])));
      }
      return TestResults(|testUrls|, if |testUrls| > 0 then NonEmpty(Some(testUrls[0])) else None,
                         if data.Some? then "Success" else "Failed", data);
    }
    return Rejected("Invalid action");
  }
}

=== FILE: video_ids.dfy ===
/**
 * Video identifiers in the TikTok discovery endpoint: the six textual rules
 * that pull candidate ids out of a profile page, the id extraction from a
 * watch URL, and the embed URL derived from it.
 *
 * Each regular expression is modelled as an explicit matcher at a position;
 * running a global expression with `exec` in a loop is modelled as: find the
 * first position at or after `lastIndex` where the matcher succeeds, record
 * the capture, continue at the end of the match.
 */
module VideoIds {
  import opened Wrappers
  import opened JsText

  const MinIdLength := 10
  const MaxIdLength := 25
  const VideoSegment := "/video/"
  const HrefOpen := "href=\""
  const ProfileVideoPrefix := "https://www.tiktok.com/@axlas.cooks/video/"
  const EmbedPrefix := "https://www.tiktok.com/embed/"

  /** End of the maximal run of ASCII digits that starts at `i`. */
  function DigitRunEnd(s: string, i: nat): (j: nat)
    requires i <= |s|
    ensures i <= j <= |s|
    ensures forall k :: i <= k < j ==> IsDigit(s[k])
    ensures j == |s| || !IsDigit(s[j])
    decreases |s| - i
  {
    if i < |s| && IsDigit(s[i]) then DigitRunEnd(s, i + 1) else i
  }

  /** Start of the maximal run of digits that ends at `k`, not going below `lo`. */
  function DigitRunStart(s: string, lo: nat, k: nat): (r: nat)
    requires lo <= k <= |s|
    ensures lo <= r <= k
    ensures forall j :: r <= j < k ==> IsDigit(s[j])
    ensures r == lo || !IsDigit(s[r - 1])
    decreases k - lo
  {
    if lo < k && IsDigit(s[k - 1]) then DigitRunStart(s, lo, k - 1) else k
  }

  /** Index of the first '"' at or after `i`, or `|s|` when there is none. */
  function NextQuote(s: string, i: nat): (j: nat)
    requires i <= |s|
    ensures i <= j <= |s|
    ensures forall k :: i <= k < j ==> s[k] != '"'
    ensures j < |s| ==> s[j] == '"'
    decreases |s| - i
  {
    if i == |s| || s[i] == '"' then i else NextQuote(s, i + 1)
  }

  /**
   * The six id rules of the profile scraper. `PrefixedDigits(p, q)` is the
   * expression `p(\d{10,})`, followed by a closing `"` when `q` holds;
   * `HrefToVideo` is `href="[^"]*\/video\/(\d{10,})"`.
   */
  datatype Pattern =
    | PrefixedDigits(prefix: string, closingQuote: bool)
    | HrefToVideo

  const Patterns: seq<Pattern> := [
    PrefixedDigits(VideoSegment, false),           // standard video URLs
    PrefixedDigits("\"videoId\":\"", true),        // JSON data
    PrefixedDigits("data-video-id=\"", true),      // data attributes
    HrefToVideo,                                   // href attributes
    PrefixedDigits("\"id\":\"", true),             // general id fields
    PrefixedDigits("embed/", false)                // embed links
  ]

  /** One successful match: the captured digits and the index just past the match. */
  datatype Match = Match(id: string, end: nat)

  /**
   * Whether `p` matches at exactly index `i` of `html`. The greedy `\d{10,}`
   * captures the whole digit run; with a closing quote the run must be
   * followed by `"`. For `HrefToVideo`, `[^"]*` cannot pass the first quote,
   * so the attribute value up to that quote must end in "/video/" and a run
   * of at least ten digits.
   */
  function MatchAt(html: string, p: Pattern, i: nat): (m: Option<Match>)
    requires i <= |html|
    ensures m.Some? ==> i < m.value.end <= |html|
    ensures m.Some? ==> AllDigits(m.value.id) && |m.value.id| >= MinIdLength
  {
    match p
    case PrefixedDigits(prefix, closingQuote) =>
      if !OccursAt(html, prefix, i) then None
      else
        var d := i + |prefix|;
        var e := DigitRunEnd(html, d);
        if e - d < MinIdLength then None
        else if !closingQuote then Some(Match(html[d..e], e))
        else if e < |html| && html[e] == '"' then Some(Match(html[d..e], e + 1))
        else None
    case HrefToVideo =>
      if !OccursAt(html, HrefOpen, i) then None
      else
        var q := i + |HrefOpen|;
        var j := NextQuote(html, q);
        if j == |html| then None
        else
          var d := DigitRunStart(html, q, j);
          if j - d >= MinIdLength && d >= q + |VideoSegment| && html[d - |VideoSegment|..d] == VideoSegment
          then Some(Match(html[d..j], j + 1))
          else None
  }

  /** The captures of `exec` called repeatedly with `lastIndex` starting at `i`. */
  function Scan(html: string, p: Pattern, i: nat): (ids: seq<string>)
    requires i <= |html|
    ensures forall k :: 0 <= k < |ids| ==> AllDigits(ids[k]) && |ids[k]| >= MinIdLength
    decreases |html| - i
  {
    if i == |html| then []
    else
      match MatchAt(html, p, i)
      case Some(m) => [m.id] + Scan(html, p, m.end)
      case None => Scan(html, p, i + 1)
  }

  /** The captures of patterns `k`, `k + 1`, ... in turn, each in text order. */
  function CapturesFrom(html: string, k: nat): seq<string>
    requires k <= |Patterns|
    decreases |Patterns| - k
  {
    if k == |Patterns| then [] else Scan(html, Patterns[k], 0) + CapturesFrom(html, k + 1)
  }

  /** The length filter applied to each capture. */
  predicate Plausible(id: string) {
    MinIdLength <= |id| <= MaxIdLength
  }

  /** `Set.add` guarded by the length filter. */
  function Insert(acc: seq<string>, x: string): seq<string> {
    if Plausible(x) && x !in acc then acc + [x] else acc
  }

  /** Inserting `xs` one after another into the insertion-ordered set `acc`. */
  function Collect(acc: seq<string>, xs: seq<string>): seq<string>
    decreases |xs|
  {
    if xs == [] then acc else Collect(Insert(acc, xs[0]), xs[1..])
  }

  /** What `extractVideoIdsFromHtml` returns: `Array.from` of the set. */
  function ExtractVideoIds(html: string): seq<string> {
    Collect([], CapturesFrom(html, 0))
  }

  predicate Distinct(s: seq<string>) {
    forall i, j :: 0 <= i < j < |s| ==> s[i] != s[j]
  }

  /** Position of the first occurrence of `x` in `xs`. */
  function FirstIndex(xs: seq<string>, x: string): (k: nat)
    requires x in xs
    ensures k < |xs| && xs[k] == x && x !in xs[..k]
  {
    if xs[0] == x then 0 else 1 + FirstIndex(xs[1..], x)
  }

  /**
   * The imperative extraction: for each pattern in turn, `exec` until it
   * fails, adding each capture of plausible length to the set.
   */
  method ExtractVideoIdsFromHtml(html: string) returns (ids: seq<string>)
    ensures ids == ExtractVideoIds(html)
  {
    ids := [];
    var k := 0;
    while k < |Patterns|
      invariant 0 <= k <= |Patterns|
      invariant Collect(ids, CapturesFrom(html, k)) == ExtractVideoIds(html)
    {
      CollectAppend(ids, Scan(html, Patterns[k], 0), CapturesFrom(html, k + 1));
      ids := AddMatches(html, Patterns[k], ids);
      k := k + 1;
    }
  }

  /** The inner `while ((match = pattern.exec(html)) !== null)` loop for one pattern. */
  method AddMatches(html: string, pattern: Pattern, ids0: seq<string>) returns (ids: seq<string>)
    ensures ids == Collect(ids0, Scan(html, pattern, 0))
  {
    ids := ids0;
    var pos := 0;
    while pos < |html|
      invariant 0 <= pos <= |html|
      invariant Collect(ids, Scan(html, pattern, pos)) == Collect(ids0, Scan(html, pattern, 0))
    {
      var m := MatchAt(html, pattern, pos);
      if m.Some? {
        var id := m.value.id;
        ghost var idsBefore := ids;
        assert Scan(html, pattern, pos) == [id] + Scan(html, pattern, m.value.end);
        CollectCons(ids, id, Scan(html, pattern, m.value.end), []);
        if MinIdLength <= |id| <= MaxIdLength && id !in ids {
          ids := ids + [id];
        }
        assert ids == Insert(idsBefore, id);
        pos := m.value.end;
      } else {
        assert Scan(html, pattern, pos) == Scan(html, pattern, pos + 1);
        pos := pos + 1;
      }
    }
  }

  /** Collecting a concatenation is collecting its parts one after the other. */
  lemma {:induction false} CollectAppend(acc: seq<string>, a: seq<string>, b: seq<string>)
    ensures Collect(acc, a + b) == Collect(Collect(acc, a), b)
    decreases |a|
  {
    if a != [] {
      CollectCons(acc, a[0], a[1..], b);
      assert a == [a[0]] + a[1..];
      CollectAppend(Insert(acc, a[0]), a[1..], b);
    } else {
      assert a + b == b;
    }
  }

  /** Collecting `[x] + a + b` is inserting `x` and then collecting `a + b`. */
  lemma CollectCons(acc: seq<string>, x: string, a: seq<string>, b: seq<string>)
    ensures Collect(acc, ([x] + a) + b) == Collect(Insert(acc, x), a + b)
  {
    var xs := ([x] + a) + b;
    assert xs[0] == x && xs[1..] == a + b;
  }

  /**
   * Collecting never moves or removes an id already in the set, adds only
   * plausible captures not yet present, and misses none of them.
   */
  lemma {:induction false} CollectExtends(acc: seq<string>, xs: seq<string>)
    ensures |Collect(acc, xs)| >= |acc| && Collect(acc, xs)[..|acc|] == acc
    ensures forall i :: |acc| <= i < |Collect(acc, xs)| ==>
      Plausible(Collect(acc, xs)[i]) && Collect(acc, xs)[i] in xs && Collect(acc, xs)[i] !in acc
    ensures forall x :: x in xs && Plausible(x) ==> x in Collect(acc, xs)
    ensures Distinct(acc) ==> Distinct(Collect(acc, xs))
    decreases |xs|
  {
    if xs != [] {
      var acc' := Insert(acc, xs[0]);
      CollectExtends(acc', xs[1..]);
      var r := Collect(acc, xs);
      assert r == Collect(acc', xs[1..]);
      assert r[..|acc'|] == acc';
      assert r[..|acc|] == acc' [..|acc|] == acc;
      forall i | |acc| <= i < |r|
        ensures Plausible(r[i]) && r[i] in xs && r[i] !in acc
      {
        if i < |acc'| {
          assert r[i] == acc'[i] == xs[0];
        } else {
          assert r[i] in xs[1..];
        }
      }
      forall x | x in xs && Plausible(x)
        ensures x in r
      {
        if x == xs[0] {
          assert x in acc';
          var k :| 0 <= k < |acc'| && acc'[k] == x;
          assert r[k] == x;
        } else {
          assert x in xs[1..];
        }
      }
    }
  }

  /**
   * Ids leave the set in the order in which they were first captured: if
   * `r[i]` precedes `r[j]` among the newly collected ids, its first
   * occurrence in `xs` precedes that of `r[j]`.
   */
  lemma {:induction false} CollectKeepsFirstSeenOrder(acc: seq<string>, xs: seq<string>, i: nat, j: nat)
    requires |acc| <= i < j < |Collect(acc, xs)|
    ensures Collect(acc, xs)[i] in xs && Collect(acc, xs)[j] in xs
    ensures FirstIndex(xs, Collect(acc, xs)[i]) < FirstIndex(xs, Collect(acc, xs)[j])
    decreases |xs|
  {
    CollectExtends(acc, xs);
    var r := Collect(acc, xs);
    assert xs != [];
    var x := xs[0];
    var acc' := Insert(acc, x);
    assert r == Collect(acc', xs[1..]);
    CollectExtends(acc', xs[1..]);
    if acc' == acc + [x] && i == |acc| {
      assert r[i] == x;
      assert r[j] != x by {
        assert r[j] !in acc';
      }
      assert FirstIndex(xs, r[i]) == 0;
      assert FirstIndex(xs, r[j]) != 0;
    } else {
      // Neither r[i] nor r[j] is x: both lie beyond acc', which holds x if it was added.
      assert r[i] != x && r[j] != x by {
        if acc' == acc + [x] {
          assert r[i] !in acc' && r[j] !in acc';
        } else {
          assert x in acc || !Plausible(x);
          assert r[i] !in acc && r[j] !in acc;
          assert Plausible(r[i]) && Plausible(r[j]);
        }
      }
      CollectKeepsFirstSeenOrder(acc', xs[1..], i, j);
      FirstIndexOfTail(xs, r[i]);
      FirstIndexOfTail(xs, r[j]);
    }
  }

  lemma FirstIndexOfTail(xs: seq<string>, y: string)
    requires y in xs && xs[0] != y
    ensures y in xs[1..] && FirstIndex(xs, y) == 1 + FirstIndex(xs[1..], y)
  {
  }

  /** Every returned id is all digits and between 10 and 25 characters long. */
  lemma ExtractedIdsWellFormed(html: string)
    ensures forall id :: id in ExtractVideoIds(html) ==>
      AllDigits(id) && MinIdLength <= |id| <= MaxIdLength
  {
    CollectExtends([], CapturesFrom(html, 0));
    CapturesAreDigits(html, 0);
  }

  lemma {:induction false} CapturesAreDigits(html: string, k: nat)
    requires k <= |Patterns|
    ensures forall id :: id in CapturesFrom(html, k) ==> AllDigits(id)
    decreases |Patterns| - k
  {
    if k < |Patterns| {
      CapturesAreDigits(html, k + 1);
    }
  }

  /**
   * The result has no duplicates and holds exactly the captures of plausible
   * length, ordered by their first capture: all pattern-1 matches in text
   * order, then the unseen matches of patterns 2 to 6 in turn.
   */
  lemma ExtractedIdsDistinctAndOrdered(html: string)
    ensures Distinct(ExtractVideoIds(html))
    ensures forall x :: x in ExtractVideoIds(html) <==> x in CapturesFrom(html, 0) && Plausible(x)
    ensures forall i, j :: 0 <= i < j < |ExtractVideoIds(html)| ==>
      FirstIndex(CapturesFrom(html, 0), ExtractVideoIds(html)[i])
        < FirstIndex(CapturesFrom(html, 0), ExtractVideoIds(html)[j])
  {
    var xs := CapturesFrom(html, 0);
    CollectExtends([], xs);
    forall i, j | 0 <= i < j < |ExtractVideoIds(html)|
      ensures FirstIndex(xs, ExtractVideoIds(html)[i]) < FirstIndex(xs, ExtractVideoIds(html)[j])
    {
      CollectKeepsFirstSeenOrder([], xs, i, j);
    }
  }

  /** A match at the position the scan has reached is captured next. */
  lemma ScanHead(html: string, p: Pattern, i: nat)
    requires i < |html| && MatchAt(html, p, i).Some?
    ensures Scan(html, p, i) == [MatchAt(html, p, i).value.id] + Scan(html, p, MatchAt(html, p, i).value.end)
  {
  }

  /** Without a match at the position reached, the scan moves on by one character. */
  lemma ScanSkip(html: string, p: Pattern, i: nat)
    requires i < |html| && MatchAt(html, p, i).None?
    ensures Scan(html, p, i) == Scan(html, p, i + 1)
  {
  }

  /** A match of `p` at `k`, if any, ends at or before `i`. */
  predicate EndsBy(html: string, p: Pattern, k: nat, i: nat)
    requires k <= |html|
  {
    MatchAt(html, p, k).Some? ==> MatchAt(html, p, k).value.end <= i
  }

  /**
   * `exec` reaches index `i` when every match that starts before `i` (from
   * `lo`) ends at or before `i`; the match at `i` is then captured.
   */
  lemma {:induction false} ScanReaches(html: string, p: Pattern, lo: nat, i: nat)
    requires lo <= i < |html|
    requires MatchAt(html, p, i).Some?
    requires forall k :: lo <= k < i ==> EndsBy(html, p, k, i)
    ensures MatchAt(html, p, i).value.id in Scan(html, p, lo)
    decreases i - lo
  {
    if lo == i {
      ScanHead(html, p, i);
    } else {
      assert EndsBy(html, p, lo, i);
      var r := MatchAt(html, p, lo);
      if r.Some? {
        ScanHead(html, p, lo);
        if r.value.end < i {
          ScanReaches(html, p, r.value.end, i);
        } else {
          ScanHead(html, p, i);
        }
      } else {
        ScanSkip(html, p, lo);
        ScanReaches(html, p, lo + 1, i);
      }
    }
  }

  /** Two "/video/" matches of pattern 1 never overlap. */
  lemma VideoMatchesDoNotOverlap(html: string, k: nat, i: nat)
    requires k < i <= |html|
    requires MatchAt(html, Patterns[0], k).Some?
    requires OccursAt(html, VideoSegment, i)
    ensures MatchAt(html, Patterns[0], k).value.end <= i
  {
    var e := MatchAt(html, Patterns[0], k).value.end;
    assert OccursAt(html, VideoSegment, k);
    assert e == DigitRunEnd(html, k + 7);
    assert html[i] == '/' by { assert html[i..i + 7][0] == '/'; }
    assert html[i + 1] == 'v' by { assert html[i..i + 7][1] == 'v'; }
    assert forall j :: 0 <= j < 7 ==> html[k + j] == VideoSegment[j] by {
      assert html[k..k + 7] == VideoSegment;
    }
  }

  /**
   * Completeness of rule 1: every "/video/" followed by a maximal digit run of
   * 10 to 25 digits yields that run as an id. A longer run is not truncated:
   * the match captures it whole and the length filter drops it.
   */
  lemma VideoPathIdFound(html: string, i: nat)
    requires OccursAt(html, VideoSegment, i)
    requires MinIdLength <= DigitRunEnd(html, i + 7) - (i + 7) <= MaxIdLength
    ensures html[i + 7..DigitRunEnd(html, i + 7)] in ExtractVideoIds(html)
  {
    var p := Patterns[0];
    var m := MatchAt(html, p, i);
    assert m == Some(Match(html[i + 7..DigitRunEnd(html, i + 7)], DigitRunEnd(html, i + 7)));
    forall k | 0 <= k < i
      ensures EndsBy(html, p, k, i)
    {
      if MatchAt(html, p, k).Some? {
        VideoMatchesDoNotOverlap(html, k, i);
      }
    }
    ScanReaches(html, p, 0, i);
    assert CapturesFrom(html, 0) == Scan(html, p, 0) + CapturesFrom(html, 1);
    ExtractedIdsDistinctAndOrdered(html);
  }

  /** A digit run longer than 25 after "/video/" is captured whole, so it is dropped. */
  lemma LongVideoRunCapturedWhole(html: string, i: nat)
    requires OccursAt(html, VideoSegment, i)
    requires DigitRunEnd(html, i + 7) - (i + 7) > MaxIdLength
    ensures MatchAt(html, Patterns[0], i).Some?
    ensures !Plausible(MatchAt(html, Patterns[0], i).value.id)
  {
  }

  // ---------------------------------------------------------------------------
  // extractTikTokVideoId and generateTikTokEmbedUrl

  /** `/\/video\/(\d+)/` can match at `p`: "/video/" followed by at least one digit. */
  predicate VideoIdAt(url: string, p: nat) {
    OccursAt(url, VideoSegment, p) && p + 7 < |url| && IsDigit(url[p + 7])
  }

  /**
   * Search for `/\/video\/(\d+)/` from index `i`: the leftmost position at
   * or after `i` where it matches.
   */
  function FirstVideoIdAt(url: string, i: nat): (r: Option<nat>)
    requires i <= |url|
    ensures r.None? <==> forall p :: i <= p < |url| ==> !VideoIdAt(url, p)
    ensures r.Some? ==> i <= r.value < |url| && VideoIdAt(url, r.value)
    ensures r.Some? ==> forall q :: i <= q < r.value ==> !VideoIdAt(url, q)
    decreases |url| - i
  {
    if i == |url| then None
    else if VideoIdAt(url, i) then Some(i)
    else FirstVideoIdAt(url, i + 1)
  }

  /**
   * `extractTikTokVideoId`: the maximal digit run after the first "/video/"
   * that is followed by a digit.
   */
  function ExtractVideoId(url: string): (r: Option<string>)
    ensures r.Some? ==> |r.value| > 0 && AllDigits(r.value)
    ensures r.None? <==> forall p :: 0 <= p < |url| ==> !VideoIdAt(url, p)
  {
    match FirstVideoIdAt(url, 0)
    case Some(p) => Some(url[p + 7..DigitRunEnd(url, p + 7)])
    case None => None
  }

  /** `generateTikTokEmbedUrl`. */
  function EmbedUrl(url: string): (r: string)
    ensures ExtractVideoId(url).None? ==> r == url
    ensures ExtractVideoId(url).Some? ==> r == EmbedPrefix + ExtractVideoId(url).value
  {
    match ExtractVideoId(url)
    case Some(id) => EmbedPrefix + id
    case None => url
  }

  /** The watch URL the scraper builds for an id. */
  function ProfileVideoUrl(id: string): string {
    ProfileVideoPrefix + id
  }

  lemma NoVideoIdInProfilePrefix(url: string, q: nat)
    requires StartsWith(url, ProfileVideoPrefix) && q < 35
    ensures !VideoIdAt(url, q)
  {
    assert forall j :: 0 <= j < 42 ==> url[j] == ProfileVideoPrefix[j] by {
      assert url[..42] == ProfileVideoPrefix;
    }
  }

  /**
   * Round trip: the id of a watch URL built from an all-digit id is that id,
   * and its embed URL is the embed prefix plus the id.
   */
  lemma ProfileVideoUrlRoundTrip(id: string)
    requires |id| > 0 && AllDigits(id)
    ensures ExtractVideoId(ProfileVideoUrl(id)) == Some(id)
    ensures EmbedUrl(ProfileVideoUrl(id)) == EmbedPrefix + id
  {
    var url := ProfileVideoUrl(id);
    assert url[35..42] == VideoSegment;
    assert url[42..] == id;
    assert VideoIdAt(url, 35) by { assert url[42] == id[0]; }
    forall q | 0 <= q < 35 ensures !VideoIdAt(url, q) {
      NoVideoIdInProfilePrefix(url, q);
    }
    assert FirstVideoIdAt(url, 0) == Some(35);
    DigitRunCoversDigits(url, 42);
    assert ExtractVideoId(url).value == url[42..] == id;
  }

  lemma {:induction false} DigitRunCoversDigits(s: string, i: nat)
    requires i <= |s|
    requires forall k :: i <= k < |s| ==> IsDigit(s[k])
    ensures DigitRunEnd(s, i) == |s|
    decreases |s| - i
  {
    if i < |s| {
      DigitRunCoversDigits(s, i + 1);
    }
  }
}

=== FILE: wrappers.dfy ===
/** Optional values: JavaScript's `undefined`/`null` versus a present value. */
module Wrappers {

  datatype Option<+T> = None | Some(value: T) {

    /** The value, or `default` when absent. */
    function GetOr(default: T): T {
      match this
      case Some(v) => v
      case None => default
    }
  }
}
